=== FILE: README.md ===
# c24-spring record-splitting read path, in Dafny

This project models how the C24 Spring Batch item reader cuts a character
stream into records and hands each record to the C24 codec, together with a
few small pure pieces of the Spring Integration module.

- **SplittingReader** is the character reader with a one-slot pushback. It
  provides `readLine`, `readUntil`, `readUntilInclusive`, bulk `read`, `ready`
  and `close`. Module `SplittingReader` states it as pure steps on an
  immutable state: the characters still to come, the pushback, the open flag
  and the detected line terminator.
- **SplittingBuffer** runs the same operations the way the Java class does,
  with a 10 000-character buffer refilled from the underlying Reader. It
  proves that every buffered operation returns exactly what the abstract step
  returns, however the input is chunked.
- **ElementReader** is `C24ItemReader.readElement`. It groups lines into one
  entity using the start pattern and the optional stop pattern, and pushes
  back an over-read start line. Patterns and the ParseListener are function
  parameters.
- **Parser** is the `finished` state machine around the codec call. It also
  covers the reference-equality test on "Stream closed".
- **FileSource**, **ZipFileSource** and **ReaderSource** are the reader
  sources. Readers live in a store (`Readers.Heap`) with fresh identities, so
  Java's `==` on readers is modelled faithfully. ZipFileSource is a cursor
  over the archive's entry list. `SkipLines`/`Open` drop the first `skipLines`
  lines of each reader.
- **ItemReader** is the rest of `C24ItemReader`:
  - `validateConfiguration`;
  - the three parser modes of `getParser`;
  - `discardParser`;
  - the `read()` loop with validation and the listener's `process`.
- **XmlItemReader** is the XML line splitter of `C24XmlItemReader`, which
  cuts before each `<`.
- **ValidatingProcessor** is `C24ValidatingItemProcessor.process`, with its
  fail-fast and aggregate modes.
- **FileSplitting** is the line batching of `C24FileSplittingTransformer`.
- **Transformer** is `extractOutputPayload` and the sinks of
  `C24Transformer`.
- **ZipFileWriterSource** is the entry-name derivation of the zip writer.

The codec (`Source.readObject`), the ValidationManager's verdicts (including
what re-firing a single failure event throws, if anything), the transform,
the JavaClassSink's conversion (which may fail with an IOException), the
ParseListener callbacks and the regular expressions are oracles, given to the
model as function parameters. Streams are finite
strings. The `ready()` of a file or zip-entry reader is read as "not at end
of input"; the `StringReader` a codec source reads an entity from is ready
exactly while it is open. One thread calls `read()` at a time.

## Model

| member | source | states |
|---|---|---|
| Common.StripFilePrefix | c24-spring-batch/src/main/java/biz/c24/io/spring/batch/reader/source/FileSource.java:74-77 | A name starting with `file://` loses exactly that prefix; any other name is unchanged |
| SplittingReader.New | c24-spring-batch/src/main/java/biz/c24/io/spring/batch/reader/source/SplittingReader.java:59-72 | A new reader is open and has the whole text still to deliver |
| SplittingReader.ReadUntil | c24-spring-batch/src/main/java/biz/c24/io/spring/batch/reader/source/SplittingReader.java:104-143 | Null exactly when nothing is ready; a pending pushback is returned verbatim; otherwise the result followed by what is left is the text before the call; settings are kept and the pushback is emptied |
| SplittingReader.ReadUntilInclusive | c24-spring-batch/src/main/java/biz/c24/io/spring/batch/reader/source/SplittingReader.java:158-197 | As for `readUntil`: null only at the end, pushback first, and nothing lost or duplicated |
| SplittingReader.ReadLine | c24-spring-batch/src/main/java/biz/c24/io/spring/batch/reader/source/SplittingReader.java:211-268 | Null exactly at the end; pushback first; the line and the rest together are the text before the call; the terminator setting is sticky and only recorded under `consistentLineTerminators` |
| SplittingReader.Pushback | c24-spring-batch/src/main/java/biz/c24/io/spring/batch/reader/source/SplittingReader.java:276-278 | The pushed line comes before the remaining input, replacing any earlier pushback, and the reader is ready |
| SplittingReader.Close | c24-spring-batch/src/main/java/biz/c24/io/spring/batch/reader/source/SplittingReader.java:295-298 | The reader is marked closed and its pending text is kept; which reads after it throw is stated at the buffer level (SplittingBuffer.Close) |
| SplittingReader.Read | c24-spring-batch/src/main/java/biz/c24/io/spring/batch/reader/source/SplittingReader.java:305-358 | A closed reader fails with "Stream closed"; otherwise at most `len` characters are copied, pushback first; the count is -1 when nothing is copied; the rest stays pending, including an unconsumed pushback suffix |
| SplittingReader.DetectedTerminator | c24-spring-batch/src/main/java/biz/c24/io/spring/batch/reader/source/SplittingReader.java:235-244 | The recorded terminator is a lone `\n` that ends the line, or a `\r` followed by more input, and nothing else |
| SplittingReader.LineCutIsFirstLine | c24-spring-batch/src/main/java/biz/c24/io/spring/batch/reader/source/SplittingReader.java:223-265 | `readLine` cuts the input exactly at the first line of an independent definition (up to `\n`, `\r\n` or a lone `\r`), and that definition admits no other cut |
| SplittingReader.AllLinesLossless | c24-spring-batch/src/main/java/biz/c24/io/spring/batch/reader/source/SplittingReader.java:211-268 | Concatenating every line `readLine` returns, until null, gives back the pending text exactly, terminators included |
| SplittingReader.LinesOfTerminated | c24-spring-batch/src/main/java/biz/c24/io/spring/batch/reader/source/SplittingReader.java:223-265 | A line ended by `\n`, `\r\n` or a lone `\r` is returned with its terminator, and reading resumes right after it |
| SplittingReader.LinesOfUnterminated | c24-spring-batch/src/main/java/biz/c24/io/spring/batch/reader/source/SplittingReader.java:223-265 | Text without any terminator is returned whole as one line, then null |
| SplittingReader.FourKindsOfLine | c24-spring-batch/src/main/java/biz/c24/io/spring/batch/reader/source/SplittingReader.java:211-268 | Lines ending in `\n`, `\r\n`, `\r` and nothing come back one by one with their terminators |
| SplittingReader.ReadLineExample | c24-spring-batch/src/test/java/biz/c24/io/spring/batch/reader/source/SplittingReaderTests.java:37-44 | "String 1\nString 2\r\nString 3\rString 4" gives the four lines the test expects, then null |
| SplittingReader.PushbackThenReadLine | c24-spring-batch/src/main/java/biz/c24/io/spring/batch/reader/source/SplittingReader.java:216-218 | After `pushback(x)`, `readLine` returns `x` and leaves the reader exactly where it was before the pushback |
| SplittingReader.PushbackThenReadUntil | c24-spring-batch/src/main/java/biz/c24/io/spring/batch/reader/source/SplittingReader.java:107-110 | After `pushback(x)`, `readUntil` returns `x` whatever delimiter it is given, and resumes where the reader was |
| SplittingReader.PushbackThenReadUntilInclusive | c24-spring-batch/src/main/java/biz/c24/io/spring/batch/reader/source/SplittingReader.java:161-163 | After `pushback(x)`, `readUntilInclusive` returns `x` whatever delimiter it is given, and resumes where the reader was |
| SplittingReader.PushbackOverwrites | c24-spring-batch/src/main/java/biz/c24/io/spring/batch/reader/source/SplittingReader.java:276-278 | A second pushback replaces the first |
| SplittingReader.TerminatorDetection | c24-spring-batch/src/main/java/biz/c24/io/spring/batch/reader/source/SplittingReader.java:235-244 | Under `consistentLineTerminators`, the first line records `\n` exactly when it ends in a lone `\n`, and `\r` exactly when it ends in `\r` with more input after; a `\r\n` line records nothing |
| SplittingReader.DetectedTerminatorSwitchesScan | c24-spring-batch/src/main/java/biz/c24/io/spring/batch/reader/source/SplittingReader.java:214-215 | Once a terminator is recorded, `readLine` is exactly `readUntilInclusive` on it |
| SplittingReader.ReadUntilOfSegment | c24-spring-batch/src/main/java/biz/c24/io/spring/batch/reader/source/SplittingReader.java:112-135 | `readUntil(c)` returns exactly a segment with no `c` after its first character, when what follows is empty or starts with `c` |
| SplittingReader.ReadUntilTwice | c24-spring-batch/src/main/java/biz/c24/io/spring/batch/reader/source/SplittingReader.java:112-135 | Two `readUntil(c)` calls return two such segments in order: the `c` that ends one starts the next |
| SplittingReader.ReadUntilExample | c24-spring-batch/src/test/java/biz/c24/io/spring/batch/reader/source/SplittingReaderTests.java:66-70 | `readUntil('i')` on the test vector gives "Str", then "ing 1\nStr" |
| SplittingReader.ReadUntilDelimits | c24-spring-batch/src/main/java/biz/c24/io/spring/batch/reader/source/SplittingReader.java:112-135 | Without pushback, `readUntil` returns at least one character, holds no `c` after the first, and leaves the next `c` (if any) in front of the input |
| SplittingReader.ReadUntilInclusiveDelimits | c24-spring-batch/src/main/java/biz/c24/io/spring/batch/reader/source/SplittingReader.java:165-190 | Without pushback, `readUntilInclusive` returns text whose only `c` is its last character, or the whole remaining input when it holds no `c` |
| SplittingReader.ReadSplits | c24-spring-batch/src/main/java/biz/c24/io/spring/batch/reader/source/SplittingReader.java:305-358 | A `read` of `a` characters followed by one of `b` delivers, in order, what one `read` of `a + b` delivers, and leaves the same text pending |
| SplittingReader.ReadAfterClose | c24-spring-batch/src/main/java/biz/c24/io/spring/batch/reader/source/SplittingReader.java:305-309 | Every `read` after `close` fails with "Stream closed" |
| SplittingBuffer.New | c24-spring-batch/src/main/java/biz/c24/io/spring/batch/reader/source/SplittingReader.java:59-72 | The buffered reader over any chunking of a text stands for the abstract reader over that text |
| SplittingBuffer.Fill | c24-spring-batch/src/main/java/biz/c24/io/spring/batch/reader/source/SplittingReader.java:84-89 | A refill loads the next chunk into the window and loses nothing; at the end of input it sets the mark to -1, after which the underlying Reader is not read again; after `close()` a refill that would read throws and changes nothing |
| SplittingBuffer.ReadUntil | c24-spring-batch/src/main/java/biz/c24/io/spring/batch/reader/source/SplittingReader.java:104-143 | Whenever it does not throw, the buffered `readUntil` returns what the abstract one returns and leaves the state it leaves, wherever the refills fall; it throws exactly on a closed reader without pushback whose window holds no `c` after its first character, and then changes nothing |
| SplittingBuffer.ReadUntilInclusive | c24-spring-batch/src/main/java/biz/c24/io/spring/batch/reader/source/SplittingReader.java:158-197 | Whenever it does not throw, the buffered `readUntilInclusive` agrees with the abstract one, wherever the refills fall; it throws exactly on a closed reader without pushback whose window holds no `c`, and then changes nothing |
| SplittingBuffer.ReadLine | c24-spring-batch/src/main/java/biz/c24/io/spring/batch/reader/source/SplittingReader.java:211-268 | Whenever it does not throw, the buffered `readLine` agrees with the abstract one, including across a `\r` / `\n` split by a refill; it throws exactly on a closed reader without pushback whose window does not settle where the line ends (a final `\r` needs the next character), and then changes nothing |
| SplittingBuffer.Read | c24-spring-batch/src/main/java/biz/c24/io/spring/batch/reader/source/SplittingReader.java:305-358 | The buffered bulk `read` agrees with the abstract one, wherever the refills fall |
| SplittingBuffer.Ready | c24-spring-batch/src/main/java/biz/c24/io/spring/batch/reader/source/SplittingReader.java:284-286 | `ready()` (pushback pending, buffered characters left, or the source ready) throws exactly on a closed reader with no pushback and an empty window; whenever it answers, it answers whether the abstract reader has something pending |
| SplittingBuffer.Pushback | c24-spring-batch/src/main/java/biz/c24/io/spring/batch/reader/source/SplittingReader.java:276-278 | The buffered pushback stands for the abstract pushback and leaves the buffer alone |
| SplittingBuffer.Close | c24-spring-batch/src/main/java/biz/c24/io/spring/batch/reader/source/SplittingReader.java:295-298 | The buffered close stands for the abstract close and keeps the pushback and window readable; from then on every refill that would read throws, and `ready()` throws once the pushback and window are used up |
| Readers.CloseReader | c24-spring-batch/src/main/java/biz/c24/io/spring/batch/reader/source/FileSource.java:142 | Closing a reader keeps it in the store with its text; no other reader changes |
| Readers.ReadyOf | c24-spring-batch/src/main/java/biz/c24/io/spring/batch/reader/source/FileSource.java:116 | `ready()` throws exactly on a closed reader, and is true exactly when another line can be read |
| Readers.SkipLinesDropsLines | c24-spring-batch/src/main/java/biz/c24/io/spring/batch/reader/source/ZipFileSource.java:146-151 | Skipping drops exactly the first `skipLines` lines `readLine` would return, or all of them when there are fewer; the rest is intact |
| Readers.OpenSkipsLines | c24-spring-batch/src/main/java/biz/c24/io/spring/batch/reader/source/ZipFileSource.java:144-153 | A freshly opened reader holds the text less its first `skipLines` lines, all of it when `skipLines <= 0` |
| FileSource.Initialise | c24-spring-batch/src/main/java/biz/c24/io/spring/batch/reader/source/FileSource.java:59-91 | Fails exactly when the contents cannot be opened; the name comes from the resource, or from `input.file` less `file://`; a fresh reader is primed |
| FileSource.InitialiseSkipsLines | c24-spring-batch/src/main/java/biz/c24/io/spring/batch/reader/source/FileSource.java:82-88 | The primed reader holds the file less its first `skipLines` lines |
| FileSource.GetReader | c24-spring-batch/src/main/java/biz/c24/io/spring/batch/reader/source/FileSource.java:114-125 | The reader is returned exactly when there is one and it is ready; otherwise null, also when `ready()` throws |
| FileSource.GetNextReader | c24-spring-batch/src/main/java/biz/c24/io/spring/batch/reader/source/FileSource.java:128-132 | Hands over the current reader and forgets it |
| FileSource.HandedOutOnce | c24-spring-batch/src/main/java/biz/c24/io/spring/batch/reader/source/FileSource.java:128-132 | A second `getNextReader` returns null |
| FileSource.Discard | c24-spring-batch/src/main/java/biz/c24/io/spring/batch/reader/source/FileSource.java:140-146 | The current reader is closed and forgotten; any other reader is left alone |
| FileSource.Close | c24-spring-batch/src/main/java/biz/c24/io/spring/batch/reader/source/FileSource.java:98-109 | The reader, if any, is closed and forgotten; without one nothing happens |
| FileSource.UseMultipleThreadsPerReader | c24-spring-batch/src/main/java/biz/c24/io/spring/batch/reader/source/FileSource.java:134-137 | Always true |
| FileSource.DiscardedNeverReturned | c24-spring-batch/src/main/java/biz/c24/io/spring/batch/reader/source/FileSource.java:114-146 | After the current reader is discarded, neither accessor returns it and it is closed |
| ZipFileSource.NewZipSource | c24-spring-batch/src/main/java/biz/c24/io/spring/batch/reader/source/ZipFileSource.java:65 | The hint starts true and there is no reader |
| ZipFileSource.Advance | c24-spring-batch/src/main/java/biz/c24/io/spring/batch/reader/source/ZipFileSource.java:194-202 | Opens a fresh reader on the next entry after skipping lines, or forgets the reader after the last entry |
| ZipFileSource.Initialise | c24-spring-batch/src/main/java/biz/c24/io/spring/batch/reader/source/ZipFileSource.java:88-129 | Fails exactly when the archive cannot be opened; the name is stripped of `file://`; a reader is primed on the first entry when there is one, and an archive without entries keeps the current reader; the hint turns off exactly for more than 20 entries whose first is of size -1 or under 10000 |
| ZipFileSource.FiveEntriesShareReaders | c24-spring-batch/src/test/java/biz/c24/io/spring/batch/reader/C24ItemReaderTests.java:166-177 | A five-entry archive keeps the hint on |
| ZipFileSource.FiftySmallEntriesReaderPerThread | c24-spring-batch/src/test/java/biz/c24/io/spring/batch/reader/C24ItemReaderTests.java:166-177 | Fifty small entries turn the hint off |
| ZipFileSource.GetReader | c24-spring-batch/src/main/java/biz/c24/io/spring/batch/reader/source/ZipFileSource.java:158-186 | The current reader while it is ready; once it is used up, a reader on the next entry or null; `ready()` on a closed reader fails and changes nothing |
| ZipFileSource.GetNextReader | c24-spring-batch/src/main/java/biz/c24/io/spring/batch/reader/source/ZipFileSource.java:189-207 | Returns the current reader and moves to the next entry; with no current reader it returns null and does not move |
| ZipFileSource.Discard | c24-spring-batch/src/main/java/biz/c24/io/spring/batch/reader/source/ZipFileSource.java:215-220 | Moves past the reader if it is current, and closes it in every case |
| ZipFileSource.DiscardRetires | c24-spring-batch/src/main/java/biz/c24/io/spring/batch/reader/source/ZipFileSource.java:215-220 | After `discard(r)` the source no longer holds `r` |
| ZipFileSource.RetiredStaysRetired | c24-spring-batch/src/main/java/biz/c24/io/spring/batch/reader/source/ZipFileSource.java:158-220 | A reader the source has let go of is never returned by `getReader` or `getNextReader`, and no call takes it back |
| ZipFileSource.FreshStep | c24-spring-batch/src/main/java/biz/c24/io/spring/batch/reader/source/ZipFileSource.java:189-207 | One `getNextReader` on a primed source returns the current reader and primes a fresh reader on the next entry |
| ZipFileSource.HandedOutTexts | c24-spring-batch/src/main/java/biz/c24/io/spring/batch/reader/source/ZipFileSource.java:112-118 | The `i`-th reader handed out is an untouched reader on the `i`-th entry from the current one, less its skipped lines: entries come in archive order |
| ZipFileSource.HandedOutLater | c24-spring-batch/src/main/java/biz/c24/io/spring/batch/reader/source/ZipFileSource.java:194-202 | The same, for readers after the first |
| ZipFileSource.HandedOutFirst | c24-spring-batch/src/main/java/biz/c24/io/spring/batch/reader/source/ZipFileSource.java:190-205 | The first reader handed out is the primed one, untouched |
| ZipFileSource.HandedOutDistinct | c24-spring-batch/src/main/java/biz/c24/io/spring/batch/reader/source/ZipFileSource.java:189-207 | Readers are handed out with increasing identities, so none twice |
| ZipFileSource.HandedOutThenNull | c24-spring-batch/src/main/java/biz/c24/io/spring/batch/reader/source/ZipFileSource.java:200-202 | After the last entry's reader, `getNextReader` returns null |
| ZipFileSource.KeptReaders | c24-spring-batch/src/main/java/biz/c24/io/spring/batch/reader/source/ZipFileSource.java:189-207 | Readers handed out earlier are not touched by later calls |
| ZipFileSource.NextReadersFresh | c24-spring-batch/src/main/java/biz/c24/io/spring/batch/reader/source/ZipFileSource.java:189-207 | Every reader handed out is the current one or newly opened |
| ZipFileSource.NoneStaysNone | c24-spring-batch/src/main/java/biz/c24/io/spring/batch/reader/source/ZipFileSource.java:190-205 | With no current reader, `getNextReader` keeps returning null and changes nothing |
| ReaderSource.GetReader | c24-spring-batch/src/main/java/biz/c24/io/spring/batch/reader/source/SplittingReaderSource.java:46-52 | A returned reader is the source's current one; only a zip source lets `ready()` fail; without a reader the result is null and nothing changes |
| ReaderSource.NoReaderIsStable | c24-spring-batch/src/main/java/biz/c24/io/spring/batch/reader/source/FileSource.java:114-125 | Once `getReader()` is null, asking again is null and changes nothing |
| ReaderSource.GetNextReader | c24-spring-batch/src/main/java/biz/c24/io/spring/batch/reader/source/SplittingReaderSource.java:54-60 | Returns the current reader and never keeps it as current |
| ReaderSource.Discard | c24-spring-batch/src/main/java/biz/c24/io/spring/batch/reader/source/SplittingReaderSource.java:69-74 | Afterwards the source does not hold the reader, and closes it if it was current |
| Parser.NewParser | c24-spring-batch/src/main/java/biz/c24/io/spring/batch/reader/Parser.java:42-57 | A new parser is not finished |
| Parser.RootCause | c24-spring-batch/src/main/java/biz/c24/io/spring/batch/reader/Parser.java:89-92 | The root has no cause, and an exception without cause is its own root |
| Parser.Read | c24-spring-batch/src/main/java/biz/c24/io/spring/batch/reader/Parser.java:76-112 | A finished parser returns null without calling the codec; an object is returned and keeps the parser going; anything else finishes it; a failure is rethrown unless it is the XML "Stream closed" case |
| Parser.FinishedIsFinal | c24-spring-batch/src/main/java/biz/c24/io/spring/batch/reader/Parser.java:104-108 | `finished` never goes back to false |
| Parser.NullForever | c24-spring-batch/src/main/java/biz/c24/io/spring/batch/reader/Parser.java:79-111 | After a read that gives no object, every later read gives null and leaves the codec alone |
| Parser.BuiltMessageIsRethrown | c24-spring-batch/src/main/java/biz/c24/io/spring/batch/reader/Parser.java:93 | A "Stream closed" message built at run time fails the reference test and is rethrown |
| Parser.WrappedStreamClosed | c24-spring-batch/src/main/java/biz/c24/io/spring/batch/reader/Parser.java:87-103 | The literal "Stream closed" is recognised at the end of the cause chain, and only for an XML source |
| ElementReader.Step | c24-spring-batch/src/main/java/biz/c24/io/spring/batch/reader/C24ItemReader.java:334-359 | A line is pushed back exactly when it matches the start pattern, starts are being looked for, and the gathered text is non-blank; inside an entity it is appended, and a stop match ends the entity |
| ElementReader.ProcessedLines | c24-spring-batch/src/main/java/biz/c24/io/spring/batch/reader/C24ItemReader.java:326-329 | Each line is rewritten by the listener, if there is one, before it is matched |
| ElementReader.ReadElement | c24-spring-batch/src/main/java/biz/c24/io/spring/batch/reader/C24ItemReader.java:315-370 | The entity is the grouping of the reader's processed lines; a context exists exactly with a listener and is its `getContext` of the entity text |
| ElementReader.ExtractIsGroup | c24-spring-batch/src/main/java/biz/c24/io/spring/batch/reader/C24ItemReader.java:322-361 | The loop over the reader makes the same decisions as the grouping over the list of lines it would deliver |
| ElementReader.ExtractLeaves | c24-spring-batch/src/main/java/biz/c24/io/spring/batch/reader/C24ItemReader.java:340 | Afterwards the reader delivers the lines not consumed, preceded by the pushed-back (processed) line if any |
| ElementReader.ExtractPushBack | c24-spring-batch/src/main/java/biz/c24/io/spring/batch/reader/C24ItemReader.java:334-343 | A start line met with non-blank text gathered is pushed back and is the next line read |
| ElementReader.ExtractFirstLine | c24-spring-batch/src/main/java/biz/c24/io/spring/batch/reader/C24ItemReader.java:322-329 | The first line the loop reads is the first of the reader's lines |
| ElementReader.DropsBeforeStart | c24-spring-batch/src/main/java/biz/c24/io/spring/batch/reader/C24ItemReader.java:334-352 | Lines before the first start line are read and dropped |
| ElementReader.NoStartNoElement | c24-spring-batch/src/main/java/biz/c24/io/spring/batch/reader/C24ItemReader.java:367-369 | Without a start line, every line is read and the entity is empty |
| ElementReader.ElementWithoutStop | c24-spring-batch/src/main/java/biz/c24/io/spring/batch/reader/C24ItemReader.java:334-352 | Without a stop pattern, an entity runs from its start line to the next start line met with non-blank text, which is pushed back, or to the end |
| ElementReader.ElementWithStop | c24-spring-batch/src/main/java/biz/c24/io/spring/batch/reader/C24ItemReader.java:334-358 | With a stop pattern, start lines inside an entity belong to it; it ends with and includes the first stop line, which may be the start line itself; nothing is pushed back |
| ItemReader.ValidateConfiguration | c24-spring-batch/src/main/java/biz/c24/io/spring/batch/reader/C24ItemReader.java:120-126 | Accepted exactly with an element type, a source, and no stop pattern without a start pattern; the first failing assertion is reported |
| ItemReader.ModeOf | c24-spring-batch/src/main/java/biz/c24/io/spring/batch/reader/C24ItemReader.java:442-487 | Shared parser exactly without a start pattern on a shared source; parser per reader exactly when the source advises against sharing; otherwise a start pattern is set |
| ItemReader.GetShared | c24-spring-batch/src/main/java/biz/c24/io/spring/batch/reader/C24ItemReader.java:442-455 | Reuses the shared parser; otherwise makes a new one on the source's `getReader()`, null exactly when that is null |
| ItemReader.NeedsNewReader | c24-spring-batch/src/main/java/biz/c24/io/spring/batch/reader/C24ItemReader.java:462-471 | A new reader is needed exactly when the parser's reader is not ready, a failing `ready()` counting as not ready |
| ItemReader.GetPerThread | c24-spring-batch/src/main/java/biz/c24/io/spring/batch/reader/C24ItemReader.java:459-484 | Keeps the thread's parser while its reader is ready; otherwise a new parser on `getNextReader()`, or the old stale parser when the source has none; null exactly with no parser and no reader |
| ItemReader.GetSharedReader | c24-spring-batch/src/main/java/biz/c24/io/spring/batch/reader/C24ItemReader.java:487-496 | Reuses the thread's parser; otherwise makes one on the source's `getReader()`, null exactly when that is null |
| ItemReader.GetParser | c24-spring-batch/src/main/java/biz/c24/io/spring/batch/reader/C24ItemReader.java:435-499 | The parser returned sits in the shared slot in mode 1 and in the thread's slot otherwise |
| ItemReader.NoParserIsStable | c24-spring-batch/src/main/java/biz/c24/io/spring/batch/reader/C24ItemReader.java:435-499 | Once `getParser()` finds none, asking again finds none and changes nothing |
| ItemReader.DiscardParser | c24-spring-batch/src/main/java/biz/c24/io/spring/batch/reader/C24ItemReader.java:379-398 | The source discards the reader only without a start pattern; in mode 1 the shared parser is cleared only if it is this one; otherwise the thread's parser is cleared |
| ItemReader.ParseEntity | c24-spring-batch/src/main/java/biz/c24/io/spring/batch/reader/C24ItemReader.java:535-545 | The codec sees the entity text unless the parser is finished; an object is produced exactly when it parses |
| ItemReader.SplitTurn | c24-spring-batch/src/main/java/biz/c24/io/spring/batch/reader/C24ItemReader.java:519-549 | A closed reader fails extraction (see Left out); the text fed to the codec is the entity `readElement` returns; a produced object is what the codec parsed from it, with the listener's context |
| ItemReader.BlankEntityDiscarded | c24-spring-batch/src/main/java/biz/c24/io/spring/batch/reader/C24ItemReader.java:535-549 | A blank entity is not parsed; the thread's parser is discarded and the source keeps its reader |
| ItemReader.FinishedParserDropsEntity | c24-spring-batch/src/main/java/biz/c24/io/spring/batch/reader/C24ItemReader.java:535-545 | A finished parser still takes entities off the reader, but parses none of them and is kept |
| ItemReader.StreamTurn | c24-spring-batch/src/main/java/biz/c24/io/spring/batch/reader/C24ItemReader.java:551-568 | An object is produced exactly when the codec parses a non-empty one; otherwise the parser's reader is discarded at the source |
| ItemReader.EmptyObjectDiscards | c24-spring-batch/src/main/java/biz/c24/io/spring/batch/reader/C24ItemReader.java:558-567 | An object with no attributes and no elements counts as none and discards the parser and its reader |
| ItemReader.Attempt | c24-spring-batch/src/main/java/biz/c24/io/spring/batch/reader/C24ItemReader.java:519-569 | At most one non-blank text reaches the codec; a produced object comes from it, or in stream mode is non-empty and has no context |
| ItemReader.Round | c24-spring-batch/src/main/java/biz/c24/io/spring/batch/reader/C24ItemReader.java:517-570 | The loop stops for lack of a parser exactly when `getParser()` is null, and then stays stopped |
| ItemReader.Loop | c24-spring-batch/src/main/java/biz/c24/io/spring/batch/reader/C24ItemReader.java:517-570 | Every text the codec sees is non-blank; an object found is the codec's parse of the last text, with its context |
| ItemReader.Finish | c24-spring-batch/src/main/java/biz/c24/io/spring/batch/reader/C24ItemReader.java:572-586 | Fails exactly when validation fails, carrying the object; the listener's `process` is applied only when there is a listener |
| ItemReader.Read | c24-spring-batch/src/main/java/biz/c24/io/spring/batch/reader/C24ItemReader.java:507-588 | Null only when no parser is left; every text parsed is non-blank; an item returned was parsed, is non-empty in stream mode, and passed validation |
| ItemReader.NullStaysNull | c24-spring-batch/src/main/java/biz/c24/io/spring/batch/reader/C24ItemReader.java:517 | After `read()` returns null, every later `read()` returns null and changes nothing |
| XmlItemReader.Scan | c24-spring-batch/src/main/java/biz/c24/io/spring/batch/reader/C24XmlItemReader.java:72-79 | A line under construction stays empty or a `<` followed by no other `<` |
| XmlItemReader.ScanSplits | c24-spring-batch/src/main/java/biz/c24/io/spring/batch/reader/C24XmlItemReader.java:72-79 | A scan returns its input, less the `<` it stopped at, if any |
| XmlItemReader.ReadLine | c24-spring-batch/src/main/java/biz/c24/io/spring/batch/reader/C24XmlItemReader.java:68-82 | Every line is empty or starts with the only `<` it holds; the line is "" exactly when the reader is not ready |
| XmlItemReader.ReadLineSplits | c24-spring-batch/src/main/java/biz/c24/io/spring/batch/reader/C24XmlItemReader.java:72-79 | The line and what is left are the input, with a `<` put in front when it had none, less the `<` that ended the line |
| XmlItemReader.AllLinesLossless | c24-spring-batch/src/main/java/biz/c24/io/spring/batch/reader/C24XmlItemReader.java:72-81 | Text starting with `<` and never holding two in a row comes back whole from its lines, except a final `<`, which is never returned |
| XmlItemReader.DoubleOpenLosesOne | c24-spring-batch/src/main/java/biz/c24/io/spring/batch/reader/C24XmlItemReader.java:72-77 | A `<` consumed as a terminator and followed by another `<` is lost |
| XmlItemReader.FirstLineOfUnopened | c24-spring-batch/src/main/java/biz/c24/io/spring/batch/reader/C24XmlItemReader.java:73-77 | Text not starting with `<` reads as if the `<` were there |
| XmlItemReader.TwoElements | c24-spring-batch/src/main/java/biz/c24/io/spring/batch/reader/C24XmlItemReader.java:62-66 | Two elements on one line are cut before each `<` |
| XmlItemReader.UnopenedTail | c24-spring-batch/src/main/java/biz/c24/io/spring/batch/reader/C24XmlItemReader.java:73-77 | Text without `<` is one line with a `<` put in front |
| XmlItemReader.ScanToEnd | c24-spring-batch/src/main/java/biz/c24/io/spring/batch/reader/C24XmlItemReader.java:72-79 | A scan runs through text without `<` to the end |
| XmlItemReader.ScanToOpen | c24-spring-batch/src/main/java/biz/c24/io/spring/batch/reader/C24XmlItemReader.java:72-79 | A scan stops at the next `<` and consumes it |
| ValidatingProcessor.NewProcessor | c24-spring-batch/src/main/java/biz/c24/io/spring/batch/processor/C24ValidatingItemProcessor.java:49 | `failfast` defaults to true |
| ValidatingProcessor.Process | c24-spring-batch/src/main/java/biz/c24/io/spring/batch/processor/C24ValidatingItemProcessor.java:56-98 | A valid item is returned unchanged; fail-fast raises the first failure with the item; in aggregate mode a single failure is re-fired with the manager left out of event-based mode, failing with what the re-fire throws and passing the item when it throws nothing; any other failing count raises a compound of all events in order; the listener count is restored |
| ValidatingProcessor.SingleFailureAsFailFast | c24-spring-batch/src/main/java/biz/c24/io/spring/batch/processor/C24ValidatingItemProcessor.java:81-95 | One failure in aggregate mode whose re-fire throws is reported exactly as fail-fast mode reports that exception |
| ValidatingProcessor.SilentRefirePasses | c24-spring-batch/src/main/java/biz/c24/io/spring/batch/processor/C24ValidatingItemProcessor.java:81-97 | One failure in aggregate mode whose re-fire throws nothing returns the item, with the manager no longer event-based |
| ValidatingProcessor.ManyFailuresAreCompound | c24-spring-batch/src/main/java/biz/c24/io/spring/batch/processor/C24ValidatingItemProcessor.java:86-87 | Any other failing count gives the compound exception with every event in order |
| FileSplitting.TransformPayload | c24-spring-integration/src/main/java/biz/c24/io/spring/integration/transformer/C24FileSplittingTransformer.java:27-50 | A `lineCount` of 0 becomes 1; an unreadable file is a handling error; a negative count is an illegal argument; otherwise every full batch is sent, in order, and no partial one |
| FileSplitting.SendBatches | c24-spring-integration/src/main/java/biz/c24/io/spring/integration/transformer/C24FileSplittingTransformer.java:33-44 | The loop sends the consecutive `k`-line slices of the file, as many as fit |
| FileSplitting.CountOfSlices | c24-spring-integration/src/main/java/biz/c24/io/spring/integration/transformer/C24FileSplittingTransformer.java:35-45 | The number of messages is determined by the line count: floor(lines / k) |
| FileSplitting.BatchesAreSlices | c24-spring-integration/src/main/java/biz/c24/io/spring/integration/transformer/C24FileSplittingTransformer.java:35-43 | The recursive batching and the slice description agree |
| FileSplitting.BatchesConcat | c24-spring-integration/src/main/java/biz/c24/io/spring/integration/transformer/C24FileSplittingTransformer.java:41-42 | The messages together are the file's lines up to the last full batch, in order |
| FileSplitting.ZeroLineCountSendsEachLine | c24-spring-integration/src/main/java/biz/c24/io/spring/integration/transformer/C24FileSplittingTransformer.java:15-29 | With the default count every line is a message of its own |
| FileSplitting.SlicesUnique | c24-spring-integration/src/main/java/biz/c24/io/spring/integration/transformer/C24FileSplittingTransformer.java:35-43 | The messages are determined by how many there are |
| Transformer.DefaultConfig | c24-spring-integration/src/main/java/biz/c24/io/spring/integration/transformer/C24Transformer.java:44-46 | `alwaysReturnArray` defaults to false, with no sink |
| Transformer.SetTargetClass | c24-spring-integration/src/main/java/biz/c24/io/spring/integration/transformer/C24Transformer.java:68-75 | A sink is set exactly when a target class is given |
| Transformer.SinkArray | c24-spring-integration/src/main/java/biz/c24/io/spring/integration/transformer/C24Transformer.java:130-146 | Each element is overwritten by its conversion, in index order; the run fails exactly when some conversion throws, and then the elements before the first failing one are converted and the rest untouched; without a sink the array is unchanged and nothing fails |
| Transformer.ExtractOutputPayload | c24-spring-integration/src/main/java/biz/c24/io/spring/integration/transformer/C24Transformer.java:106-146 | An empty matrix or first row gives null or an empty array, and null only then; a single element is unwrapped unless arrays are forced, and fails exactly when its conversion throws; otherwise the returned array is the caller's first row itself, converted in place, and a throwing conversion leaves that row converted up to the failing index; later rows are never touched |
| Transformer.ExtractIsFirstRow | c24-spring-integration/src/main/java/biz/c24/io/spring/integration/transformer/C24Transformer.java:114-127 | Only the first row counts, and an empty first row acts as an empty matrix |
| Transformer.NoSinkIsIdentity | c24-spring-integration/src/main/java/biz/c24/io/spring/integration/transformer/C24Transformer.java:130-146 | Without a target class nothing can fail and the payload holds the transform's own objects |
| Transformer.ConvertAllSpec | c24-spring-integration/src/main/java/biz/c24/io/spring/integration/transformer/C24Transformer.java:138-146 | Converting a whole row succeeds exactly when every element converts, and then each position holds its element's conversion |
| ZipFileWriterSource.TailName | c24-spring-batch/src/main/java/biz/c24/io/spring/batch/writer/source/ZipFileWriterSource.java:51-61 | The name is the text after the last separator up to the last `.`, or to the end without one; `substring` fails exactly when that `.` comes before the separator |
| ZipFileWriterSource.EntryNameOf | c24-spring-batch/src/main/java/biz/c24/io/spring/batch/writer/source/ZipFileWriterSource.java:42-61 | `output.file` is stripped of `file://` before the name is derived |
| ZipFileWriterSource.TailOfPath | c24-spring-batch/src/main/java/biz/c24/io/spring/batch/writer/source/ZipFileWriterSource.java:51-61 | `dir/base.ext` gives `base`, keeping earlier dots |
| ZipFileWriterSource.TailOfBareName | c24-spring-batch/src/main/java/biz/c24/io/spring/batch/writer/source/ZipFileWriterSource.java:51-58 | A bare name without separator or `.` is kept whole |
| ZipFileWriterSource.DotInDirectoryFails | c24-spring-batch/src/main/java/biz/c24/io/spring/batch/writer/source/ZipFileWriterSource.java:52-61 | A `.` in a directory with none in the file name makes `substring` fail |
| ZipFileWriterSource.TestFileEntryName | c24-spring-batch/src/test/java/biz/c24/io/spring/batch/writer/C24ItemWriterTests.java:138-139 | The writer test's temporary file gives an entry without separator and without `.zip` |

## Left out

- Real I/O is not modelled: opening files and archives, character encodings, and output streams. A stream is the finite text it would deliver. The `ready()` of a file or zip-entry reader is read as "not at end of input"; the `StringReader` a codec source reads an entity from is ready exactly while it is open. The zip writer's stream setup is left out.
- Concurrency is not modelled: `SyncParser`, the `ThreadLocal` parser and validator caches, the double-checked locking in `getParser` and `ZipFileSource.getReader`, and `synchronized(reader)` in `readElement`. The model is one thread calling `read()` in sequence.
- C24BatchItemReader is not part of this model. Its point is a background parsing thread and a bounded queue with timeouts.
- The codec (`Source.readObject`), the transform, the ParseListener callbacks and the `ComplexDataObject` emptiness test are oracles: function parameters about which nothing is assumed. The ValidationManager is an oracle given as a `Verdict` per item: what `validateByException` throws, what `validateByEvents` returns and fires, and what `fireValidationEvent` throws when the single event is re-fired; nothing ties these to each other. The JavaClassSink's `convertObject` is an oracle too, as a partial function: it may fail (the IOException it declares), and nothing else is assumed of it.
- Java regular expressions are not modelled. Start and stop patterns are predicates on a whole line, as `matches()` uses them.
- The sources hand out `BufferedReader`s, while the item reader consumes `SplittingReader`s. The model hands out `SplittingReader` states over the same text, with `consistentLineTerminators` off.
- `parser.getSplitter()` and the three-argument `Parser` constructor that `C24ItemReader` calls do not exist in `Parser.java`. A parser is modelled as carrying its reader, so the `reader == null` break of the `read()` loop never fires.
- A codec source created without a reader and without a source factory has nothing to ask `ready()` of. The model reports this as the `ReaderUnset` failure.
- `ready()` on a closed `BufferedReader` is taken to throw; on an open one it is "not at end". A `StringReader` is ready exactly while it is open.
- SplittingReader.ReadUntil: describes an open reader, or a closed one that answers from its pushback or buffer. The abstract state does not record where the buffer ends, so it cannot say which calls after `close()` throw. SplittingBuffer.ReadUntil states exactly when the Java method throws.
- SplittingReader.ReadUntilInclusive: as for ReadUntil; SplittingBuffer.ReadUntilInclusive states when it throws after `close()`.
- SplittingReader.ReadLine: as for ReadUntil; SplittingBuffer.ReadLine states when it throws after `close()`.
- SplittingReader.Close: keeps the pending text, because the abstract state cannot tell the buffered part, which stays readable, from the part a refill would have to fetch. SplittingBuffer.Close and SplittingBuffer.Fill state that every refill after `close()` throws.
- Readers.ReadyOf: a closed reader is taken to throw at once, as a closed `BufferedReader` does. A closed `SplittingReader` still answers true while it holds a pushback or buffered characters (SplittingBuffer.Ready); the abstract reader does not know its buffer, so that answer is not modelled.
- ItemReader.SplitTurn: extraction on a closed reader fails at once. Java's `readElement` loops on `ready()`, which a closed `SplittingReader` answers from its pushback or buffer, so it may still return an entity before the IOException of the next refill. Which entity depends on where the buffer ends, which the abstract reader does not know.
- ItemReader.NeedsNewReader: inherits the Readers.ReadyOf simplification, so a closed parser reader always counts as needing a new reader.
- ItemReader.Loop: `read()` is bounded by a `fuel` turn count. A run that would loop longer ends in `OutOfFuel`, so a contract about `read()` says nothing about non-terminating runs.
- ItemReader.Read: the item a listener returns is the listener's business, so what the contract states about the returned item is limited to readers without a listener.
- The `setEndOfDataRequired(false)` call of `getIoSource` is left out: it configures the oracle codec.
- ZipFileWriterSource.TailName: the separator is assumed not to be `.`, so the platform separator never collides with the extension dot.
- `ZipFileSource.close` and the item reader's `setup`/`cleanup` lifecycle hooks are left out. They only close or create resources the model does not hold.
- The Spring XML namespace parsers and the thin wrappers (`C24ItemWriter`, `FileWriterSource`, `C24TransformItemProcessor`, `CdoSqlParameterSource`, `JsonSourceFactory`) are left out. They have no logic beyond wiring and delegation.
- The performance tests, the mocks and the initiator splitting that `FileSplitterTests` exercises are left out. That splitting is not in the transformer's source.

=== FILE: common.dfy ===
/** Small shared vocabulary: an optional value, Java's notion of a blank string,
    the `file://` prefix handling shared by the file-based sources, and
    concatenation of a list of strings. */
module Common {

  datatype Option<+T> = None | Some(value: T)

  /** Java's `s.trim().length() == 0`: `trim` drops every leading and trailing
      character whose code is at most U+0020, so a string is blank exactly when
      all its characters are such characters. */
  predicate IsBlank(s: string) {
    forall i :: 0 <= i < |s| ==> s[i] <= ' '
  }

  predicate StartsWith(s: string, prefix: string) {
    |prefix| <= |s| && s[..|prefix|] == prefix
  }

  const FilePrefix: string := "file://"

  /** `if (name.startsWith("file://")) name = name.substring("file://".length())` */
  function StripFilePrefix(name: string): (r: string)
    ensures StartsWith(name, FilePrefix) ==> FilePrefix + r == name
    ensures !StartsWith(name, FilePrefix) ==> r == name
    ensures |r| <= |name|
  {
    if StartsWith(name, FilePrefix) then
      assert name == name[..|FilePrefix|] + name[|FilePrefix|..];
      name[|FilePrefix|..]
    else name
  }

  /** Concatenation of a list of strings, in order. */
  function Concat(parts: seq<string>): string {
    if parts == [] then [] else parts[0] + Concat(parts[1..])
  }

  lemma {:induction false} ConcatAppend(a: seq<string>, b: seq<string>)
    ensures Concat(a + b) == Concat(a) + Concat(b)
  {
    if a == [] {
      assert a + b == b;
    } else {
      assert (a + b)[1..] == a[1..] + b;
      ConcatAppend(a[1..], b);
    }
  }

  /** Java's `s.lastIndexOf(c)`: the largest index holding `c`, or -1. */
  function LastIndexOf(s: string, c: char): (r: int)
    ensures -1 <= r < |s|
    ensures r >= 0 ==> s[r] == c
    ensures forall j :: r < j < |s| ==> s[j] != c
  {
    if s == [] then -1
    else if s[|s| - 1] == c then |s| - 1
    else LastIndexOf(s[..|s| - 1], c)
  }
}

=== FILE: element_reader.dfy ===
/** `C24ItemReader.readElement`: lines are read from a SplittingReader and
    grouped into the text of one entity, using the element start pattern and
    the optional stop pattern (full-match `matches()` as predicates on a
    line). A ParseListener may rewrite each line before it is matched.

    The loop is modelled twice: `Extract` steps the reader as the Java loop
    does; `Group` is the same decision applied to the list of lines the
    reader would deliver. `ExtractIsGroup` ties the two together, and the
    lemmas about `Group` state which lines make up the entity. */
module ElementReader {
  import opened Common
  import SR = SplittingReader

  datatype Patterns = Patterns(start: string -> bool, stop: Option<string -> bool>)

  /** The ParseListener callbacks: `processLine`, `getContext`, and the final
      `process(result, context)`. */
  datatype Listener<!C, !T> = Listener(processLine: string -> string, getContext: string -> C,
                                       process: (T, Option<C>) -> T)

  /** What the loop body does with one line: push it back and return the
      entity so far, or carry on with a new cache (`done` when the stop
      pattern ended the entity). */
  datatype Action = PushBack | Append(cache: string, inElement: bool, done: bool)

  /** The entity text, how many lines were read, and whether the last of
      them was pushed back. */
  datatype Grouping = Grouping(element: string, consumed: nat, pushed: bool)

  datatype ElementContext<C> = ElementContext(element: string, context: Option<C>)

  /** The loop body on one (already processed) line. */
  function Step(pat: Patterns, line: string, cache: string, inElement: bool): (a: Action)
    ensures a.PushBack? <==> (!inElement || pat.stop.None?) && pat.start(line) && !IsBlank(cache)
    ensures a.Append? ==> a.inElement == (inElement || pat.start(line))
    ensures a.Append? && a.inElement ==> a.cache == cache + line && (a.done <==> pat.stop.Some? && pat.stop.value(line))
    ensures a.Append? && !a.inElement ==> a.cache == cache && !a.done
  {
    var startsHere := (!inElement || pat.stop.None?) && pat.start(line);
    if startsHere && !IsBlank(cache) then PushBack
    else
      var inElement' := inElement || startsHere;
      if inElement' then Append(cache + line, true, pat.stop.Some? && pat.stop.value(line))
      else Append(cache, false, false)
  }

  /** The line as the loop sees it: rewritten by the listener if there is one. */
  function Processed<C, T>(listener: Option<Listener<C, T>>, line: string): string {
    if listener.Some? then listener.value.processLine(line) else line
  }

  function ProcessedLines<C, T>(listener: Option<Listener<C, T>>, lines: seq<string>): (r: seq<string>)
    ensures |r| == |lines|
    ensures forall i :: 0 <= i < |lines| ==> r[i] == Processed(listener, lines[i])
  {
    if lines == [] then [] else [Processed(listener, lines[0])] + ProcessedLines(listener, lines[1..])
  }

  /** The loop over a list of lines. */
  function Group(pat: Patterns, lines: seq<string>, cache: string, inElement: bool): (g: Grouping)
    ensures g.consumed <= |lines|
    ensures g.pushed ==> g.consumed >= 1
    decreases |lines|
  {
    if lines == [] then Grouping(cache, 0, false)
    else
      match Step(pat, lines[0], cache, inElement)
      case PushBack => Grouping(cache, 1, true)
      case Append(cache', inElement', done) =>
        if done then Grouping(cache', 1, false)
        else
          var g := Group(pat, lines[1..], cache', inElement');
          g.(consumed := g.consumed + 1)
  }

  /** The loop over the reader: `while (reader.ready())`, one `readLine` per turn. */
  function Extract<C, T>(pat: Patterns, listener: Option<Listener<C, T>>, sp: SR.Splitter,
                         cache: string, inElement: bool): (r: (Grouping, SR.Splitter))
    ensures r.0.pushed ==> r.1.cached.Some?
    decreases SR.Size(sp)
  {
    if !SR.Ready(sp) then (Grouping(cache, 0, false), sp)
    else
      var (l, next) := SR.ReadLine(sp);
      var line := Processed(listener, l.value);
      match Step(pat, line, cache, inElement)
      case PushBack => (Grouping(cache, 1, true), SR.Pushback(next, line))
      case Append(cache', inElement', done) =>
        if done then (Grouping(cache', 1, false), next)
        else
          var (g, sp') := Extract(pat, listener, next, cache', inElement');
          (g.(consumed := g.consumed + 1), sp')
  }

  /** `readElement(reader)`: the entity text, with the listener's context for it. */
  function ReadElement<C, T>(pat: Patterns, listener: Option<Listener<C, T>>, sp: SR.Splitter): (r: (ElementContext<C>, SR.Splitter))
    ensures r.0.element == Group(pat, ProcessedLines(listener, SR.AllLines(sp)), "", false).element
    ensures r.0.context.Some? <==> listener.Some?
    ensures listener.Some? ==> r.0.context.value == listener.value.getContext(r.0.element)
  {
    var (g, sp') := Extract(pat, listener, sp, "", false);
    ExtractIsGroup(pat, listener, sp, "", false);
    (ElementContext(g.element, if listener.Some? then Some(listener.value.getContext(g.element)) else None), sp')
  }

  /** The reader loop makes the decisions `Group` makes on the reader's lines. */
  lemma {:induction false} ExtractIsGroup<C, T>(pat: Patterns, listener: Option<Listener<C, T>>, sp: SR.Splitter,
                                                cache: string, inElement: bool)
    ensures Extract(pat, listener, sp, cache, inElement).0
         == Group(pat, ProcessedLines(listener, SR.AllLines(sp)), cache, inElement)
    decreases SR.Size(sp)
  {
    if SR.Ready(sp) {
      var (l, next) := SR.ReadLine(sp);
      ExtractFirstLine(pat, listener, sp);
      match Step(pat, Processed(listener, l.value), cache, inElement)
      case PushBack =>
      case Append(cache', inElement', done) =>
        if !done {
          ExtractIsGroup(pat, listener, next, cache', inElement');
        }
    }
  }

  /** Afterwards the reader delivers the lines not consumed, preceded by the
      pushed-back line (as processed) when there is one. */
  lemma {:induction false} ExtractLeaves<C, T>(pat: Patterns, listener: Option<Listener<C, T>>, sp: SR.Splitter,
                                               cache: string, inElement: bool)
    ensures var (g, sp') := Extract(pat, listener, sp, cache, inElement);
      var lines := SR.AllLines(sp);
      && g.consumed <= |lines|
      && (!g.pushed ==> SR.AllLines(sp') == lines[g.consumed..])
      && (g.pushed ==> g.consumed >= 1 && SR.AllLines(sp') == [Processed(listener, lines[g.consumed - 1])] + lines[g.consumed..])
    decreases SR.Size(sp)
  {
    if SR.Ready(sp) {
      var (l, next) := SR.ReadLine(sp);
      match Step(pat, Processed(listener, l.value), cache, inElement)
      case PushBack =>
        ExtractPushBack(pat, listener, sp, cache, inElement);
      case Append(cache', inElement', done) =>
        ExtractFirstLine(pat, listener, sp);
        if !done {
          ExtractLeaves(pat, listener, next, cache', inElement');
          var (g, _) := Extract(pat, listener, next, cache', inElement');
          TailShift(SR.AllLines(sp), SR.AllLines(next), g.consumed);
        }
    } else {
      assert SR.AllLines(sp) == [];
    }
  }

  /** A start line met with a non-blank entity is pushed back, and is the
      next line the reader delivers. */
  lemma ExtractPushBack<C, T>(pat: Patterns, listener: Option<Listener<C, T>>, sp: SR.Splitter,
                              cache: string, inElement: bool)
    requires SR.Ready(sp)
    requires Step(pat, Processed(listener, SR.ReadLine(sp).0.value), cache, inElement).PushBack?
    ensures var (g, sp') := Extract(pat, listener, sp, cache, inElement);
      var lines := SR.AllLines(sp);
      && g.pushed && g.consumed == 1
      && SR.AllLines(sp') == [Processed(listener, lines[0])] + lines[1..]
  {
    var (l, next) := SR.ReadLine(sp);
    var line := Processed(listener, l.value);
    ExtractFirstLine(pat, listener, sp);
    SR.PushbackThenReadLine(next, line);
    assert SR.AllLines(SR.Pushback(next, line)) == [line] + SR.AllLines(next);
  }

  /** The first line the reader delivers is the first of its lines. */
  lemma ExtractFirstLine<C, T>(pat: Patterns, listener: Option<Listener<C, T>>, sp: SR.Splitter)
    requires SR.Ready(sp)
    ensures var (l, next) := SR.ReadLine(sp);
      var lines := SR.AllLines(sp);
      var pl := ProcessedLines(listener, lines);
      && l.Some? && lines == [l.value] + SR.AllLines(next) && lines[1..] == SR.AllLines(next)
      && pl[0] == Processed(listener, l.value) && pl[1..] == ProcessedLines(listener, lines[1..])
  {
    var (l, next) := SR.ReadLine(sp);
    var lines := SR.AllLines(sp);
    assert lines == [l.value] + SR.AllLines(next);
  }

  /** Positions in the lines after the first, shifted by one. */
  lemma TailShift(lines: seq<string>, rest: seq<string>, k: nat)
    requires |lines| >= 1 && lines[1..] == rest && k <= |rest|
    ensures rest[k..] == lines[k + 1..]
    ensures k >= 1 ==> rest[k - 1] == lines[k]
  {
  }

  // ---------------------------------------------------------------------------
  // Which lines make up the entity.

  lemma ConcatSnoc(lines: seq<string>, k: nat)
    requires k < |lines|
    ensures Concat(lines[..k + 1]) == Concat(lines[..k]) + lines[k]
  {
    assert lines[..k + 1] == lines[..k] + [lines[k]];
    ConcatAppend(lines[..k], [lines[k]]);
    assert Concat([lines[k]]) == lines[k] + Concat([]);
  }

  /** Lines before the first start line are read and dropped. */
  lemma {:induction false} DropsBeforeStart(pat: Patterns, lines: seq<string>, i: nat)
    requires i <= |lines| && forall k :: 0 <= k < i ==> !pat.start(lines[k])
    ensures var g := Group(pat, lines[i..], "", false);
      Group(pat, lines, "", false) == g.(consumed := g.consumed + i)
    decreases i
  {
    if i > 0 {
      assert Step(pat, lines[0], "", false) == Append("", false, false);
      assert lines[1..][i - 1..] == lines[i..];
      DropsBeforeStart(pat, lines[1..], i - 1);
    }
  }

  /** Without any start line, everything is read and the entity is empty. */
  lemma NoStartNoElement(pat: Patterns, lines: seq<string>)
    requires forall k :: 0 <= k < |lines| ==> !pat.start(lines[k])
    ensures Group(pat, lines, "", false) == Grouping("", |lines|, false)
  {
    DropsBeforeStart(pat, lines, |lines|);
  }

  /** Inside an entity, without a stop pattern, from line `k` on. */
  lemma {:induction false} NoStopContinues(pat: Patterns, lines: seq<string>, k: nat, j: nat)
    requires pat.stop.None? && 1 <= k <= j <= |lines|
    requires forall m :: k <= m < j ==> !(pat.start(lines[m]) && !IsBlank(Concat(lines[..m])))
    requires j < |lines| ==> pat.start(lines[j]) && !IsBlank(Concat(lines[..j]))
    ensures Group(pat, lines[k..], Concat(lines[..k]), true)
         == Grouping(Concat(lines[..j]), j - k + (if j < |lines| then 1 else 0), j < |lines|)
    decreases j - k
  {
    if k < j {
      ConcatSnoc(lines, k);
      assert Step(pat, lines[k], Concat(lines[..k]), true) == Append(Concat(lines[..k + 1]), true, false);
      assert lines[k..][1..] == lines[k + 1..];
      NoStopContinues(pat, lines, k + 1, j);
    }
  }

  /** Without a stop pattern, an entity opened by a start line runs up to the
      next start line met with non-blank text gathered, which is pushed back;
      or to the end of the lines. */
  lemma ElementWithoutStop(pat: Patterns, lines: seq<string>, j: nat)
    requires pat.stop.None? && lines != [] && pat.start(lines[0]) && 1 <= j <= |lines|
    requires forall m :: 1 <= m < j ==> !(pat.start(lines[m]) && !IsBlank(Concat(lines[..m])))
    requires j < |lines| ==> pat.start(lines[j]) && !IsBlank(Concat(lines[..j]))
    ensures Group(pat, lines, "", false)
         == Grouping(Concat(lines[..j]), j + (if j < |lines| then 1 else 0), j < |lines|)
  {
    ConcatSnoc(lines, 0);
    assert Concat(lines[..1]) == lines[0];
    assert Step(pat, lines[0], "", false) == Append(lines[0], true, false);
    NoStopContinues(pat, lines, 1, j);
  }

  /** Inside an entity, with a stop pattern, from line `k` on. */
  lemma {:induction false} StopContinues(pat: Patterns, lines: seq<string>, k: nat, j: nat)
    requires pat.stop.Some? && 1 <= k <= j <= |lines|
    requires forall m :: k <= m < j ==> !pat.stop.value(lines[m])
    requires j < |lines| ==> pat.stop.value(lines[j])
    ensures Group(pat, lines[k..], Concat(lines[..k]), true)
         == if j < |lines| then Grouping(Concat(lines[..j + 1]), j + 1 - k, false)
            else Grouping(Concat(lines), |lines| - k, false)
    decreases j - k
  {
    if k < |lines| {
      ConcatSnoc(lines, k);
      assert lines[k..][1..] == lines[k + 1..];
      if k < j {
        StopContinues(pat, lines, k + 1, j);
      }
    } else {
      assert lines[..k] == lines;
    }
  }

  /** With a stop pattern, start lines inside an entity are part of it, and
      the entity ends with (and includes) the first stop line, which may be
      the start line itself; or at the end of the lines. Nothing is pushed back. */
  lemma ElementWithStop(pat: Patterns, lines: seq<string>, j: nat)
    requires pat.stop.Some? && lines != [] && pat.start(lines[0]) && j <= |lines|
    requires forall m :: 0 <= m < j ==> !pat.stop.value(lines[m])
    requires j < |lines| ==> pat.stop.value(lines[j])
    ensures Group(pat, lines, "", false)
         == if j < |lines| then Grouping(Concat(lines[..j + 1]), j + 1, false)
            else Grouping(Concat(lines), |lines|, false)
  {
    ConcatSnoc(lines, 0);
    assert Concat(lines[..1]) == lines[0];
    if j == 0 {
      assert Step(pat, lines[0], "", false) == Append(lines[0], true, true);
    } else {
      assert Step(pat, lines[0], "", false) == Append(lines[0], true, false);
      StopContinues(pat, lines, 1, j);
    }
  }
}

=== FILE: file_source.dfy ===
/** The FileSource: one reader over one file, handed out until it is used up,
    discarded or closed. Opening the file is an oracle from file names to
    contents; `None` stands for the IOException a missing or unreadable file
    raises. */
module FileSource {
  import opened Common
  import opened Readers
  import SR = SplittingReader

  datatype FileSrc = FileSrc(name: string, reader: Option<ReaderId>, skipLines: int)

  /** A Spring Resource: its file name and the contents `getInputStream`
      delivers (`None` when it throws). */
  datatype Resource = Resource(filename: string, contents: Option<string>)

  /** The current reader, if any, is one the store knows. */
  predicate Inv(src: FileSrc, h: Heap) {
    Valid(h) && (src.reader.Some? ==> src.reader.value in h.readers)
  }

  /** `initialise(stepExecution)` with `skipLines` set: the resource if there
      is one, otherwise the job parameter `input.file` less any `file://`
      prefix; `None` for the RuntimeException wrapping an IOException. */
  function Initialise(skipLines: int, resource: Option<Resource>, inputFile: string,
                      files: string -> Option<string>, h: Heap): (r: Option<(FileSrc, Heap)>)
    requires Valid(h)
    ensures var contents := if resource.Some? then resource.value.contents else files(StripFilePrefix(inputFile));
      r.Some? <==> contents.Some?
    ensures r.Some? ==>
      var (src, h') := r.value;
      && Inv(src, h') && src.reader.Some? && src.reader.value !in h.readers
      && src.skipLines == skipLines
      && src.name == (if resource.Some? then resource.value.filename else StripFilePrefix(inputFile))
      && h'.readers == h.readers[src.reader.value := h'.readers[src.reader.value]]
  {
    var name := if resource.Some? then resource.value.filename else StripFilePrefix(inputFile);
    var contents := if resource.Some? then resource.value.contents else files(name);
    if contents.None? then None
    else
      var (id, h') := Alloc(h, Open(contents.value, skipLines));
      Some((FileSrc(name, Some(id), skipLines), h'))
  }

  /** The reader `initialise` opens holds the file less its first `skipLines`
      lines. */
  lemma InitialiseSkipsLines(skipLines: int, resource: Option<Resource>, inputFile: string,
                             files: string -> Option<string>, h: Heap)
    requires Valid(h)
    requires Initialise(skipLines, resource, inputFile, files, h).Some?
    ensures var contents := if resource.Some? then resource.value.contents.value
                            else files(StripFilePrefix(inputFile)).value;
      var (src, h') := Initialise(skipLines, resource, inputFile, files, h).value;
      var lines := SR.AllLines(SR.New(contents, false));
      SR.Pending(h'.readers[src.reader.value]) == Concat(lines[Dropped(skipLines, |lines|)..])
  {
    var contents := if resource.Some? then resource.value.contents.value
                    else files(StripFilePrefix(inputFile)).value;
    OpenSkipsLines(contents, skipLines);
  }

  /** `getReader()`: the reader while it is ready; null when there is none,
      when it is used up, and when `ready()` throws because it was closed. */
  function GetReader(src: FileSrc, h: Heap): (r: Option<ReaderId>)
    requires Inv(src, h)
    ensures r.Some? ==> r == src.reader
    ensures r.Some? <==> src.reader.Some? && ReadyOf(h.readers[src.reader.value]) == Some(true)
  {
    match src.reader
    case None => None
    case Some(id) => if ReadyOf(h.readers[id]) == Some(true) then Some(id) else None
  }

  /** `getNextReader()`: hands the reader over and forgets it. */
  function GetNextReader(src: FileSrc): (r: (Option<ReaderId>, FileSrc))
    ensures r.0 == src.reader && r.1.reader.None?
    ensures r.1.name == src.name && r.1.skipLines == src.skipLines
  {
    (src.reader, src.(reader := None))
  }

  /** The reader is handed out by `getNextReader` at most once. */
  lemma HandedOutOnce(src: FileSrc)
    ensures GetNextReader(GetNextReader(src).1).0.None?
  {
  }

  /** `discard(reader)`: closes and forgets the reader if it is the current
      one; any other reader is left alone, open. */
  function Discard(src: FileSrc, h: Heap, id: ReaderId): (r: (FileSrc, Heap))
    requires Inv(src, h)
    ensures Inv(r.0, r.1) && r.0.reader != Some(id)
    ensures src.reader == Some(id) ==> r.0.reader.None? && r.1 == CloseReader(h, id)
    ensures src.reader != Some(id) ==> r == (src, h)
  {
    if src.reader == Some(id) then (src.(reader := None), CloseReader(h, id)) else (src, h)
  }

  /** `close()`: closes the reader if there is one and forgets it. */
  function Close(src: FileSrc, h: Heap): (r: (FileSrc, Heap))
    requires Inv(src, h)
    ensures Inv(r.0, r.1) && r.0.reader.None?
    ensures src.reader.Some? ==> r.1 == CloseReader(h, src.reader.value)
    ensures src.reader.None? ==> r.1 == h
  {
    match src.reader
    case None => (src, h)
    case Some(id) => (src.(reader := None), CloseReader(h, id))
  }

  /** `useMultipleThreadsPerReader()`: a single file is always shared. */
  function UseMultipleThreadsPerReader(src: FileSrc): (b: bool)
    ensures b
  {
    true
  }

  /** Once discarded, a reader is never handed out again: neither accessor
      returns it, and nothing but a new `initialise` gives the source a
      reader back. */
  lemma DiscardedNeverReturned(src: FileSrc, h: Heap, id: ReaderId)
    requires Inv(src, h) && src.reader == Some(id)
    ensures var (src', h') := Discard(src, h, id);
      && GetReader(src', h').None?
      && GetNextReader(src').0.None?
      && !h'.readers[id].isOpen
  {
  }
}

=== FILE: file_splitting.dfy ===
/** The C24FileSplittingTransformer: reads a file line by line and sends the
    lines on, `lineCount` at a time, each batch as a message of its own. The
    file is given as the list of lines its BufferedReader delivers; a file that
    cannot be opened is `None`. */
module FileSplitting {
  import opened Common

  const DefaultLineCount: int := 1

  datatype Outcome =
    | Sent(messages: seq<seq<string>>)   // returns Boolean.TRUE after sending these, in order
    | IllegalArgument                    // `new ArrayList(lineCount)` with a negative count
    | HandlingError                      // the file could not be read: MessageHandlingException

  /** The batches the transformer sends for `lines`, `k` lines each; a final
      batch with fewer than `k` lines is never sent. */
  function Batches(lines: seq<string>, k: nat): seq<seq<string>>
    requires k > 0
    decreases |lines|
  {
    if |lines| < k then [] else [lines[..k]] + Batches(lines[k..], k)
  }

  /** `messages` are the consecutive `k`-line slices of `lines` from the start. */
  ghost predicate Slices(messages: seq<seq<string>>, lines: seq<string>, k: nat) {
    && |messages| * k <= |lines|
    && forall i :: 0 <= i < |messages| ==> i * k + k <= |lines| && messages[i] == lines[i * k..i * k + k]
  }

  /** `transformPayload`: replace a `lineCount` of 0 by the default, then send
      every full batch; returns the outcome and the updated `lineCount` field. */
  method TransformPayload(lineCount: int, file: Option<seq<string>>) returns (r: Outcome, lineCount': int)
    ensures lineCount' == (if lineCount == 0 then DefaultLineCount else lineCount)
    ensures file.None? ==> r == HandlingError
    ensures file.Some? && lineCount' < 0 ==> r == IllegalArgument
    ensures file.Some? && lineCount' > 0 ==>
      r.Sent? && Slices(r.messages, file.value, lineCount') && |file.value| < |r.messages| * lineCount' + lineCount'
    ensures file.Some? && lineCount' > 0 ==> r == Sent(Batches(file.value, lineCount'))
  {
    lineCount' := if lineCount == 0 then DefaultLineCount else lineCount;
    if file.None? {
      return HandlingError, lineCount';
    }
    if lineCount' < 0 {
      return IllegalArgument, lineCount';
    }
    var messages := SendBatches(file.value, lineCount');
    return Sent(messages), lineCount';
  }

  /** The read loop: collect lines, sending the container each time the
      number of lines processed is a multiple of `k`. */
  method SendBatches(lines: seq<string>, k: int) returns (messages: seq<seq<string>>)
    requires k > 0
    ensures Slices(messages, lines, k) && |lines| < |messages| * k + k
    ensures messages == Batches(lines, k)
  {
    var linesProcessed := 0;
    var container: seq<string> := [];
    ghost var start := 0;
    messages := [];
    while linesProcessed < |lines|
      invariant 0 <= start <= linesProcessed <= |lines|
      invariant start == |messages| * k
      invariant linesProcessed == start + |container| && |container| < k
      invariant container == lines[start..linesProcessed]
      invariant Slices(messages, lines, k)
    {
      container := container + [lines[linesProcessed]];
      linesProcessed := linesProcessed + 1;
      if |container| == k {
        SliceAppend(messages, lines, k, container);
        assert (|messages| + 1) * k == start + k;
        messages := messages + [container];
        start := start + k;
        container := [];
      }
    }
    BatchesAreSlices(lines, k);
    CountOfSlices(|messages|, |Batches(lines, k)|, |lines|, k);
    SlicesUnique(messages, Batches(lines, k), lines, k);
  }

  /** At most one count `m` has `m * k <= n < m * k + k`. */
  lemma CountOfSlices(m1: nat, m2: nat, n: nat, k: nat)
    requires k > 0
    requires m1 * k <= n < m1 * k + k && m2 * k <= n < m2 * k + k
    ensures m1 == m2
  {
    if m1 < m2 {
      MulMono(m1 + 1, m2, k);
      assert false;
    } else if m2 < m1 {
      MulMono(m2 + 1, m1, k);
      assert false;
    }
  }

  lemma MulMono(a: nat, b: nat, k: nat)
    requires a <= b
    ensures a * k <= b * k
  {
  }

  lemma SliceAppend(messages: seq<seq<string>>, lines: seq<string>, k: nat, batch: seq<string>)
    requires k > 0 && Slices(messages, lines, k)
    requires |messages| * k + k <= |lines| && batch == lines[|messages| * k..|messages| * k + k]
    ensures Slices(messages + [batch], lines, k)
  {
    assert (|messages| + 1) * k == |messages| * k + k;
  }

  /** The `i`-th batch of the lines after the first batch is the `i + 1`-th
      batch of all of them. */
  lemma ShiftedSlice(lines: seq<string>, k: nat, i: nat)
    requires 0 < k <= |lines| && 0 < i && (i - 1) * k + k <= |lines| - k
    ensures i * k + k <= |lines|
    ensures lines[k..][(i - 1) * k..(i - 1) * k + k] == lines[i * k..i * k + k]
  {
    assert (i - 1) * k + k == i * k;
  }

  /** The recursive definition and the slice description agree: as many
      batches as fit, each the next `k` lines. */
  lemma {:induction false} BatchesAreSlices(lines: seq<string>, k: nat)
    requires k > 0
    ensures Slices(Batches(lines, k), lines, k)
    ensures |lines| < |Batches(lines, k)| * k + k
    decreases |lines|
  {
    if |lines| >= k {
      var rest := lines[k..];
      BatchesAreSlices(rest, k);
      var b := Batches(lines, k);
      var tail := Batches(rest, k);
      assert b == [lines[..k]] + tail;
      assert |b| * k == |tail| * k + k;
      forall i | 0 <= i < |b|
        ensures i * k + k <= |lines| && b[i] == lines[i * k..i * k + k]
      {
        if i > 0 {
          assert b[i] == tail[i - 1];
          ShiftedSlice(lines, k, i);
        }
      }
    }
  }

  /** Sending copies: the batches together are the lines up to the last full
      batch, in file order. */
  lemma {:induction false} BatchesConcat(lines: seq<string>, k: nat)
    requires k > 0
    ensures |Batches(lines, k)| * k <= |lines|
    ensures Flatten(Batches(lines, k)) == lines[..|Batches(lines, k)| * k]
    decreases |lines|
  {
    if |lines| >= k {
      var rest := lines[k..];
      BatchesConcat(rest, k);
      var tail := Batches(rest, k);
      assert Batches(lines, k) == [lines[..k]] + tail;
      assert |Batches(lines, k)| * k == k + |tail| * k;
      assert lines[..k + |tail| * k] == lines[..k] + rest[..|tail| * k];
    }
  }

  function Flatten(batches: seq<seq<string>>): seq<string> {
    if batches == [] then [] else batches[0] + Flatten(batches[1..])
  }

  /** A `lineCount` of 0 behaves as 1: every line is a message of its own. */
  lemma ZeroLineCountSendsEachLine(lines: seq<string>)
    ensures |Batches(lines, 1)| == |lines|
    ensures forall i :: 0 <= i < |lines| ==> Batches(lines, 1)[i] == [lines[i]]
  {
    BatchesAreSlices(lines, 1);
    var b := Batches(lines, 1);
    forall i | 0 <= i < |b|
      ensures b[i] == [lines[i]]
    {
      assert b[i] == lines[i * 1..i * 1 + 1];
    }
  }

  /** The slices of `lines` are determined by how many there are. */
  lemma SlicesUnique(a: seq<seq<string>>, b: seq<seq<string>>, lines: seq<string>, k: nat)
    requires Slices(a, lines, k) && Slices(b, lines, k) && |a| == |b|
    ensures a == b
  {
  }
}

=== FILE: item_reader.dfy ===
/** C24ItemReader: the `read()` loop that fetches a parser for the calling
    thread, pulls one entity out of its reader (with a start pattern) or lets
    the codec read straight from the reader (without one), and validates and
    hands the result to the ParseListener.

    One thread calling `read()` in sequence is modelled: the ThreadLocal
    parser is the `threaded` slot of the state, the shared parser the
    `shared` slot. Parsers are told apart by an identity, as Java compares
    them by reference. The codec is two oracles, one for an entity's text and
    one for a reader; the validator and the emptiness test of a parsed object
    are oracles too. */
module ItemReader {
  import opened Common
  import opened Readers
  import SR = SplittingReader
  import P = Parser
  import ER = ElementReader
  import RS = ReaderSource
  import ZS = ZipFileSource

  /** The reader's settings. `textCodec` parses an entity's text from a fresh
      StringReader and says whether it closed that reader; `streamCodec`
      parses the next object straight from a reader; `isEmpty` is "no
      attributes and no elements"; `validator` gives the failure message of
      `validateByException`, if any. */
  datatype Config<!C, !T> = Config(
    start: Option<string -> bool>,
    stop: Option<string -> bool>,
    listener: Option<ER.Listener<C, T>>,
    validator: Option<T -> Option<string>>,
    isXml: bool,
    hasSourceFactory: bool,
    textCodec: string -> (P.CodecOutcome<T>, bool),
    streamCodec: SR.Splitter -> (P.CodecOutcome<T>, SR.Splitter),
    isEmpty: T -> bool)

  // ---------------------------------------------------------------------------
  // Configuration

  datatype ConfigError = NoElementType | NoSource | StopWithoutStart

  /** `validateConfiguration()`: the first of its assertions that fails. */
  function ValidateConfiguration<C, T>(hasElementType: bool, source: Option<RS.Src>, cfg: Config<C, T>): (r: Option<ConfigError>)
    ensures r.None? <==> hasElementType && source.Some? && (cfg.stop.Some? ==> cfg.start.Some?)
    ensures r == Some(NoElementType) <==> !hasElementType
    ensures r == Some(NoSource) ==> hasElementType && source.None?
    ensures r == Some(StopWithoutStart) ==> hasElementType && source.Some? && cfg.start.None?
  {
    if !hasElementType then Some(NoElementType)
    else if source.None? then Some(NoSource)
    else if cfg.stop.Some? && cfg.start.None? then Some(StopWithoutStart)
    else None
  }

  // ---------------------------------------------------------------------------
  // State

  /** What the codec source of a parser reads from: the source's reader, the
      StringReader of the last entity (`closed` when the codec closed it), or
      nothing yet (a codec source created without a reader). */
  datatype IoReader = OnSplitter | OnText(closed: bool) | Unset

  datatype ParserRec = ParserRec(id: nat, parser: P.Parser, splitter: ReaderId, io: IoReader)

  /** The reader's state. `fed` lists the entity texts handed to the codec,
      in order. */
  datatype State = State(src: RS.Src, heap: Heap, shared: Option<ParserRec>, threaded: Option<ParserRec>,
                         nextParser: nat, fed: seq<string>)

  predicate RecOk(st: State, pr: ParserRec) {
    pr.splitter in st.heap.readers && pr.id < st.nextParser
  }

  predicate Inv(st: State) {
    && RS.Inv(st.src, st.heap)
    && (st.shared.Some? ==> RecOk(st, st.shared.value))
    && (st.threaded.Some? ==> RecOk(st, st.threaded.value))
  }

  /** Nothing is lost from the store, no identity reused, nothing unsaid. */
  predicate Later(st: State, st': State) {
    Grows(st.heap, st'.heap) && st.nextParser <= st'.nextParser && st.fed <= st'.fed
    && RS.Multi(st'.src) == RS.Multi(st.src)
  }

  /** The reader state right after `setup`: the initialised source, no parser. */
  function Setup(src: RS.Src, h: Heap): (st: State)
    requires RS.Inv(src, h)
    ensures Inv(st) && st.shared.None? && st.threaded.None? && st.fed == []
  {
    State(src, h, None, None, 0, [])
  }

  // ---------------------------------------------------------------------------
  // Choosing a parser

  /** The three ways of sharing: one parser for every thread; a parser and a
      reader of its own per thread; a parser per thread on a shared reader. */
  datatype Mode = SharedParser | ReaderPerThread | SharedReader

  function ModeOf<C, T>(cfg: Config<C, T>, src: RS.Src): (m: Mode)
    ensures m == SharedParser <==> cfg.start.None? && RS.Multi(src)
    ensures m == ReaderPerThread <==> !RS.Multi(src)
    ensures m == SharedReader ==> cfg.start.Some?
    ensures src.FromFile? ==> m != ReaderPerThread
  {
    if cfg.start.None? && RS.Multi(src) then SharedParser
    else if !RS.Multi(src) then ReaderPerThread
    else SharedReader
  }

  /** What `getParser()` does: return a parser, return null, fail in the
      source's `getReader()`, or find that the codec source has no reader
      whose readiness it could ask. */
  datatype Fetched = Fetched(pr: ParserRec) | NoParser | GetReaderFailed | NoIoReader

  /** The codec source `getIoSource` builds without a reader. */
  function DetachedIo<C, T>(cfg: Config<C, T>): IoReader {
    if cfg.hasSourceFactory then OnText(false) else Unset
  }

  /** Mode 1: the shared parser, made on the source's `getReader()` if there
      is none. */
  function GetShared(st: State): (r: (Fetched, State))
    requires Inv(st)
    ensures Inv(r.1) && Later(st, r.1) && r.1.fed == st.fed && r.1.threaded == st.threaded
    ensures st.shared.Some? ==> r == (Fetched(st.shared.value), st)
    ensures r.0.Fetched? ==> r.1.shared == Some(r.0.pr)
    ensures st.shared.None? && r.0.Fetched? ==>
      && r.0.pr.id == st.nextParser && !r.0.pr.parser.finished && r.0.pr.io == OnSplitter
      && RS.GetReader(st.src, st.heap).0 == ZS.Got(Some(r.0.pr.splitter))
    ensures r.0 == NoParser <==> st.shared.None? && RS.GetReader(st.src, st.heap).0 == ZS.Got(None)
    ensures r.0 == GetReaderFailed <==> st.shared.None? && RS.GetReader(st.src, st.heap).0.ReadyFailed?
    ensures r.0 != NoIoReader
  {
    if st.shared.Some? then (Fetched(st.shared.value), st)
    else
      var (g, src', h') := RS.GetReader(st.src, st.heap);
      var st1 := st.(src := src', heap := h');
      match g
      case ReadyFailed => (GetReaderFailed, st1)
      case Got(r) =>
        if r.None? then (NoParser, st1)
        else
          var pr := ParserRec(st.nextParser, P.NewParser(), r.value, OnSplitter);
          (Fetched(pr), st1.(shared := Some(pr), nextParser := st.nextParser + 1))
  }

  /** `!parser.getReader().ready()`, an IOException counting as "not ready";
      `None` when the codec source has no reader. */
  function NeedsNewReader(pr: ParserRec, h: Heap): (r: Option<bool>)
    requires pr.splitter in h.readers
    ensures r.None? <==> pr.io.Unset?
    ensures pr.io.OnSplitter? ==> (r == Some(false) <==> ReadyOf(h.readers[pr.splitter]) == Some(true))
    ensures pr.io.OnText? ==> r == Some(pr.io.closed)
  {
    match pr.io
    case OnSplitter => Some(ReadyOf(h.readers[pr.splitter]) != Some(true))
    case OnText(closed) => Some(closed)
    case Unset => None
  }

  /** Mode 2: the thread's parser while its reader is ready, otherwise a new
      parser on the source's `getNextReader()`; when the source has no more
      readers, the thread's old parser, stale as it is. */
  function GetPerThread<C, T>(cfg: Config<C, T>, st: State): (r: (Fetched, State))
    requires Inv(st)
    ensures Inv(r.1) && Later(st, r.1) && r.1.fed == st.fed && r.1.shared == st.shared
    ensures r.0 != GetReaderFailed
    ensures r.0 == NoIoReader <==> st.threaded.Some? && st.threaded.value.io.Unset?
    ensures r.0.Fetched? ==> r.1.threaded == Some(r.0.pr)
    ensures st.threaded.Some? && NeedsNewReader(st.threaded.value, st.heap) == Some(false) ==>
      r == (Fetched(st.threaded.value), st)
    ensures r.0.Fetched? && r.0.pr.id == st.nextParser ==>
      && Some(r.0.pr.splitter) == RS.Current(st.src) && !r.0.pr.parser.finished
      && r.0.pr.io == (if cfg.start.None? then OnSplitter else DetachedIo(cfg))
    ensures (st.threaded.None? || NeedsNewReader(st.threaded.value, st.heap) == Some(true)) && RS.Current(st.src).Some? ==>
      r.0.Fetched? && r.0.pr.id == st.nextParser
    ensures st.threaded.Some? && NeedsNewReader(st.threaded.value, st.heap) == Some(true) && RS.Current(st.src).None? ==>
      r == (Fetched(st.threaded.value), st)
    ensures r.0 == NoParser <==> st.threaded.None? && RS.Current(st.src).None?
  {
    var need := if st.threaded.None? then Some(true) else NeedsNewReader(st.threaded.value, st.heap);
    if need.None? then (NoIoReader, st)
    else if !need.value then (Fetched(st.threaded.value), st)
    else
      var (r, src', h') := RS.GetNextReader(st.src, st.heap);
      if r.Some? then
        var pr := ParserRec(st.nextParser, P.NewParser(), r.value,
                            if cfg.start.None? then OnSplitter else DetachedIo(cfg));
        (Fetched(pr), st.(src := src', heap := h', threaded := Some(pr), nextParser := st.nextParser + 1))
      else if st.threaded.Some? then (Fetched(st.threaded.value), st)
      else (NoParser, st)
  }

  /** Mode 3: the thread's parser, made on the source's `getReader()` if the
      thread has none. */
  function GetSharedReader<C, T>(cfg: Config<C, T>, st: State): (r: (Fetched, State))
    requires Inv(st)
    ensures Inv(r.1) && Later(st, r.1) && r.1.fed == st.fed && r.1.shared == st.shared
    ensures st.threaded.Some? ==> r == (Fetched(st.threaded.value), st)
    ensures r.0.Fetched? ==> r.1.threaded == Some(r.0.pr)
    ensures st.threaded.None? && r.0.Fetched? ==>
      && r.0.pr.id == st.nextParser && !r.0.pr.parser.finished && r.0.pr.io == DetachedIo(cfg)
      && RS.GetReader(st.src, st.heap).0 == ZS.Got(Some(r.0.pr.splitter))
    ensures r.0 == NoParser <==> st.threaded.None? && RS.GetReader(st.src, st.heap).0 == ZS.Got(None)
    ensures r.0 == GetReaderFailed <==> st.threaded.None? && RS.GetReader(st.src, st.heap).0.ReadyFailed?
    ensures r.0 != NoIoReader
  {
    if st.threaded.Some? then (Fetched(st.threaded.value), st)
    else
      var (g, src', h') := RS.GetReader(st.src, st.heap);
      var st1 := st.(src := src', heap := h');
      match g
      case ReadyFailed => (GetReaderFailed, st1)
      case Got(r) =>
        if r.None? then (NoParser, st1)
        else
          var pr := ParserRec(st.nextParser, P.NewParser(), r.value, DetachedIo(cfg));
          (Fetched(pr), st1.(threaded := Some(pr), nextParser := st.nextParser + 1))
  }

  /** `getParser()`. */
  function GetParser<C, T>(cfg: Config<C, T>, st: State): (r: (Fetched, State))
    requires Inv(st)
    ensures Inv(r.1) && Later(st, r.1) && r.1.fed == st.fed
    ensures r.0.Fetched? ==> RecOk(r.1, r.0.pr)
    ensures r.0.Fetched? ==>
      if ModeOf(cfg, st.src) == SharedParser then r.1.shared == Some(r.0.pr) else r.1.threaded == Some(r.0.pr)
  {
    match ModeOf(cfg, st.src)
    case SharedParser => GetShared(st)
    case ReaderPerThread => GetPerThread(cfg, st)
    case SharedReader => GetSharedReader(cfg, st)
  }

  /** Once `getParser()` has found no parser, asking again finds none either
      and changes nothing. */
  lemma NoParserIsStable<C, T>(cfg: Config<C, T>, st: State)
    requires Inv(st) && GetParser(cfg, st).0 == NoParser
    ensures var st' := GetParser(cfg, st).1; GetParser(cfg, st') == (NoParser, st')
  {
    var st' := GetParser(cfg, st).1;
    match ModeOf(cfg, st.src)
    case SharedParser => RS.NoReaderIsStable(st.src, st.heap);
    case ReaderPerThread =>
    case SharedReader => RS.NoReaderIsStable(st.src, st.heap);
  }

  // ---------------------------------------------------------------------------
  // Discarding a parser

  /** `discardParser(parser)`: without a start pattern the parser's reader is
      discarded at the source; then the shared parser is forgotten if it is
      this one (mode 1), or else the thread's parser is. */
  function DiscardParser<C, T>(cfg: Config<C, T>, st: State, pr: ParserRec): (st': State)
    requires Inv(st) && pr.splitter in st.heap.readers
    ensures Inv(st') && Later(st, st') && st'.fed == st.fed && st'.nextParser == st.nextParser
    ensures cfg.start.Some? ==> st'.src == st.src && st'.heap == st.heap
    ensures cfg.start.None? ==> RS.Current(st'.src) != Some(pr.splitter)
    ensures cfg.start.None? && RS.Current(st.src) == Some(pr.splitter) ==> !st'.heap.readers[pr.splitter].isOpen
    ensures ModeOf(cfg, st.src) == SharedParser ==>
      && st'.threaded == st.threaded
      && st'.shared == (if st.shared.Some? && st.shared.value.id == pr.id then None else st.shared)
    ensures ModeOf(cfg, st.src) != SharedParser ==> st'.threaded.None? && st'.shared == st.shared
  {
    var (src', h') := if cfg.start.None? then RS.Discard(st.src, st.heap, pr.splitter) else (st.src, st.heap);
    var st1 := st.(src := src', heap := h');
    if cfg.start.None? && RS.Multi(src') then
      st1.(shared := if st.shared.Some? && st.shared.value.id == pr.id then None else st.shared)
    else
      st1.(threaded := None)
  }

  // ---------------------------------------------------------------------------
  // One turn of the loop

  /** The parser's object after a call to it; stored in whichever slot holds
      that parser. */
  function Store(st: State, pr: ParserRec): (st': State)
    requires Inv(st) && RecOk(st, pr)
    ensures Inv(st') && st'.src == st.src && st'.heap == st.heap && st'.nextParser == st.nextParser && st'.fed == st.fed
  {
    st.(shared := if st.shared.Some? && st.shared.value.id == pr.id then Some(pr) else st.shared,
        threaded := if st.threaded.Some? && st.threaded.value.id == pr.id then Some(pr) else st.threaded)
  }

  /** A new state of reader `id`, leaving the store's identities alone. */
  function SetReader(st: State, id: ReaderId, sp: SR.Splitter): (st': State)
    requires Inv(st) && id in st.heap.readers
    ensures Inv(st') && Later(st, st') && st'.heap.readers == st.heap.readers[id := sp]
    ensures st' == st.(heap := st'.heap)
  {
    var st' := st.(heap := st.heap.(readers := st.heap.readers[id := sp]));
    assert st'.heap.readers.Keys == st.heap.readers.Keys;
    st'
  }

  /** What went wrong in a `read()`: the codec failed (ParseException or a
      RuntimeException), reading an entity failed (NonTransientResourceException),
      `getReader()` failed, the codec source had no reader, validation failed
      (C24ValidationException with the parsed object), or the model ran out
      of fuel. */
  datatype Failure<T> = ParseFailed(ex: P.Throwable) | ExtractFailed | SourceFailed | ReaderUnset
                      | Invalid(item: T, reason: string) | OutOfFuel

  /** What one turn of the loop leaves: no result yet, an object with its
      context, or a failure. */
  datatype Turn<C, T> = Continue | Produced(obj: T, context: Option<C>) | Failed(failure: Failure<T>)

  function Last(s: seq<string>): string
    requires s != []
  {
    s[|s| - 1]
  }

  /** The entity text went to the codec, or nothing did. */
  predicate FedAtMostOne(fed: seq<string>, fed': seq<string>) {
    fed' == fed || (|fed'| == |fed| + 1 && fed' == fed + [Last(fed')] && !IsBlank(Last(fed')))
  }

  /** The parser reads a non-blank entity from a fresh StringReader: the codec
      sees the text unless the parser is finished. */
  function ParseEntity<C, T>(cfg: Config<C, T>, st: State, pr: ParserRec, text: string, context: Option<C>): (r: (Turn<C, T>, State))
    requires Inv(st) && RecOk(st, pr) && !IsBlank(text)
    ensures Inv(r.1) && Later(st, r.1) && r.1.src == st.src && r.1.heap == st.heap
    ensures r.1.fed == (if pr.parser.finished then st.fed else st.fed + [text])
    ensures r.0.Produced? <==> !pr.parser.finished && cfg.textCodec(text).0.Parsed?
    ensures r.0.Produced? ==> r.0 == Produced(cfg.textCodec(text).0.obj, context)
    ensures r.0.Failed? ==> r.0.failure.ParseFailed?
  {
    var (res, p', closed) := P.Read(pr.parser, cfg.isXml, (b: bool) => cfg.textCodec(text), false);
    var st1 := Store(st, pr.(parser := p', io := OnText(closed)));
    var st2 := st1.(fed := if pr.parser.finished then st1.fed else st1.fed + [text]);
    match res
    case Object(o) => (Produced(o, context), st2)
    case Null => (Continue, st2)
    case Failure(ex) => (Failed(ParseFailed(ex)), st2)
  }

  /** With a start pattern: one entity from the parser's reader, parsed by the
      codec unless it is blank, in which case the parser is discarded. */
  function SplitTurn<C, T>(cfg: Config<C, T>, st: State, pr: ParserRec): (r: (Turn<C, T>, State))
    requires cfg.start.Some? && Inv(st) && RecOk(st, pr)
    ensures Inv(r.1) && Later(st, r.1) && r.1.src == st.src
    ensures r.0.Failed? ==> r.0.failure.ParseFailed? || r.0.failure == ExtractFailed
    ensures r.0 == Failed(ExtractFailed) <==> !st.heap.readers[pr.splitter].isOpen
    ensures FedAtMostOne(st.fed, r.1.fed)
    ensures r.1.fed != st.fed ==>
      Last(r.1.fed) == ER.ReadElement(ER.Patterns(cfg.start.value, cfg.stop), cfg.listener, st.heap.readers[pr.splitter]).0.element
    ensures r.0.Produced? ==>
      && |r.1.fed| == |st.fed| + 1
      && cfg.textCodec(Last(r.1.fed)).0 == P.Parsed(r.0.obj)
      && r.0.context == (if cfg.listener.Some? then Some(cfg.listener.value.getContext(Last(r.1.fed))) else None)
  {
    var sp := st.heap.readers[pr.splitter];
    if !sp.isOpen then (Failed(ExtractFailed), st)
    else
      var (ec, sp') := ER.ReadElement(ER.Patterns(cfg.start.value, cfg.stop), cfg.listener, sp);
      var st1 := SetReader(st, pr.splitter, sp');
      if IsBlank(ec.element) then (Continue, DiscardParser(cfg, st1, pr))
      else ParseEntity(cfg, st1, pr, ec.element, ec.context)
  }

  /** A blank entity is not parsed: the parser is discarded and the source
      keeps its reader. */
  lemma BlankEntityDiscarded<C, T>(cfg: Config<C, T>, st: State, pr: ParserRec)
    requires cfg.start.Some? && Inv(st) && RecOk(st, pr) && st.heap.readers[pr.splitter].isOpen
    requires IsBlank(ER.ReadElement(ER.Patterns(cfg.start.value, cfg.stop), cfg.listener, st.heap.readers[pr.splitter]).0.element)
    ensures var (t, st') := SplitTurn(cfg, st, pr);
      && t == Continue && st'.fed == st.fed && st'.src == st.src
      && st'.threaded.None? && st'.shared == st.shared
  {
  }

  /** A parser that has finished still takes entities off the reader, but
      parses none of them: each is dropped, and the parser kept. */
  lemma FinishedParserDropsEntity<C, T>(cfg: Config<C, T>, st: State, pr: ParserRec)
    requires cfg.start.Some? && Inv(st) && RecOk(st, pr) && st.heap.readers[pr.splitter].isOpen
    requires pr.parser.finished && st.threaded == Some(pr)
    requires !IsBlank(ER.ReadElement(ER.Patterns(cfg.start.value, cfg.stop), cfg.listener, st.heap.readers[pr.splitter]).0.element)
    ensures var (t, st') := SplitTurn(cfg, st, pr);
      && t == Continue && st'.fed == st.fed
      && st'.heap.readers[pr.splitter]
         == ER.ReadElement(ER.Patterns(cfg.start.value, cfg.stop), cfg.listener, st.heap.readers[pr.splitter]).1
      && st'.threaded.Some? && st'.threaded.value.id == pr.id && st'.threaded.value.parser.finished
  {
  }

  /** Without a start pattern: the codec reads the next object straight from
      the parser's reader; an empty object counts as none, and no object (or
      a failure) discards the parser. */
  function StreamTurn<C, T>(cfg: Config<C, T>, st: State, pr: ParserRec): (r: (Turn<C, T>, State))
    requires cfg.start.None? && Inv(st) && RecOk(st, pr)
    ensures Inv(r.1) && Later(st, r.1) && r.1.fed == st.fed
    ensures r.0.Failed? ==> r.0.failure.ParseFailed?
    ensures r.0.Produced? <==>
      !pr.parser.finished && cfg.streamCodec(st.heap.readers[pr.splitter]).0.Parsed?
      && !cfg.isEmpty(cfg.streamCodec(st.heap.readers[pr.splitter]).0.obj)
    ensures r.0.Produced? ==>
      r.0 == Produced(cfg.streamCodec(st.heap.readers[pr.splitter]).0.obj, None)
      && r.1.heap.readers[pr.splitter] == cfg.streamCodec(st.heap.readers[pr.splitter]).1
    ensures !r.0.Produced? ==> RS.Current(r.1.src) != Some(pr.splitter)
  {
    var (res, p', sp') := P.Read(pr.parser, cfg.isXml, cfg.streamCodec, st.heap.readers[pr.splitter]);
    var st1 := Store(SetReader(st, pr.splitter, sp'), pr.(parser := p'));
    if res.Object? && !cfg.isEmpty(res.obj) then (Produced(res.obj, None), st1)
    else
      var st2 := DiscardParser(cfg, st1, pr.(parser := p'));
      if res.Failure? then (Failed(ParseFailed(res.ex)), st2) else (Continue, st2)
  }

  /** An object with no attributes and no elements counts as none: the
      parser is discarded and its reader with it. */
  lemma EmptyObjectDiscards<C, T>(cfg: Config<C, T>, st: State, pr: ParserRec)
    requires cfg.start.None? && Inv(st) && RecOk(st, pr) && !pr.parser.finished
    requires cfg.streamCodec(st.heap.readers[pr.splitter]).0.Parsed?
    requires cfg.isEmpty(cfg.streamCodec(st.heap.readers[pr.splitter]).0.obj)
    ensures var (t, st') := StreamTurn(cfg, st, pr);
      && t == Continue && RS.Current(st'.src) != Some(pr.splitter)
      && (ModeOf(cfg, st.src) != SharedParser ==> st'.threaded.None?)
  {
  }

  /** One turn of the `read()` loop with the parser `getParser()` returned. */
  function Attempt<C, T>(cfg: Config<C, T>, st: State, pr: ParserRec): (r: (Turn<C, T>, State))
    requires Inv(st) && RecOk(st, pr)
    ensures Inv(r.1) && Later(st, r.1)
    ensures FedAtMostOne(st.fed, r.1.fed)
    ensures r.0.Produced? && cfg.start.Some? ==>
      && |r.1.fed| == |st.fed| + 1
      && cfg.textCodec(Last(r.1.fed)).0 == P.Parsed(r.0.obj)
      && r.0.context == (if cfg.listener.Some? then Some(cfg.listener.value.getContext(Last(r.1.fed))) else None)
    ensures r.0.Produced? && cfg.start.None? ==> r.0.context.None? && !cfg.isEmpty(r.0.obj)
  {
    if cfg.start.Some? then SplitTurn(cfg, st, pr) else StreamTurn(cfg, st, pr)
  }

  // ---------------------------------------------------------------------------
  // read()

  /** How the loop ends: with an object and its context, because no parser
      is left, or with a failure. */
  datatype LoopEnd<C, T> = Found(obj: T, context: Option<C>) | Exhausted | Thrown(failure: Failure<T>)

  /** One turn of the loop, from `getParser()` on: either the loop goes
      round again, or it ends. */
  datatype Progress<C, T> = Again | Ends(end: LoopEnd<C, T>)

  function Round<C, T>(cfg: Config<C, T>, st: State): (r: (Progress<C, T>, State))
    requires Inv(st)
    ensures Inv(r.1) && Later(st, r.1) && FedAtMostOne(st.fed, r.1.fed)
    ensures r.0 == Ends(Exhausted) <==> GetParser(cfg, st).0 == NoParser
    ensures r.0 == Ends(Exhausted) ==> GetParser(cfg, r.1) == (NoParser, r.1)
    ensures r.0.Ends? && r.0.end.Found? && cfg.start.Some? ==>
      && |r.1.fed| == |st.fed| + 1
      && cfg.textCodec(Last(r.1.fed)).0 == P.Parsed(r.0.end.obj)
      && r.0.end.context == (if cfg.listener.Some? then Some(cfg.listener.value.getContext(Last(r.1.fed))) else None)
    ensures r.0.Ends? && r.0.end.Found? && cfg.start.None? ==> r.0.end.context.None? && !cfg.isEmpty(r.0.end.obj)
  {
    var (f, st1) := GetParser(cfg, st);
    match f
    case NoParser =>
      NoParserIsStable(cfg, st);
      (Ends(Exhausted), st1)
    case GetReaderFailed => (Ends(Thrown(SourceFailed)), st1)
    case NoIoReader => (Ends(Thrown(ReaderUnset)), st1)
    case Fetched(pr) =>
      var (t, st2) := Attempt(cfg, st1, pr);
      match t
      case Continue => (Again, st2)
      case Produced(o, ctx) => (Ends(Found(o, ctx)), st2)
      case Failed(e) => (Ends(Thrown(e)), st2)
  }

  /** `while (result == null && (parser = getParser()) != null)`, for at most
      `fuel` turns. */
  function Loop<C, T>(cfg: Config<C, T>, st: State, fuel: nat): (r: (LoopEnd<C, T>, State))
    requires Inv(st)
    ensures Inv(r.1) && Later(st, r.1)
    ensures forall i :: |st.fed| <= i < |r.1.fed| ==> !IsBlank(r.1.fed[i])
    ensures r.0.Exhausted? ==> GetParser(cfg, r.1) == (NoParser, r.1)
    ensures r.0.Found? && cfg.start.Some? ==>
      && |r.1.fed| > |st.fed|
      && cfg.textCodec(Last(r.1.fed)).0 == P.Parsed(r.0.obj)
      && r.0.context == (if cfg.listener.Some? then Some(cfg.listener.value.getContext(Last(r.1.fed))) else None)
    ensures r.0.Found? && cfg.start.None? ==> r.0.context.None? && !cfg.isEmpty(r.0.obj)
    decreases fuel
  {
    if fuel == 0 then (Thrown(OutOfFuel), st)
    else
      var (t, st1) := Round(cfg, st);
      match t
      case Again => Loop(cfg, st1, fuel - 1)
      case Ends(e) => (e, st1)
  }

  /** What `read()` returns or throws. */
  datatype Outcome<T> = Item(value: T) | NoMoreData | Error(failure: Failure<T>)

  /** After the loop: validate the object if validation is on, then let the
      listener replace it if there is a listener. */
  function Finish<C, T>(cfg: Config<C, T>, obj: T, context: Option<C>): (r: Outcome<T>)
    ensures r.Error? <==> cfg.validator.Some? && cfg.validator.value(obj).Some?
    ensures r.Error? ==> r.failure == Invalid(obj, cfg.validator.value(obj).value)
    ensures r.Item? && cfg.listener.None? ==> r.value == obj
    ensures r.Item? && cfg.listener.Some? ==> r.value == cfg.listener.value.process(obj, context)
    ensures !r.NoMoreData?
  {
    if cfg.validator.Some? && cfg.validator.value(obj).Some? then Error(Invalid(obj, cfg.validator.value(obj).value))
    else if cfg.listener.None? then Item(obj)
    else Item(cfg.listener.value.process(obj, context))
  }

  /** `read()`: null only when no parser is left, and then the next `read()`
      is null too; every entity text the codec saw is non-blank. */
  function Read<C, T>(cfg: Config<C, T>, st: State, fuel: nat): (r: (Outcome<T>, State))
    requires Inv(st)
    ensures Inv(r.1) && Later(st, r.1)
    ensures forall i :: |st.fed| <= i < |r.1.fed| ==> !IsBlank(r.1.fed[i])
    ensures r.0.NoMoreData? ==> GetParser(cfg, r.1) == (NoParser, r.1)
    ensures r.0.Item? && cfg.listener.None? && cfg.start.Some? ==>
      |r.1.fed| > |st.fed| && cfg.textCodec(Last(r.1.fed)).0 == P.Parsed(r.0.value)
    ensures r.0.Item? && cfg.listener.None? && cfg.start.None? ==> !cfg.isEmpty(r.0.value)
    ensures r.0.Item? && cfg.listener.None? && cfg.validator.Some? ==> cfg.validator.value(r.0.value).None?
  {
    var (e, st') := Loop(cfg, st, fuel);
    match e
    case Exhausted => (NoMoreData, st')
    case Thrown(f) => (Error(f), st')
    case Found(o, ctx) => (Finish(cfg, o, ctx), st')
  }

  /** Once `read()` has returned null, every later `read()` returns null and
      changes nothing. */
  lemma NullStaysNull<C, T>(cfg: Config<C, T>, st: State, fuel: nat, fuel': nat)
    requires Inv(st) && Read(cfg, st, fuel).0.NoMoreData? && fuel' > 0
    ensures var st' := Read(cfg, st, fuel).1; Read(cfg, st', fuel') == (NoMoreData, st')
  {
  }
}

=== FILE: parser.dfy ===
/** The Parser: one call of the codec (`Source.readObject`) per `read`, until
    the codec first yields no object or fails; from then on the parser is
    finished and never calls the codec again. The codec is an oracle acting
    on whatever state it reads from. */
module Parser {

  /** A Java exception message. `Literal` is the interned constant a literal
      in the source denotes; `Built` is a string computed at run time, equal
      in content perhaps but a different object. */
  datatype Message = NoMessage | Literal(text: string) | Built(text: string)

  /** An exception: whether it is an IOException, its message, its cause. */
  datatype Throwable = Throwable(isIOException: bool, message: Message, cause: CauseLink)
  datatype CauseLink = NoCause | CausedBy(t: Throwable)

  /** What `readObject` does: return an object, return null, or throw. */
  datatype CodecOutcome<T> = Parsed(obj: T) | NoObject | Raised(ex: Throwable)

  /** What `Parser.read` does: return an object, return null, or throw. */
  datatype ParseResult<T> = Object(obj: T) | Null | Failure(ex: Throwable)

  datatype Parser = Parser(finished: bool)

  function NewParser(): (p: Parser)
    ensures !p.finished
  {
    Parser(false)
  }

  const StreamClosed: string := "Stream closed"

  /** The end of the `getCause()` chain. */
  function RootCause(t: Throwable): (r: Throwable)
    ensures r.cause.NoCause?
    ensures t.cause.NoCause? ==> r == t
  {
    match t.cause
    case NoCause => t
    case CausedBy(c) => RootCause(c)
  }

  /** `ex instanceof IOException && ex.getMessage() == "Stream closed"` on the
      root cause: a reference comparison, true only for the interned literal. */
  predicate IsBenignClose(t: Throwable) {
    var root := RootCause(t);
    root.isIOException && root.message == Literal(StreamClosed)
  }

  /** `read()`: the codec is called only while not finished. An object is
      returned as it is; no object, or any failure, finishes the parser.
      An IOException from an XML source whose root cause is the interned
      "Stream closed" reads as the end of the data; every other failure is
      rethrown. */
  function Read<S, T>(p: Parser, isXml: bool, codec: S -> (CodecOutcome<T>, S), s: S): (r: (ParseResult<T>, Parser, S))
    ensures p.finished ==> r == (Null, p, s)
    ensures r.0.Object? <==> !p.finished && codec(s).0.Parsed?
    ensures r.0.Object? ==> r.0.obj == codec(s).0.obj
    ensures r.1.finished <==> !r.0.Object?
    ensures r.0.Failure? <==>
      !p.finished && codec(s).0.Raised?
      && !(isXml && codec(s).0.ex.isIOException && IsBenignClose(codec(s).0.ex))
    ensures r.0.Failure? ==> r.0.ex == codec(s).0.ex
    ensures !p.finished ==> r.2 == codec(s).1
  {
    if p.finished then (Null, p, s)
    else
      var (out, s') := codec(s);
      match out
      case Parsed(obj) => (Object(obj), p, s')
      case NoObject => (Null, Parser(true), s')
      case Raised(ex) =>
        if isXml && ex.isIOException && IsBenignClose(ex) then (Null, Parser(true), s')
        else (Failure(ex), Parser(true), s')
  }

  /** `finished` never goes back to false. */
  lemma FinishedIsFinal<S, T>(p: Parser, isXml: bool, codec: S -> (CodecOutcome<T>, S), s: S)
    requires p.finished
    ensures Read(p, isXml, codec, s).1.finished
  {
  }

  /** Once a read returns anything but an object, every later read returns
      null and leaves the codec's state alone, whatever the codec would do. */
  lemma NullForever<S, T>(p: Parser, isXml: bool, codec: S -> (CodecOutcome<T>, S), s: S,
                          codec': S -> (CodecOutcome<T>, S), s': S)
    requires !Read(p, isXml, codec, s).0.Object?
    ensures var p' := Read(p, isXml, codec, s).1; Read(p', isXml, codec', s') == (Null, p', s')
  {
  }

  /** The message test is by reference: a "Stream closed" computed at run time
      is rethrown like any other failure. */
  lemma BuiltMessageIsRethrown<S, T>(p: Parser, codec: S -> (CodecOutcome<T>, S), s: S)
    requires !p.finished
    requires codec(s).0 == Raised(Throwable(true, Built(StreamClosed), NoCause))
    ensures Read(p, true, codec, s).0 == Failure(Throwable(true, Built(StreamClosed), NoCause))
  {
  }

  /** The benign close is recognised at the end of a cause chain, and only
      for an XML source. */
  lemma WrappedStreamClosed<S, T>(p: Parser, codec: S -> (CodecOutcome<T>, S), s: S, m: Message)
    requires !p.finished
    requires codec(s).0 == Raised(Throwable(true, m, CausedBy(Throwable(true, Literal(StreamClosed), NoCause))))
    ensures Read(p, true, codec, s).0 == Null
    ensures Read(p, false, codec, s).0.Failure?
  {
  }
}

=== FILE: reader_source.dfy ===
/** The SplittingReaderSource as C24ItemReader sees it: either a FileSource or
    a ZipFileSource, with the calls the item reader makes dispatched to the
    one it is. */
module ReaderSource {
  import opened Common
  import opened Readers
  import FS = FileSource
  import ZS = ZipFileSource

  datatype Src = FromFile(f: FS.FileSrc) | FromZip(z: ZS.ZipSrc)

  predicate Inv(s: Src, h: Heap) {
    match s
    case FromFile(f) => FS.Inv(f, h)
    case FromZip(z) => ZS.Inv(z, h)
  }

  lemma InvValid(s: Src, h: Heap)
    requires Inv(s, h)
    ensures Valid(h)
  {
  }

  /** `useMultipleThreadsPerReader()`. */
  function Multi(s: Src): (b: bool)
    ensures s.FromFile? ==> b
  {
    match s
    case FromFile(f) => FS.UseMultipleThreadsPerReader(f)
    case FromZip(z) => ZS.UseMultipleThreadsPerReader(z)
  }

  /** The reader the source holds right now, if any. */
  function Current(s: Src): Option<ReaderId> {
    match s
    case FromFile(f) => f.reader
    case FromZip(z) => z.reader
  }

  /** `getReader()`: a FileSource turns the failure of `ready()` into null; a
      ZipFileSource lets it escape. */
  function GetReader(s: Src, h: Heap): (r: (ZS.Got, Src, Heap))
    requires Inv(s, h)
    ensures Inv(r.1, r.2) && Grows(h, r.2) && Multi(r.1) == Multi(s)
    ensures r.0.Got? && r.0.reader.Some? ==> r.0.reader == Current(r.1)
    ensures r.0.ReadyFailed? ==> s.FromZip? && r.1 == s && r.2 == h
    ensures Current(s).None? ==> r == (ZS.Got(None), s, h)
  {
    match s
    case FromFile(f) => (ZS.Got(FS.GetReader(f, h)), s, h)
    case FromZip(z) =>
      var (g, z', h') := ZS.GetReader(z, h);
      (g, FromZip(z'), h')
  }

  /** Once `getReader()` has returned null, it keeps doing so and changes
      nothing. */
  lemma NoReaderIsStable(s: Src, h: Heap)
    requires Inv(s, h) && GetReader(s, h).0 == ZS.Got(None)
    ensures var (_, s', h') := GetReader(s, h); GetReader(s', h') == (ZS.Got(None), s', h')
  {
  }

  /** `getNextReader()`: the current reader, handed over. */
  function GetNextReader(s: Src, h: Heap): (r: (Option<ReaderId>, Src, Heap))
    requires Inv(s, h)
    ensures Inv(r.1, r.2) && Grows(h, r.2) && Multi(r.1) == Multi(s)
    ensures r.0 == Current(s) && (r.0.Some? ==> r.0 != Current(r.1))
    ensures r.0.None? ==> r.1 == s && r.2 == h
  {
    match s
    case FromFile(f) =>
      var (g, f') := FS.GetNextReader(f);
      (g, FromFile(f'), h)
    case FromZip(z) =>
      var (g, z', h') := ZS.GetNextReader(z, h);
      (g, FromZip(z'), h')
  }

  /** `discard(reader)`: afterwards the source no longer holds the reader. */
  function Discard(s: Src, h: Heap, id: ReaderId): (r: (Src, Heap))
    requires Inv(s, h) && id in h.readers
    ensures Inv(r.0, r.1) && Grows(h, r.1) && Multi(r.0) == Multi(s)
    ensures Current(r.0) != Some(id)
    ensures Current(s) == Some(id) ==> !r.1.readers[id].isOpen
  {
    match s
    case FromFile(f) =>
      var (f', h') := FS.Discard(f, h, id);
      (FromFile(f'), h')
    case FromZip(z) =>
      var (z', h') := ZS.Discard(z, h, id);
      (FromZip(z'), h')
  }
}

=== FILE: readers.dfy ===
/** The readers the sources hand out, as values in a store indexed by reader
    identity. Java compares readers by reference (`this.reader == reader`);
    here every reader a source opens gets a fresh identity, and the store maps
    each identity to the reader's current state. A reader is a SplittingReader
    value; the BufferedReader a source opens over an entry or file is the same
    value with no pushback and no terminator optimisation. */
module Readers {
  import opened Common
  import SR = SplittingReader

  type ReaderId = nat

  datatype Heap = Heap(readers: map<ReaderId, SR.Splitter>, next: nat)

  /** Every identity in use was handed out by `Alloc`. */
  predicate Valid(h: Heap) {
    forall id :: id in h.readers ==> id < h.next
  }

  function EmptyHeap(): (h: Heap)
    ensures Valid(h) && h.readers == map[]
  {
    Heap(map[], 0)
  }

  /** A newly opened reader: an identity no reader had before. */
  function Alloc(h: Heap, sp: SR.Splitter): (r: (ReaderId, Heap))
    requires Valid(h)
    ensures r.0 !in h.readers && Valid(r.1)
    ensures r.1.readers == h.readers[r.0 := sp]
    ensures h.next <= r.0 < r.1.next
  {
    (h.next, Heap(h.readers[h.next := sp], h.next + 1))
  }

  /** Readers are never removed and identities never reused. */
  predicate Grows(h: Heap, h': Heap) {
    h.readers.Keys <= h'.readers.Keys && h.next <= h'.next
  }

  /** `reader.close()`: the reader stays, closed, with its text. */
  function CloseReader(h: Heap, id: ReaderId): (r: Heap)
    requires id in h.readers
    ensures r.readers.Keys == h.readers.Keys && r.next == h.next
    ensures !r.readers[id].isOpen && SR.Pending(r.readers[id]) == SR.Pending(h.readers[id])
    ensures forall j :: j in h.readers && j != id ==> r.readers[j] == h.readers[j]
  {
    h.(readers := h.readers[id := SR.Close(h.readers[id])])
  }

  /** `BufferedReader.ready()`: `None` where it throws IOException because the
      reader is closed; otherwise whether anything is left to read. */
  function ReadyOf(sp: SR.Splitter): (r: Option<bool>)
    ensures r.None? <==> !sp.isOpen
    ensures r == Some(true) <==> sp.isOpen && SR.ReadLine(sp).0.Some?
  {
    if !sp.isOpen then None else Some(SR.Ready(sp))
  }

  /** `for (i = 0; i < skipLines && reader.ready(); i++) reader.readLine();` */
  function SkipLines(sp: SR.Splitter, k: int): SR.Splitter
    decreases if k < 0 then 0 else k
  {
    if k <= 0 || !SR.Ready(sp) then sp else SkipLines(SR.ReadLine(sp).1, k - 1)
  }

  /** How many lines `SkipLines` drops from `lines`: `k`, or all of them. */
  function Dropped(k: int, n: nat): (d: nat)
    ensures d <= n
  {
    if k <= 0 then 0 else if k < n then k else n
  }

  /** Skipping drops exactly the first `k` lines `readLine` would return, or
      every line when there are fewer; the rest of the text is left intact. */
  lemma {:induction false} SkipLinesDropsLines(sp: SR.Splitter, k: int)
    ensures var lines := SR.AllLines(sp);
      SR.AllLines(SkipLines(sp, k)) == lines[Dropped(k, |lines|)..]
    decreases if k < 0 then 0 else k
  {
    var lines := SR.AllLines(sp);
    if k > 0 && SR.Ready(sp) {
      var (line, next) := SR.ReadLine(sp);
      assert lines == [line.value] + SR.AllLines(next);
      SkipLinesDropsLines(next, k - 1);
      assert Dropped(k - 1, |lines| - 1) + 1 == Dropped(k, |lines|);
    }
  }

  /** The reader a source opens on `text`, after its `skipLines` lines. */
  function Open(text: string, skipLines: int): (sp: SR.Splitter)
    ensures sp.isOpen && sp.cached.None?
  {
    SkipLinesKeepsState(SR.New(text, false), skipLines);
    SkipLines(SR.New(text, false), skipLines)
  }

  /** What is left to read on an opened reader is the text less its first
      `skipLines` lines (all of it when `skipLines <= 0`). */
  lemma OpenSkipsLines(text: string, skipLines: int)
    ensures var lines := SR.AllLines(SR.New(text, false));
      SR.Pending(Open(text, skipLines)) == Concat(lines[Dropped(skipLines, |lines|)..])
  {
    SkipLinesDropsLines(SR.New(text, false), skipLines);
    SR.AllLinesLossless(Open(text, skipLines));
  }

  lemma {:induction false} SkipLinesKeepsState(sp: SR.Splitter, k: int)
    requires sp.isOpen && sp.cached.None?
    ensures SkipLines(sp, k).isOpen && SkipLines(sp, k).cached.None?
    decreases if k < 0 then 0 else k
  {
    if k > 0 && SR.Ready(sp) {
      SkipLinesKeepsState(SR.ReadLine(sp).1, k - 1);
    }
  }
}

=== FILE: splitting_buffer.dfy ===
/** The SplittingReader as the Java class runs it: a 10 000-character buffer
    with a read index and a fill mark, refilled from the underlying Reader, which
    is modelled as the list of chunks its successive `read(buffer, 0, 10000)`
    calls deliver. Each method below follows the Java loop and is proved to
    compute exactly what the corresponding step of module SplittingReader
    computes on the abstract state, whatever the chunk sizes: results do not
    depend on where the refills fall. `close()` also closes the underlying
    Reader, so after it a scan still answers from the pushback and the window
    but throws as soon as it needs a refill; each scan states exactly when. */
module SplittingBuffer {
  import opened Common
  import SR = SplittingReader

  const BufferSize: nat := 10000

  datatype Buffered = Buffered(
    buffer: seq<char>,
    index: int,               // next character to hand out
    endIndex: int,            // fill mark; -1 once the underlying Reader reported end of input
    chunks: seq<string>,      // what the underlying Reader has still to deliver, one entry per read call
    cached: Option<string>,
    isOpen: bool,
    consistentLineTerminators: bool,
    terminator: Option<char>)

  /** The characters the underlying Reader has still to deliver. */
  function Flatten(chunks: seq<string>): string {
    if chunks == [] then [] else chunks[0] + Flatten(chunks[1..])
  }

  /** A read of the underlying Reader delivers between 1 and 10 000 characters
      (the buffer length), or reports end of input. */
  predicate ChunksFit(chunks: seq<string>) {
    forall i :: 0 <= i < |chunks| ==> 1 <= |chunks[i]| <= BufferSize
  }

  predicate WF(b: Buffered) {
    && |b.buffer| == BufferSize
    && 0 <= b.index <= BufferSize
    && -1 <= b.endIndex <= BufferSize
    && (b.endIndex >= 0 ==> b.index <= b.endIndex)
    && (b.endIndex < 0 ==> b.chunks == [])
    && ChunksFit(b.chunks)
  }

  /** The buffered characters not yet handed out. */
  function Window(b: Buffered): string
    requires WF(b)
  {
    if b.endIndex >= 0 then b.buffer[b.index..b.endIndex] else []
  }

  /** Everything the reader has still to deliver from its input. */
  function Remaining(b: Buffered): string
    requires WF(b)
  {
    Window(b) + Flatten(b.chunks)
  }

  /** The abstract reader this buffered state stands for. */
  function Abs(b: Buffered): SR.Splitter
    requires WF(b)
  {
    SR.Splitter(Remaining(b), b.cached, b.isOpen, b.consistentLineTerminators, b.terminator)
  }

  /** `new SplittingReader(reader, consistent)` over a Reader that will deliver `chunks`. */
  function New(chunks: seq<string>, consistent: bool): (b: Buffered)
    requires ChunksFit(chunks)
    ensures WF(b) && Abs(b) == SR.New(Flatten(chunks), consistent)
  {
    var b := Buffered(seq(BufferSize, _ => ' '), 0, 0, chunks, None, true, consistent, None);
    assert Window(b) == [];
    b
  }

  /** How a `fillBuffer()` ends: a new chunk in the buffer, end of input, or the
      IOException the closed underlying Reader throws from `read`. */
  datatype Refill = Refilled | AtEnd | Threw

  /** `fillBuffer()` together with the callers' `index = 0`: overwrite the
      front of the buffer with the next chunk, dropping whatever the window still
      held; at end of input set the fill mark to -1, after which the underlying
      Reader is never read again. `close()` closed the underlying Reader too, so
      a refill after it throws, leaving every field as it was; only a reader
      already at end of input gets past it, because it does not read. */
  function Fill(b: Buffered): (r: (Refill, Buffered))
    requires WF(b)
    ensures WF(r.1)
    ensures r.0 == Threw <==> !b.isOpen && b.endIndex >= 0
    ensures r.0 == Threw ==> r.1 == b
    ensures r.0 != Threw ==> Remaining(r.1) == Flatten(b.chunks)
    ensures r.0 == Refilled <==> b.isOpen && Flatten(b.chunks) != []
    ensures r.0 == Refilled ==> r.1.index == 0 && r.1.chunks == b.chunks[1..] && Window(r.1) == b.chunks[0]
    ensures r.0 == AtEnd ==> r.1.endIndex == -1 && r.1.index == b.index
    ensures r.1.cached == b.cached && r.1.isOpen == b.isOpen && r.1.terminator == b.terminator
    ensures r.1.consistentLineTerminators == b.consistentLineTerminators
  {
    if b.endIndex < 0 then (AtEnd, b)
    else if !b.isOpen then (Threw, b)
    else if b.chunks == [] then (AtEnd, b.(endIndex := -1))
    else
      var chunk := b.chunks[0];
      assert 1 <= |chunk| <= BufferSize;
      var buf := chunk + b.buffer[|chunk|..];
      assert buf[0..|chunk|] == chunk;
      (Refilled, b.(buffer := buf, index := 0, endIndex := |chunk|, chunks := b.chunks[1..]))
  }

  /** The configuration and pushback a scan leaves alone. */
  predicate SameSettings(a: Buffered, b: Buffered) {
    a.isOpen == b.isOpen && a.consistentLineTerminators == b.consistentLineTerminators
  }

  /** Buffer position `j` inside the window holds character `n + j - index` of a
      text of which the reader has delivered exactly the first `n`. */
  lemma WindowAt(b: Buffered, p: string, n: nat, j: int)
    requires WF(b) && n <= |p| && Remaining(b) == p[n..]
    requires b.endIndex >= 0 && b.index <= j < b.endIndex
    ensures n + j - b.index < |p| && b.buffer[j] == p[n + j - b.index]
  {
    assert Remaining(b)[j - b.index] == Window(b)[j - b.index];
  }

  /** Consuming the window from `index` up to `i`. */
  lemma WindowPrefix(b: Buffered, p: string, n: nat, i: int)
    requires WF(b) && n <= |p| && Remaining(b) == p[n..]
    requires b.endIndex >= 0 && b.index <= i <= b.endIndex
    ensures n + i - b.index <= |p| && b.buffer[b.index..i] == p[n..n + i - b.index]
    ensures Remaining(b.(index := i)) == p[n + i - b.index..]
  {
    var w := Window(b);
    assert b.buffer[b.index..i] == w[..i - b.index];
    assert p[n..] == w + Flatten(b.chunks);
    assert p[n..][..i - b.index] == p[n..n + i - b.index];
    assert Window(b.(index := i)) == w[i - b.index..];
    assert p[n..][i - b.index..] == p[n + i - b.index..];
  }

  // ---------------------------------------------------------------------------
  // readUntil

  /** The `for` loop of `readUntil`: the first position at or after `from` and
      before `endIndex` holding `c`. */
  method ScanFor(buffer: seq<char>, from: int, endIndex: int, c: char) returns (i: int, found: bool)
    requires 0 <= from && endIndex <= |buffer|
    ensures found ==> from <= i < endIndex && buffer[i] == c
    ensures !found ==> i == (if from <= endIndex then endIndex else from)
    ensures i == from || i <= endIndex
    ensures forall j :: from <= j < i ==> buffer[j] != c
  {
    i := from;
    found := false;
    while i < endIndex
      invariant from <= i && (i == from || i <= endIndex)
      invariant forall j :: from <= j < i ==> buffer[j] != c
    {
      if buffer[i] == c {
        found := true;
        return;
      }
      i := i + 1;
    }
  }

  /** A reader whose next scan starts in the buffer although `close()` has
      closed the underlying Reader: the scan throws if it runs off the window. */
  predicate ScanMayThrow(b: Buffered) {
    !b.isOpen && b.cached.None? && b.endIndex >= 0
  }

  /** `readUntil(c)`, loop for loop. On a closed reader it still answers from
      the pushback or from the window, and throws (`thrown`, every field left
      as it was) exactly when it has to refill to find the next `c`. */
  method ReadUntil(b: Buffered, c: char) returns (result: Option<string>, st: Buffered, thrown: bool)
    requires WF(b)
    ensures WF(st)
    ensures !thrown ==> (result, Abs(st)) == SR.ReadUntil(Abs(b), c)
    ensures thrown <==> ScanMayThrow(b) && SR.UntilCut(Remaining(b), c) >= |Window(b)|
    ensures thrown ==> st == b
  {
    thrown := false;
    if b.cached.Some? {
      result, st := b.cached, b.(cached := None);
      assert Abs(st) == Abs(b).(cached := None);
      return;
    }
    ghost var p := Remaining(b);
    ghost var n: nat := 0;
    result, st := None, b;
    var parsing := true;
    while parsing
      invariant UntilInv(b, c, p, n, result, st)
      invariant !parsing && !thrown ==> n == SR.UntilCut(p, c)
      invariant !b.isOpen && parsing ==> st == b && n == 0
      invariant thrown ==> !parsing && st == b && ScanMayThrow(b) && SR.UntilCut(p, c) >= |Window(b)|
      invariant ScanMayThrow(b) && !parsing && !thrown ==> SR.UntilCut(p, c) < |Window(b)|
      decreases parsing, |st.chunks|
    {
      parsing, result, st, n, thrown := UntilPass(b, c, p, n, result, st);
    }
    if !thrown {
      UntilConclusion(b, c, p, n, result, st);
    }
  }

  /** What holds at the head of each pass of `readUntil`: the text taken so far
      is a prefix of the pending text holding no `c` after its first character,
      and the reader holds exactly the rest. */
  ghost predicate UntilInv(b: Buffered, c: char, p: string, n: nat, result: Option<string>, st: Buffered) {
    && WF(st) && st.cached.None? && SameSettings(st, b) && st.terminator == b.terminator
    && n <= |p| && (result.None? <==> n == 0) && (result.Some? ==> result.value == p[..n])
    && (forall j :: 1 <= j < n ==> p[j] != c)
    && Remaining(st) == p[n..]
  }

  /** One pass of the `while (parsing)` loop of `readUntil`: scan the window,
      append what was scanned, then stop at `c` or refill; the refill throws
      after `close()`. */
  method UntilPass(ghost b: Buffered, c: char, ghost p: string, ghost n: nat, result: Option<string>, st: Buffered)
    returns (parsing: bool, result': Option<string>, st': Buffered, ghost n': nat, thrown: bool)
    requires UntilInv(b, c, p, n, result, st)
    ensures UntilInv(b, c, p, n', result', st')
    ensures parsing ==> |st'.chunks| < |st.chunks| && st.isOpen
    ensures !parsing && !thrown ==> n' == SR.UntilCut(p, c)
    ensures thrown ==> !parsing && st' == st && n' == n && result' == result
    ensures thrown <==> !st.isOpen && st.endIndex >= 0 && SR.UntilCut(p, c) >= n + |Window(st)|
  {
    var from := if result.None? then st.index + 1 else st.index;
    var i, found := ScanFor(st.buffer, from, st.endIndex, c);
    var taken, m := Take(st, p, n, result, i);
    UntilScanFacts(st, p, n, from, i, c);
    if found {
      parsing, thrown := false, false;
      result', n', st' := taken, m, st.(index := i);
      UntilFound(b, c, p, n, result, st, i, m, taken);
    } else {
      parsing, result', st', n', thrown := UntilRefill(b, c, p, n, result, st, m, taken);
    }
  }

  /** The scan of `readUntil` found `c` at `i`: the reader stops there. */
  lemma UntilFound(b: Buffered, c: char, p: string, n: nat, result: Option<string>, st: Buffered, i: int, m: nat, taken: Option<string>)
    requires UntilInv(b, c, p, n, result, st)
    requires st.index <= i < st.endIndex && st.buffer[i] == c && (n == 0 ==> st.index < i)
    requires m == n + (i - st.index) && m <= |p| && (taken.None? <==> m == 0) && (taken.Some? ==> taken.value == p[..m])
    requires forall j :: 1 <= j < m ==> p[j] != c
    ensures UntilInv(b, c, p, m, taken, st.(index := i))
    ensures m == SR.UntilCut(p, c) && m < n + |Window(st)|
  {
    WindowAt(st, p, n, i);
    UntilCutAt(p, c, m);
    TakeUpTo(st, p, n, i);
  }

  /** The scan of `readUntil` ran off the window with no `c`: refill, which
      throws after `close()`, or stop at end of input. */
  method UntilRefill(ghost b: Buffered, c: char, ghost p: string, ghost n: nat, result: Option<string>, st: Buffered,
                     ghost m: nat, taken: Option<string>)
    returns (parsing: bool, result': Option<string>, st': Buffered, ghost n': nat, thrown: bool)
    requires UntilInv(b, c, p, n, result, st)
    requires m == n + |Window(st)| && m <= |p| && (taken.None? <==> m == 0) && (taken.Some? ==> taken.value == p[..m])
    requires forall j :: 1 <= j < m ==> p[j] != c
    ensures UntilInv(b, c, p, n', result', st')
    ensures parsing ==> |st'.chunks| < |st.chunks| && st.isOpen
    ensures !parsing && !thrown ==> n' == SR.UntilCut(p, c)
    ensures thrown ==> !parsing && st' == st && n' == n && result' == result
    ensures thrown <==> !st.isOpen && st.endIndex >= 0
    ensures SR.UntilCut(p, c) >= n + |Window(st)|
  {
    UntilCutBeyond(p, c, m);
    ConsumeWindow(st, p, n);
    var filled := Fill(st);
    if filled.0 == Threw {
      parsing, result', st', n', thrown := false, result, st, n, true;
    } else {
      thrown := false;
      result', n' := taken, m;
      st' := filled.1;
      parsing := filled.0 == Refilled;
      if !parsing {
        UntilCutAt(p, c, n');
      }
    }
  }

  /** No `c` from index 1 up to `m` puts the cut of `readUntil` at `m` or later. */
  lemma UntilCutBeyond(s: string, c: char, m: nat)
    requires m <= |s| && forall j :: 1 <= j < m ==> s[j] != c
    ensures SR.UntilCut(s, c) >= m
  {
  }

  /** `if (i > index && i <= endIndex)`: append the scanned fragment
      `buffer[index..i]` to the result. */
  method Take(st: Buffered, ghost p: string, ghost n: nat, result: Option<string>, i: int)
    returns (result': Option<string>, ghost n': nat)
    requires WF(st) && n <= |p| && Remaining(st) == p[n..]
    requires (result.None? <==> n == 0) && (result.Some? ==> result.value == p[..n])
    requires st.index <= i
    ensures n' == (if i > st.index && i <= st.endIndex then n + (i - st.index) else n)
    ensures n' <= |p| && (result'.None? <==> n' == 0) && (result'.Some? ==> result'.value == p[..n'])
  {
    result', n' := result, n;
    if i > st.index && i <= st.endIndex {
      WindowPrefix(st, p, n, i);
      var fragment := st.buffer[st.index..i];
      result' := if result.None? then Some(fragment) else Some(result.value + fragment);
      n' := n + (i - st.index);
      assert p[..n] + p[n..n'] == p[..n'];
    }
  }

  /** Stopping the scan at `i` leaves the reader holding the rest. */
  lemma TakeUpTo(st: Buffered, p: string, n: nat, i: int)
    requires WF(st) && n <= |p| && Remaining(st) == p[n..]
    requires st.endIndex >= 0 && st.index <= i <= st.endIndex
    ensures WF(st.(index := i)) && Remaining(st.(index := i)) == p[n + i - st.index..]
  {
    WindowPrefix(st, p, n, i);
  }

  /** Handing out the whole window leaves exactly the underlying Reader's text. */
  lemma ConsumeWindow(st: Buffered, p: string, n: nat)
    requires WF(st) && n <= |p| && Remaining(st) == p[n..]
    ensures n + |Window(st)| <= |p| && Flatten(st.chunks) == p[n + |Window(st)|..]
  {
    assert p[n..][|Window(st)|..] == p[n + |Window(st)|..];
  }

  /** The state the loop of `readUntil` ends in is the abstract step's. */
  lemma UntilConclusion(b: Buffered, c: char, p: string, n: nat, result: Option<string>, st: Buffered)
    requires WF(b) && b.cached.None? && p == Remaining(b)
    requires WF(st) && st.cached.None? && SameSettings(st, b) && st.terminator == b.terminator
    requires n <= |p| && (result.None? <==> n == 0) && (result.Some? ==> result.value == p[..n])
    requires n == SR.UntilCut(p, c) && Remaining(st) == p[n..]
    ensures (result, Abs(st)) == SR.ReadUntil(Abs(b), c)
  {
  }

  /** What one pass of the scan of `readUntil` tells about the text. */
  lemma UntilScanFacts(st: Buffered, p: string, n0: nat, from: int, i: int, c: char)
    requires WF(st) && n0 <= |p| && Remaining(st) == p[n0..]
    requires from == (if n0 == 0 then st.index + 1 else st.index)
    requires forall j :: 1 <= j < n0 ==> p[j] != c
    requires from <= i && (i == from || i <= st.endIndex)
    requires forall j :: from <= j < i ==> st.buffer[j] != c
    ensures var n := if i > st.index && i <= st.endIndex then n0 + (i - st.index) else n0;
      forall j :: 1 <= j < n ==> p[j] != c
  {
    if i > st.index && i <= st.endIndex {
      forall j | 1 <= j < n0 + (i - st.index)
        ensures p[j] != c
      {
        if j >= n0 {
          var k := j - n0 + st.index;
          WindowAt(st, p, n0, k);
        }
      }
    }
  }

  /** The cut of `readUntil` is the first position from 1 on that holds `c`, or
      the end. */
  lemma UntilCutAt(s: string, c: char, m: nat)
    requires m <= |s| && (s != [] ==> 1 <= m)
    requires forall j :: 1 <= j < m ==> s[j] != c
    requires m < |s| ==> s[m] == c
    ensures SR.UntilCut(s, c) == m
  {
  }

  // ---------------------------------------------------------------------------
  // readUntilInclusive

  /** `readUntilInclusive(c)`, loop for loop. On a closed reader it still
      answers from the pushback or from the window, and throws (`thrown`, every
      field left as it was) exactly when the window holds no `c`. */
  method ReadUntilInclusive(b: Buffered, c: char) returns (result: Option<string>, st: Buffered, thrown: bool)
    requires WF(b)
    ensures WF(st)
    ensures !thrown ==> (result, Abs(st)) == SR.ReadUntilInclusive(Abs(b), c)
    ensures thrown <==> ScanMayThrow(b) && SR.IndexOf(Remaining(b), c) >= |Window(b)|
    ensures thrown ==> st == b
  {
    thrown := false;
    if b.cached.Some? {
      result, st := b.cached, b.(cached := None);
      assert Abs(st) == Abs(b).(cached := None);
      return;
    }
    ghost var p := Remaining(b);
    ghost var n: nat := 0;
    result, st := None, b;
    var parsing := true;
    while parsing
      invariant UntilDone(b, p, n, result, st)
      invariant parsing ==> InclusiveInv(b, c, p, n, result, st)
      invariant !parsing && !thrown ==> n == SR.InclusiveCut(p, c)
      invariant !b.isOpen && parsing ==> st == b && n == 0
      invariant thrown ==> !parsing && st == b && ScanMayThrow(b) && SR.IndexOf(p, c) >= |Window(b)|
      invariant ScanMayThrow(b) && !parsing && !thrown ==> SR.IndexOf(p, c) < |Window(b)|
      decreases parsing, |st.chunks|
    {
      parsing, result, st, n, thrown := InclusivePass(b, c, p, n, result, st);
    }
    if !thrown {
      InclusiveConclusion(b, c, p, n, result, st);
    }
  }

  /** What holds at the head of each pass of `readUntilInclusive`: the text
      taken so far is a prefix of the pending text holding no `c`, and the
      reader holds exactly the rest. */
  ghost predicate InclusiveInv(b: Buffered, c: char, p: string, n: nat, result: Option<string>, st: Buffered) {
    && WF(st) && st.cached.None? && SameSettings(st, b) && st.terminator == b.terminator
    && n <= |p| && (result.None? <==> n == 0) && (result.Some? ==> result.value == p[..n])
    && (forall j :: 0 <= j < n ==> p[j] != c)
    && Remaining(st) == p[n..]
  }

  /** One pass of the `while (parsing)` loop of `readUntilInclusive`: scan the
      window, stop just after `c` or append everything and refill; the refill
      throws after `close()`. */
  method InclusivePass(ghost b: Buffered, c: char, ghost p: string, ghost n: nat, result: Option<string>, st: Buffered)
    returns (parsing: bool, result': Option<string>, st': Buffered, ghost n': nat, thrown: bool)
    requires InclusiveInv(b, c, p, n, result, st)
    ensures parsing ==> InclusiveInv(b, c, p, n', result', st') && |st'.chunks| < |st.chunks| && st.isOpen
    ensures !parsing ==> UntilDone(b, p, n', result', st')
    ensures !parsing && !thrown ==> n' == SR.InclusiveCut(p, c)
    ensures thrown ==> !parsing && st' == st && n' == n && result' == result
    ensures thrown <==> !st.isOpen && st.endIndex >= 0 && SR.IndexOf(p, c) >= n + |Window(st)|
  {
    var i, found := ScanFor(st.buffer, st.index, st.endIndex, c);
    if found {
      parsing, thrown := false, false;
      result', st', n' := InclusiveFound(b, c, p, n, result, st, i);
    } else {
      var taken, m := Take(st, p, n, result, i);
      InclusiveScanFacts(st, p, n, i, c);
      parsing, result', st', n', thrown := InclusiveRefill(b, c, p, n, result, st, m, taken);
    }
  }

  /** The scan of `readUntilInclusive` found `c` at `i`: the reader stops just
      after it. */
  method InclusiveFound(ghost b: Buffered, c: char, ghost p: string, ghost n: nat, result: Option<string>, st: Buffered, i: int)
    returns (result': Option<string>, st': Buffered, ghost n': nat)
    requires InclusiveInv(b, c, p, n, result, st)
    requires st.index <= i < st.endIndex && st.buffer[i] == c
    requires forall j :: st.index <= j < i ==> st.buffer[j] != c
    ensures UntilDone(b, p, n', result', st') && n' == SR.InclusiveCut(p, c)
    ensures SR.IndexOf(p, c) < n + |Window(st)|
  {
    WindowAt(st, p, n, i);
    InclusiveScanFacts(st, p, n, i, c);
    IndexOfAt(p, c, n + (i - st.index));
    var k := i + 1;
    result', n' := Take(st, p, n, result, k);
    InclusiveCutAt(p, c, n' - 1);
    st' := st.(index := k);
    TakeUpTo(st, p, n, k);
  }

  /** The scan of `readUntilInclusive` ran off the window with no `c`:
      refill, which throws after `close()`, or stop at end of input. */
  method InclusiveRefill(ghost b: Buffered, c: char, ghost p: string, ghost n: nat, result: Option<string>, st: Buffered,
                         ghost m: nat, taken: Option<string>)
    returns (parsing: bool, result': Option<string>, st': Buffered, ghost n': nat, thrown: bool)
    requires InclusiveInv(b, c, p, n, result, st)
    requires m == n + |Window(st)| && m <= |p| && (taken.None? <==> m == 0) && (taken.Some? ==> taken.value == p[..m])
    requires forall j :: 0 <= j < m ==> p[j] != c
    ensures parsing ==> InclusiveInv(b, c, p, n', result', st') && |st'.chunks| < |st.chunks| && st.isOpen
    ensures !parsing ==> UntilDone(b, p, n', result', st')
    ensures !parsing && !thrown ==> n' == SR.InclusiveCut(p, c)
    ensures thrown ==> !parsing && st' == st && n' == n && result' == result
    ensures thrown <==> !st.isOpen && st.endIndex >= 0
    ensures SR.IndexOf(p, c) >= n + |Window(st)|
  {
    IndexOfBeyond(p, c, m);
    ConsumeWindow(st, p, n);
    var filled := Fill(st);
    if filled.0 == Threw {
      parsing, result', st', n', thrown := false, result, st, n, true;
    } else {
      thrown := false;
      result', n' := taken, m;
      st' := filled.1;
      parsing := filled.0 == Refilled;
      if !parsing {
        InclusiveCutAt(p, c, n');
      }
    }
  }

  /** A `c` at `m` with none before it is the first. */
  lemma IndexOfAt(s: string, c: char, m: nat)
    requires m < |s| && s[m] == c && forall j :: 0 <= j < m ==> s[j] != c
    ensures SR.IndexOf(s, c) == m
  {
  }

  /** No `c` before `m` puts the first `c` at `m` or later. */
  lemma IndexOfBeyond(s: string, c: char, m: nat)
    requires m <= |s| && forall j :: 0 <= j < m ==> s[j] != c
    ensures SR.IndexOf(s, c) >= m
  {
  }

  /** The state a scan ends in, stripped of the facts about `c`. */
  ghost predicate UntilDone(b: Buffered, p: string, n: nat, result: Option<string>, st: Buffered) {
    && WF(st) && st.cached.None? && SameSettings(st, b) && st.terminator == b.terminator
    && n <= |p| && (result.None? <==> n == 0) && (result.Some? ==> result.value == p[..n])
    && Remaining(st) == p[n..]
  }

  /** What one pass of the scan of `readUntilInclusive` tells about the text. */
  lemma InclusiveScanFacts(st: Buffered, p: string, n: nat, i: int, c: char)
    requires WF(st) && n <= |p| && Remaining(st) == p[n..]
    requires forall j :: 0 <= j < n ==> p[j] != c
    requires st.index <= i && (i == st.index || i <= st.endIndex)
    requires forall j :: st.index <= j < i ==> st.buffer[j] != c
    ensures i <= st.endIndex ==> forall j :: 0 <= j < n + (i - st.index) ==> p[j] != c
  {
    if i <= st.endIndex {
      forall j | 0 <= j < n + (i - st.index)
        ensures p[j] != c
      {
        if j >= n {
          WindowAt(st, p, n, j - n + st.index);
        }
      }
    }
  }

  /** The cut of `readUntilInclusive` is just after the first `c`, or the end. */
  lemma InclusiveCutAt(s: string, c: char, m: nat)
    requires m <= |s|
    requires forall j :: 0 <= j < m ==> s[j] != c
    requires m < |s| ==> s[m] == c
    ensures SR.InclusiveCut(s, c) == if m < |s| then m + 1 else m
  {
  }

  /** The state the loop of `readUntilInclusive` ends in is the abstract step's. */
  lemma InclusiveConclusion(b: Buffered, c: char, p: string, n: nat, result: Option<string>, st: Buffered)
    requires WF(b) && b.cached.None? && p == Remaining(b)
    requires UntilDone(b, p, n, result, st) && n == SR.InclusiveCut(p, c)
    ensures (result, Abs(st)) == SR.ReadUntilInclusive(Abs(b), c)
  {
  }

  // ---------------------------------------------------------------------------
  // readLine

  /** `readLine()`, loop for loop: the shortcut to `readUntilInclusive` once a
      terminator is known, the pushback, or the general scan with `last`
      carried across refills. On a closed reader it still answers from the
      pushback or from the window, and throws (`thrown`, every field left as it
      was) exactly when it has to refill to settle where the line ends. */
  method ReadLine(b: Buffered) returns (result: Option<string>, st: Buffered, thrown: bool)
    requires WF(b)
    ensures WF(st)
    ensures !thrown ==> (result, Abs(st)) == SR.ReadLine(Abs(b))
    ensures thrown <==>
      && ScanMayThrow(b)
      && (if b.consistentLineTerminators && b.terminator.Some?
          then SR.IndexOf(Remaining(b), b.terminator.value) >= |Window(b)|
          else !LineSettledWithin(Remaining(b), |Window(b)|))
    ensures thrown ==> st == b
  {
    thrown := false;
    if b.consistentLineTerminators && b.terminator.Some? {
      result, st, thrown := ReadUntilInclusive(b, b.terminator.value);
      return;
    } else if b.cached.Some? {
      result, st := b.cached, b.(cached := None);
      assert Abs(st) == Abs(b).(cached := None);
      return;
    }
    ghost var p := Remaining(b);
    ghost var n: nat := 0;
    result, st := None, b;
    var parsing := true;
    var last := SR.Sentinel;
    assert p[0..] == p;
    while parsing
      invariant parsing ==> LineInv(b, p, n, result, st, last)
      invariant !parsing && !thrown ==> LineDone(b, p, n, result, st)
      invariant !b.isOpen && parsing ==> st == b && n == 0
      invariant thrown ==> !parsing && st == b && ScanMayThrow(b) && !LineSettledWithin(p, |Window(b)|)
      invariant ScanMayThrow(b) && !parsing && !thrown ==> LineSettledWithin(p, |Window(b)|)
      decreases parsing, |st.chunks|
    {
      parsing, result, st, n, last, thrown := LinePass(b, p, n, result, st, last);
    }
    if !thrown {
      LineConclusion(b, p, n, result, st);
    }
  }

  /** The scan of `readLine` settles where the first line of `p` ends within
      its first `m` characters: the line ends before position `m`, or at `m`
      with a line feed. A carriage return at `m - 1` leaves it open, since only
      the next character tells a "\r\n" from a lone "\r". */
  ghost predicate LineSettledWithin(p: string, m: nat) {
    var k := SR.LineCut(p);
    k < m || (1 <= k == m && p[k - 1] == '\n')
  }

  /** A scan still running after `m` characters has not settled the line. */
  lemma LineUnsettled(p: string, m: nat, last: char)
    requires LineState(p, m, last)
    ensures !LineSettledWithin(p, m)
  {
  }

  /** Where the scan of `readLine` stands after `m` characters of `p`, `last`
      being the last one of them (or the initial 'a'): the line ends
      `LineEnd(p[m..], last)` characters further on. */
  ghost predicate LineState(p: string, m: nat, last: char) {
    && m <= |p| && last != '\n'
    && last == (if m == 0 then SR.Sentinel else p[m - 1])
    && SR.LineCut(p) == m + SR.LineEnd(p[m..], last)
  }

  ghost predicate LineInv(b: Buffered, p: string, n: nat, result: Option<string>, st: Buffered, last: char) {
    && WF(st) && st.cached.None? && SameSettings(st, b) && st.terminator == b.terminator
    && (b.consistentLineTerminators ==> b.terminator.None?)
    && n <= |p| && (result.None? <==> n == 0) && (result.Some? ==> result.value == p[..n])
    && LineState(p, n, last)
    && Remaining(st) == p[n..]
  }

  ghost predicate LineDone(b: Buffered, p: string, n: nat, result: Option<string>, st: Buffered) {
    && WF(st) && st.cached.None? && SameSettings(st, b)
    && (b.consistentLineTerminators ==> b.terminator.None?)
    && n == SR.LineCut(p) && n <= |p| && (result.None? <==> n == 0) && (result.Some? ==> result.value == p[..n])
    && Remaining(st) == p[n..]
    && st.terminator == (if b.consistentLineTerminators && n >= 1 then SR.DetectedTerminator(p, n) else b.terminator)
  }

  /** One pass of the `while (parsing)` loop of `readLine`; the refill throws
      after `close()`. */
  method LinePass(ghost b: Buffered, ghost p: string, ghost n: nat, result: Option<string>, st: Buffered, last: char)
    returns (parsing: bool, result': Option<string>, st': Buffered, ghost n': nat, last': char, thrown: bool)
    requires LineInv(b, p, n, result, st, last)
    ensures parsing ==> LineInv(b, p, n', result', st', last') && |st'.chunks| < |st.chunks| && st.isOpen
    ensures !parsing && !thrown ==> LineDone(b, p, n', result', st')
    ensures thrown ==> !parsing && st' == st && n' == n
    ensures thrown <==> !st.isOpen && st.endIndex >= 0 && !LineSettledWithin(p, n + |Window(st)|)
  {
    WindowMatches(st, p, n);
    var i, scanning, term;
    i, scanning, last', term := LineScan(st.buffer, st.index, st.endIndex, last, st.consistentLineTerminators, st.terminator, p, n);
    if !scanning {
      parsing, thrown := false, false;
      result', st', n' := LineStop(b, p, n, result, st, last, i, term);
    } else {
      parsing, result', st', n', thrown := LineContinue(b, p, n, result, st, i, last');
    }
  }

  /** The scan of `readLine` found the end of the line at `i`. */
  method LineStop(ghost b: Buffered, ghost p: string, ghost n: nat, result: Option<string>, st: Buffered, ghost last: char,
                  i: int, term: Option<char>)
    returns (result': Option<string>, st': Buffered, ghost n': nat)
    requires LineInv(b, p, n, result, st, last)
    requires st.index <= i <= st.endIndex && SR.LineCut(p) == n + (i - st.index) && SR.LineCut(p) >= 1
    requires i < st.endIndex || (st.index < i && st.buffer[i - 1] == '\n')
    requires term == (if st.consistentLineTerminators && SR.DetectedTerminator(p, SR.LineCut(p)).Some? then SR.DetectedTerminator(p, SR.LineCut(p)) else st.terminator)
    ensures LineDone(b, p, n', result', st')
    ensures LineSettledWithin(p, n + |Window(st)|)
  {
    result', n' := Take(st, p, n, result, i);
    if i == st.endIndex {
      WindowAt(st, p, n, i - 1);
    }
    st' := st.(index := i, terminator := term);
    LineStopped(b, p, n, n', result', st, i, term);
  }

  /** The scan of `readLine` ran off the window without settling the line:
      refill, which throws after `close()`, or end the line at end of input. */
  method LineContinue(ghost b: Buffered, ghost p: string, ghost n: nat, result: Option<string>, st: Buffered,
                      i: int, last': char)
    returns (parsing: bool, result': Option<string>, st': Buffered, ghost n': nat, thrown: bool)
    requires WF(st) && st.cached.None? && SameSettings(st, b) && st.terminator == b.terminator
    requires b.consistentLineTerminators ==> b.terminator.None?
    requires n <= |p| && (result.None? <==> n == 0) && (result.Some? ==> result.value == p[..n])
    requires Remaining(st) == p[n..]
    requires st.index <= i && (i == st.index || i == st.endIndex) && i >= st.endIndex
    requires LineState(p, n + (i - st.index), last')
    ensures parsing ==> LineInv(b, p, n', result', st', last') && |st'.chunks| < |st.chunks| && st.isOpen
    ensures !parsing && !thrown ==> LineDone(b, p, n', result', st')
    ensures thrown ==> !parsing && st' == st && n' == n
    ensures thrown <==> !st.isOpen && st.endIndex >= 0
    ensures !LineSettledWithin(p, n + |Window(st)|)
  {
    var taken, m := Take(st, p, n, result, i);
    assert m == n + |Window(st)|;
    LineUnsettled(p, m, last');
    parsing, st', thrown := LineRefill(b, p, m, taken, st, last');
    if thrown {
      result', n' := result, n;
    } else {
      result', n' := taken, m;
    }
  }

  /** Stopping at a line terminator leaves the abstract step's state. */
  lemma LineStopped(b: Buffered, p: string, n: nat, n': nat, result': Option<string>, st: Buffered, i: int, term: Option<char>)
    requires WF(st) && st.cached.None? && SameSettings(st, b) && st.terminator == b.terminator
    requires b.consistentLineTerminators ==> b.terminator.None?
    requires n <= |p| && Remaining(st) == p[n..]
    requires 0 <= st.index <= i <= st.endIndex && n' == n + (i - st.index)
    requires n' == SR.LineCut(p) && n' >= 1 && n' <= |p|
    requires (result'.None? <==> n' == 0) && (result'.Some? ==> result'.value == p[..n'])
    requires term == (if st.consistentLineTerminators && SR.DetectedTerminator(p, n').Some? then SR.DetectedTerminator(p, n') else st.terminator)
    ensures LineDone(b, p, n', result', st.(index := i, terminator := term))
  {
    TakeUpTo(st, p, n, i);
    assert Remaining(st.(index := i, terminator := term)) == Remaining(st.(index := i));
  }

  /** `fillBuffer()` after a pass of `readLine` that used up the window: go on
      scanning the next chunk, end the line at end of input, or throw after
      `close()`. */
  method LineRefill(ghost b: Buffered, ghost p: string, ghost n': nat, result': Option<string>, st: Buffered, last': char)
    returns (parsing: bool, st': Buffered, thrown: bool)
    requires WF(st) && st.cached.None? && SameSettings(st, b) && st.terminator == b.terminator
    requires b.consistentLineTerminators ==> b.terminator.None?
    requires n' <= |p| && n' >= |Window(st)| && Remaining(st) == p[n' - |Window(st)|..]
    requires (result'.None? <==> n' == 0) && (result'.Some? ==> result'.value == p[..n'])
    requires LineState(p, n', last')
    ensures thrown <==> !st.isOpen && st.endIndex >= 0
    ensures thrown ==> !parsing && st' == st
    ensures parsing ==> LineInv(b, p, n', result', st', last') && |st'.chunks| < |st.chunks| && st.isOpen
    ensures !parsing && !thrown ==> LineDone(b, p, n', result', st')
  {
    ConsumeWindow(st, p, n' - |Window(st)|);
    var filled := Fill(st);
    thrown := filled.0 == Threw;
    parsing := filled.0 == Refilled;
    st' := filled.1;
    if filled.0 == AtEnd {
      assert n' == |p|;
      LineAtEnd(p, n', last');
    }
  }

  /** The window is the stretch of `p` that follows the first `n` characters. */
  lemma WindowMatches(st: Buffered, p: string, n: nat)
    requires WF(st) && n <= |p| && Remaining(st) == p[n..]
    ensures st.endIndex >= 0 ==> n + (st.endIndex - st.index) <= |p|
    ensures forall j :: st.index <= j < st.endIndex ==> st.buffer[j] == p[n + j - st.index]
  {
    forall j | st.index <= j < st.endIndex
      ensures st.buffer[j] == p[n + j - st.index]
    {
      WindowAt(st, p, n, j);
    }
    if st.endIndex >= 0 {
      assert |Remaining(st)| >= |Window(st)|;
    }
  }

  /** At end of input the line runs to the end, with no terminator detected. */
  lemma LineAtEnd(p: string, m: nat, last: char)
    requires LineState(p, m, last) && m == |p|
    ensures SR.LineCut(p) == m && (m >= 1 ==> SR.DetectedTerminator(p, m).None?)
  {
    assert p[m..] == [];
  }

  /** The `for` loop of `readLine`: stops after a '\n' or before the character
      that follows a '\r', recording the terminator under the promise of
      consistent terminators. */
  method LineScan(buffer: seq<char>, index: int, endIndex: int, last0: char, consistent: bool, terminator0: Option<char>, ghost p: string, ghost n: nat)
    returns (i: int, parsing: bool, last: char, terminator: Option<char>)
    requires 0 <= index && endIndex <= |buffer|
    requires endIndex >= index ==> n + (endIndex - index) <= |p|
    requires forall j :: index <= j < endIndex ==> buffer[j] == p[n + j - index]
    requires LineState(p, n, last0)
    ensures index <= i && (i == index || i <= endIndex)
    ensures parsing ==> (i == index || i == endIndex) && i >= endIndex && LineState(p, n + (i - index), last) && terminator == terminator0
    ensures !parsing ==> i <= endIndex && SR.LineCut(p) == n + (i - index) && SR.LineCut(p) >= 1
    ensures !parsing ==> i < endIndex || (index < i && buffer[i - 1] == '\n')
    ensures !parsing ==> terminator == (if consistent && SR.DetectedTerminator(p, SR.LineCut(p)).Some? then SR.DetectedTerminator(p, SR.LineCut(p)) else terminator0)
  {
    i, parsing, last, terminator := index, true, last0, terminator0;
    while i < endIndex
      invariant index <= i && (i == index || i <= endIndex)
      invariant LineState(p, n + (i - index), last)
    {
      var c := buffer[i];
      LineStep(p, n + (i - index), last);
      if c == '\n' {
        i := i + 1;
        parsing := false;
        if consistent && last != '\r' {
          terminator := Some('\n');
        }
        return;
      } else if last == '\r' {
        parsing := false;
        if consistent && c != '\n' {
          terminator := Some('\r');
        }
        return;
      }
      last := c;
      i := i + 1;
    }
  }

  /** One character of the scan of `readLine`. */
  lemma LineStep(p: string, m: nat, last: char)
    requires LineState(p, m, last) && m < |p|
    ensures p[m] == '\n' ==> SR.LineCut(p) == m + 1 && SR.DetectedTerminator(p, m + 1) == (if last != '\r' then Some('\n') else None)
    ensures p[m] != '\n' && last == '\r' ==> SR.LineCut(p) == m && m >= 1 && SR.DetectedTerminator(p, m) == Some('\r')
    ensures p[m] != '\n' && last != '\r' ==> LineState(p, m + 1, p[m])
  {
    assert p[m..][0] == p[m] && p[m..][1..] == p[m + 1..];
  }

  /** The state the loop of `readLine` ends in is the abstract step's. */
  lemma LineConclusion(b: Buffered, p: string, n: nat, result: Option<string>, st: Buffered)
    requires WF(b) && b.cached.None? && p == Remaining(b) && !(b.consistentLineTerminators && b.terminator.Some?)
    requires LineDone(b, p, n, result, st)
    ensures (result, Abs(st)) == SR.ReadLine(Abs(b))
  {
    if p != [] {
      SR.LineEndPositive(p);
    }
  }

  // ---------------------------------------------------------------------------
  // read(cbuf, off, len), ready, pushback, close

  /** `read(cbuf, off, len)`, loop for loop: the characters copied into `cbuf`
      and the count returned. */
  method Read(b: Buffered, len: int) returns (r: SR.BulkRead, st: Buffered)
    requires WF(b)
    ensures WF(st) && (r, Abs(st)) == SR.Read(Abs(b), len)
  {
    if !b.isOpen {
      return SR.StreamClosed, b;
    }
    ghost var p := SR.Pending(Abs(b));
    var copied: string := [];
    var left := len;
    st := b;
    while left > 0
      invariant ReadInv(b, len, p, copied, left, st)
      decreases left + |st.chunks|
    {
      var more;
      copied, left, st, more := ReadPass(b, len, p, copied, left, st);
      if !more {
        break;
      }
    }
    r := SR.Chars(if |copied| == 0 then -1 else |copied|, copied);
    ReadConclusion(b, len, p, copied, left, st);
  }

  /** What holds at the head of each pass of `read`: what was copied is a
      prefix of the pending text and the reader holds the rest; a pushback
      survives only as the suffix left by a request it more than satisfied. */
  ghost predicate ReadInv(b: Buffered, len: int, p: string, copied: string, left: int, st: Buffered) {
    && WF(st) && st.isOpen && st.terminator == b.terminator
    && st.consistentLineTerminators == b.consistentLineTerminators
    && |copied| + left == len
    && (len <= 0 ==> copied == [] && st == b)
    && (len > 0 ==> left >= 0)
    && |copied| <= |p| && copied == p[..|copied|] && SR.Pending(Abs(st)) == p[|copied|..]
    && CacheInv(b, st, |copied|)
  }

  ghost predicate CacheInv(b: Buffered, st: Buffered, m: nat) {
    && (st.cached.Some? ==>
          && b.cached.Some? && m <= |b.cached.value| && st.cached.value == b.cached.value[m..]
          && (m > 0 ==> m < |b.cached.value|))
    && (st.cached.None? && b.cached.Some? ==> m >= |b.cached.value|)
  }

  /** One pass of the `while (len > 0)` loop of `read`: drain the pushback,
      then the window, then refill if more is wanted; `more` is false on the
      `break` at end of input. */
  method ReadPass(ghost b: Buffered, ghost len: int, ghost p: string, copied: string, left: int, st: Buffered)
    returns (copied': string, left': int, st': Buffered, more: bool)
    requires ReadInv(b, len, p, copied, left, st) && left > 0
    ensures ReadInv(b, len, p, copied', left', st')
    ensures more ==> left' + |st'.chunks| < left + |st.chunks|
    ensures !more ==> SR.Pending(Abs(st')) == [] && left' >= 0
    ensures st'.cached.Some? ==> left' == 0
  {
    copied', left', st' := DrainCache(b, len, p, copied, left, st);
    copied', left', st' := DrainWindow(b, len, p, copied', left', st');
    more := true;
    if left' > 0 {
      var filled := Fill(st');
      st' := filled.1;
      more := filled.0 == Refilled;
    }
  }

  /** The pushback part of a pass of `read`. */
  method DrainCache(ghost b: Buffered, ghost len: int, ghost p: string, copied: string, left: int, st: Buffered)
    returns (copied': string, left': int, st': Buffered)
    requires ReadInv(b, len, p, copied, left, st) && left > 0
    ensures ReadInv(b, len, p, copied', left', st')
    ensures left' < left || (copied' == copied && st'.chunks == st.chunks)
    ensures st'.chunks == st.chunks && Remaining(st') == Remaining(st) && st'.index == st.index && st'.endIndex == st.endIndex
    ensures st'.cached.Some? ==> left' == 0
  {
    copied', left', st' := copied, left, st;
    if st.cached.Some? {
      var str := st.cached.value;
      var k := if left < |str| then left else |str|;
      copied' := copied + str[..k];
      left' := left - k;
      st' := st.(cached := if k < |str| then Some(str[k..]) else None);
      CacheDrainStep(b, p, copied, st, k);
    }
  }

  /** Draining `k` characters of the pushback keeps the copied text a prefix
      of the pending text, and the pushback its unread suffix. */
  lemma CacheDrainStep(b: Buffered, p: string, copied: string, st: Buffered, k: nat)
    requires WF(st) && st.cached.Some? && k <= |st.cached.value|
    requires |copied| <= |p| && copied == p[..|copied|] && SR.Pending(Abs(st)) == p[|copied|..]
    requires CacheInv(b, st, |copied|)
    ensures var str := st.cached.value;
      var copied' := copied + str[..k];
      var st' := st.(cached := if k < |str| then Some(str[k..]) else None);
      && WF(st')
      && |copied'| <= |p| && copied' == p[..|copied'|] && SR.Pending(Abs(st')) == p[|copied'|..]
      && CacheInv(b, st', |copied'|)
  {
    var str := st.cached.value;
    var copied' := copied + str[..k];
    var st' := st.(cached := if k < |str| then Some(str[k..]) else None);
    assert SR.Pending(Abs(st)) == str + Remaining(st);
    assert SR.Pending(Abs(st')) == str[k..] + Remaining(st);
    assert p[|copied|..] == str[..k] + p[|copied'|..];
  }

  /** The window part of a pass of `read`. */
  method DrainWindow(ghost b: Buffered, ghost len: int, ghost p: string, copied: string, left: int, st: Buffered)
    returns (copied': string, left': int, st': Buffered)
    requires ReadInv(b, len, p, copied, left, st) && left >= 0 && len > 0
    requires st.cached.Some? ==> left == 0
    ensures ReadInv(b, len, p, copied', left', st') && st'.chunks == st.chunks
    ensures left' < left || (copied' == copied && st' == st)
    ensures left' > 0 ==> Window(st') == [] && st'.cached.None?
  {
    copied', left', st' := copied, left, st;
    var k := st.endIndex - st.index;
    if k > 0 && left > 0 {
      if left < k {
        k := left;
      }
      WindowDrainStep(b, p, copied, st, k);
      copied' := copied + st.buffer[st.index..st.index + k];
      st' := st.(index := st.index + k);
      left' := left - k;
    }
  }

  /** Draining `k` characters of the window keeps the copied text a prefix of
      the pending text. */
  lemma WindowDrainStep(b: Buffered, p: string, copied: string, st: Buffered, k: int)
    requires WF(st) && st.cached.None? && 0 < k <= st.endIndex - st.index
    requires |copied| <= |p| && copied == p[..|copied|] && SR.Pending(Abs(st)) == p[|copied|..]
    requires CacheInv(b, st, |copied|)
    ensures var copied' := copied + st.buffer[st.index..st.index + k];
      var st' := st.(index := st.index + k);
      && WF(st')
      && |copied'| <= |p| && copied' == p[..|copied'|] && SR.Pending(Abs(st')) == p[|copied'|..]
      && CacheInv(b, st', |copied'|)
  {
    WindowPrefix(st, p, |copied|, st.index + k);
  }

  /** The state the loop of `read` ends in is the abstract step's. */
  lemma ReadConclusion(b: Buffered, len: int, p: string, copied: string, left: int, st: Buffered)
    requires WF(b) && b.isOpen && p == SR.Pending(Abs(b)) && ReadInv(b, len, p, copied, left, st)
    requires left <= 0 || SR.Pending(Abs(st)) == []
    requires st.cached.Some? ==> left <= 0
    ensures (SR.Chars(if |copied| == 0 then -1 else |copied|, copied), Abs(st)) == SR.Read(Abs(b), len)
  {
    if len > 0 {
      var c := if b.cached.Some? then b.cached.value else [];
      if b.cached.Some? && len < |c| {
        ReadConclusionCached(b, len, p, copied, left, st);
      } else {
        ReadConclusionInput(b, len, p, copied, left, st);
      }
    }
  }

  lemma ReadConclusionCached(b: Buffered, len: int, p: string, copied: string, left: int, st: Buffered)
    requires WF(b) && b.isOpen && p == SR.Pending(Abs(b)) && ReadInv(b, len, p, copied, left, st)
    requires left <= 0 || SR.Pending(Abs(st)) == []
    requires b.cached.Some? && 0 < len < |b.cached.value|
    ensures (SR.Chars(if |copied| == 0 then -1 else |copied|, copied), Abs(st)) == SR.Read(Abs(b), len)
  {
    var m := |copied|;
    var c := b.cached.value;
    assert p == c + Remaining(b);
    assert left == 0;
    assert st.cached == Some(c[len..]);
    assert SR.Pending(Abs(st)) == c[len..] + Remaining(st);
    assert p[len..] == c[len..] + Remaining(b);
    assert m == len;
    assert Remaining(st) == (c[len..] + Remaining(st))[|c| - len..];
    assert Remaining(b) == (c[len..] + Remaining(b))[|c| - len..];
    assert copied == c[..len];
    SR.ReadFromCache(Abs(b), len, copied, Abs(st));
  }

  lemma ReadConclusionInput(b: Buffered, len: int, p: string, copied: string, left: int, st: Buffered)
    requires WF(b) && b.isOpen && p == SR.Pending(Abs(b)) && ReadInv(b, len, p, copied, left, st)
    requires left <= 0 || SR.Pending(Abs(st)) == []
    requires st.cached.Some? ==> left <= 0
    requires len > 0 && (b.cached.Some? ==> len >= |b.cached.value|)
    ensures (SR.Chars(if |copied| == 0 then -1 else |copied|, copied), Abs(st)) == SR.Read(Abs(b), len)
  {
    assert st.cached.None?;
    assert Abs(st) == Abs(b).(cached := None, input := p[|copied|..]);
    SR.ReadFromInput(Abs(b), len, copied, Abs(st));
  }

  // ---------------------------------------------------------------------------
  // ready, pushback, close

  /** `ready()`: a pushback, an unread window, or else the underlying Reader's
      `ready()`, read as "not at end"; that last call throws (`None`) once
      `close()` has closed the underlying Reader. Whenever it answers, it
      answers what the abstract reader does. */
  function Ready(b: Buffered): (r: Option<bool>)
    requires WF(b)
    ensures r.None? <==> !b.isOpen && b.cached.None? && Window(b) == []
    ensures r.Some? ==> (r.value <==> SR.Ready(Abs(b)))
  {
    FlattenEmpty(b.chunks);
    if b.cached.Some? || b.index < b.endIndex then Some(true)
    else if !b.isOpen then None
    else Some(b.chunks != [])
  }

  lemma {:induction false} FlattenEmpty(chunks: seq<string>)
    requires ChunksFit(chunks)
    ensures Flatten(chunks) == [] <==> chunks == []
  {
    if chunks != [] {
      assert |chunks[0]| >= 1;
    }
  }

  /** `pushback(line)` leaves the buffer alone. */
  function Pushback(b: Buffered, line: string): (r: Buffered)
    requires WF(b)
    ensures WF(r) && Abs(r) == SR.Pushback(Abs(b), line)
    ensures Remaining(r) == Remaining(b)
  {
    b.(cached := Some(line))
  }

  /** `close()` marks the reader closed and closes the underlying Reader: the
      pushback and the window can still be read, but every refill from then on
      throws, and so does `ready()` once both are used up. */
  function Close(b: Buffered): (r: Buffered)
    requires WF(b)
    ensures WF(r) && Abs(r) == SR.Close(Abs(b))
    ensures Remaining(r) == Remaining(b) && Window(r) == Window(b) && r.cached == b.cached
    ensures Fill(r).0 == Threw <==> r.endIndex >= 0
    ensures Ready(r).None? <==> r.cached.None? && Window(r) == []
  {
    b.(isOpen := false)
  }
}

=== FILE: splitting_reader.dfy ===
/** The SplittingReader as an immutable value: the characters not yet consumed
    from the underlying Reader, at most one pushed-back string, the open flag and
    the line-terminator optimisation state. Every operation is a pure step that
    returns its result together with the next state. The 10 000-character buffer
    of the Java class is not visible at this level; module SplittingBuffer models
    it and proves that each buffered operation computes exactly what the step
    functions here compute, wherever the refills fall, whenever it does not
    throw. Which reads throw after `close()` depends on where the buffer ends,
    so only SplittingBuffer states it. */
module SplittingReader {
  import opened Common

  datatype Splitter = Splitter(
    input: string,                   // characters the underlying Reader has still to deliver, buffered or not
    cached: Option<string>,          // the pushed-back 'line', returned before any further input
    isOpen: bool,
    consistentLineTerminators: bool, // caller's promise that every line uses the same terminator
    terminator: Option<char>)        // single-character terminator detected under that promise

  /** `new SplittingReader(reader, consistentLineTerminators)` over a Reader delivering `text`. */
  function New(text: string, consistent: bool): (sp: Splitter)
    ensures Pending(sp) == text && sp.isOpen
  {
    Splitter(text, None, true, consistent, None)
  }

  /** Everything still to be read: the pushback first, then the input. */
  function Pending(sp: Splitter): string {
    (if sp.cached.Some? then sp.cached.value else []) + sp.input
  }

  /** `ready()`: a pushback is pending or input remains. (The underlying
      Reader's `ready()` is read as "not at end".) */
  predicate Ready(sp: Splitter) {
    sp.cached.Some? || |sp.input| > 0
  }

  /** A measure that every successful read strictly decreases. */
  function Size(sp: Splitter): nat {
    |sp.input| + (if sp.cached.Some? then 1 else 0)
  }

  // ---------------------------------------------------------------------------
  // Where each scanning operation cuts its input.

  /** First index of `c` in `s`, or `|s|` when there is none. */
  function IndexOf(s: string, c: char): (k: nat)
    ensures k <= |s|
    ensures k < |s| ==> s[k] == c
    ensures forall j :: 0 <= j < k ==> s[j] != c
  {
    if s == [] then 0 else if s[0] == c then 0 else 1 + IndexOf(s[1..], c)
  }

  /** `readUntil(c)` never tests the first character: it cuts before the first
      `c` at index 1 or later, or at the end. */
  function UntilCut(s: string, c: char): (k: nat)
    ensures s != [] ==> 1 <= k <= |s|
    ensures s == [] ==> k == 0
    ensures forall j :: 1 <= j < k ==> s[j] != c
    ensures k < |s| ==> s[k] == c
  {
    if s == [] then 0 else 1 + IndexOf(s[1..], c)
  }

  /** `readUntilInclusive(c)` cuts just after the first `c`, or at the end. */
  function InclusiveCut(s: string, c: char): (k: nat)
    ensures s != [] ==> 1 <= k <= |s|
    ensures s == [] ==> k == 0
    ensures forall j :: 0 <= j < k - 1 ==> s[j] != c
    ensures 0 < k < |s| ==> s[k - 1] == c
    ensures 0 < k == |s| ==> s[k - 1] == c || forall j :: 0 <= j < |s| ==> s[j] != c
  {
    var i := IndexOf(s, c);
    if i < |s| then i + 1 else |s|
  }

  /** The initial value of `last` in `readLine`: any character other than '\r'. */
  const Sentinel: char := 'a'

  /** The scan of `readLine` from a position whose previous character is `last`:
      a '\n' ends the line and is included; a character following '\r' ends the
      line and is excluded. */
  function LineEnd(s: string, last: char): nat
    ensures LineEnd(s, last) <= |s|
  {
    if s == [] then 0
    else if s[0] == '\n' then 1
    else if last == '\r' then 0
    else 1 + LineEnd(s[1..], s[0])
  }

  function LineCut(s: string): nat
    ensures LineCut(s) <= |s|
  {
    LineEnd(s, Sentinel)
  }

  /** Reference definition of the first line of `s`: `s[..k]` holds no line
      terminator except as its last character, or as the '\r' of a final "\r\n";
      and it stops at the first terminator, or runs to the end of `s`. */
  ghost predicate IsFirstLine(s: string, k: int) {
    && 1 <= k <= |s|
    && (forall i :: 0 <= i < k - 1 ==> s[i] != '\n')
    && (forall i :: 0 <= i < k - 1 && s[i] == '\r' ==> i == k - 2 && s[k - 1] == '\n')
    && (k < |s| ==> s[k - 1] == '\n' || (s[k - 1] == '\r' && s[k] != '\n'))
  }

  /** The terminator `readLine` records under `consistentLineTerminators` after
      cutting the first `k` characters of `s`: '\n' for a lone line feed, '\r'
      for a carriage return followed by something else; nothing for "\r\n" or a
      line that runs to the end of the input. */
  function DetectedTerminator(s: string, k: nat): (t: Option<char>)
    requires 1 <= k <= |s|
    ensures t == Some('\n') ==> s[k - 1] == '\n' && !(k >= 2 && s[k - 2] == '\r')
    ensures t == Some('\r') ==> s[k - 1] == '\r' && k < |s|
    ensures t.Some? ==> t.value == '\n' || t.value == '\r'
  {
    if s[k - 1] == '\n' then (if k >= 2 && s[k - 2] == '\r' then None else Some('\n'))
    else if k < |s| && s[k - 1] == '\r' then Some('\r')
    else None
  }

  // ---------------------------------------------------------------------------
  // The operations.

  /** `readUntil(c)`: the pushback verbatim if there is one; otherwise the text
      up to but excluding the next `c` after the first character (lemma
      ReadUntilDelimits); `None` (Java null) at end of input. */
  function ReadUntil(sp: Splitter, c: char): (r: (Option<string>, Splitter))
    ensures r.0.None? <==> !Ready(sp)
    ensures r.0.None? ==> r.1 == sp
    ensures r.0.Some? ==> r.0.value + Pending(r.1) == Pending(sp) && Size(r.1) < Size(sp)
    ensures r.1.cached.None? && Unchanged(sp, r.1)
    ensures sp.cached.Some? ==> r.0 == sp.cached && r.1.input == sp.input
  {
    if sp.cached.Some? then TakeCached(sp)
    else if sp.input == [] then (None, sp)
    else CutAt(sp, UntilCut(sp.input, c))
  }

  /** `readUntilInclusive(c)`: the pushback verbatim if there is one; otherwise
      the text up to and including the next `c`, or the rest of the input when
      no `c` remains (lemma ReadUntilInclusiveDelimits); `None` at end of input. */
  function ReadUntilInclusive(sp: Splitter, c: char): (r: (Option<string>, Splitter))
    ensures r.0.None? <==> !Ready(sp)
    ensures r.0.None? ==> r.1 == sp
    ensures r.0.Some? ==> r.0.value + Pending(r.1) == Pending(sp) && Size(r.1) < Size(sp)
    ensures r.1.cached.None? && Unchanged(sp, r.1)
    ensures sp.cached.Some? ==> r.0 == sp.cached && r.1.input == sp.input
  {
    if sp.cached.Some? then TakeCached(sp)
    else if sp.input == [] then (None, sp)
    else CutAt(sp, InclusiveCut(sp.input, c))
  }

  /** Every read hands out a pending pushback whole. */
  function TakeCached(sp: Splitter): (r: (Option<string>, Splitter))
    requires sp.cached.Some?
    ensures r.0 == sp.cached && r.1.cached.None? && r.1.input == sp.input && Unchanged(sp, r.1)
    ensures r.0.value + Pending(r.1) == Pending(sp) && Size(r.1) < Size(sp)
  {
    (sp.cached, sp.(cached := None))
  }

  /** A scan without pushback that stops after `k` characters. */
  function CutAt(sp: Splitter, k: nat): (r: (Option<string>, Splitter))
    requires sp.cached.None? && 1 <= k <= |sp.input|
    ensures r.0 == Some(sp.input[..k]) && r.1.input == sp.input[k..]
    ensures r.1.cached.None? && Unchanged(sp, r.1)
    ensures r.0.value + Pending(r.1) == Pending(sp) && Size(r.1) < Size(sp)
  {
    assert sp.input[..k] + sp.input[k..] == sp.input;
    (Some(sp.input[..k]), sp.(input := sp.input[k..]))
  }

  /** The configuration and open state a read leaves alone. */
  predicate Unchanged(a: Splitter, b: Splitter) {
    a.isOpen == b.isOpen && a.consistentLineTerminators == b.consistentLineTerminators && a.terminator == b.terminator
  }

  /** `readLine()`: once a single-character terminator has been detected under
      `consistentLineTerminators`, exactly `readUntilInclusive` on it; otherwise
      the pushback verbatim, or the first line of the input with its terminator
      ("\n", "\r\n" or a lone "\r"), or the unterminated tail; `None` at end. */
  function ReadLine(sp: Splitter): (r: (Option<string>, Splitter))
    ensures r.0.None? <==> !Ready(sp)
    ensures r.0.None? ==> r.1 == sp
    ensures r.0.Some? ==> r.0.value + Pending(r.1) == Pending(sp)
    ensures r.0.Some? ==> Size(r.1) < Size(sp)
    ensures r.1.cached.None? && r.1.isOpen == sp.isOpen
    ensures r.1.consistentLineTerminators == sp.consistentLineTerminators
    ensures sp.cached.Some? ==> r.0 == sp.cached && r.1.input == sp.input
    ensures !sp.consistentLineTerminators ==> r.1.terminator == sp.terminator
    ensures sp.terminator.Some? ==> r.1.terminator == sp.terminator
  {
    if sp.consistentLineTerminators && sp.terminator.Some? then
      ReadUntilInclusive(sp, sp.terminator.value)
    else if sp.cached.Some? then TakeCached(sp)
    else if sp.input == [] then (None, sp)
    else ScanLine(sp)
  }

  /** The general-mode scan of `readLine` over a non-empty input. */
  function ScanLine(sp: Splitter): (r: (Option<string>, Splitter))
    requires sp.cached.None? && sp.input != []
    ensures r.0.Some? && r.0.value + Pending(r.1) == Pending(sp) && Size(r.1) < Size(sp)
    ensures r.0.value == sp.input[..LineCut(sp.input)]
    ensures r.1.cached.None? && r.1.isOpen == sp.isOpen
    ensures r.1.consistentLineTerminators == sp.consistentLineTerminators
    ensures !sp.consistentLineTerminators ==> r.1.terminator == sp.terminator
  {
    LineEndPositive(sp.input);
    var k := LineCut(sp.input);
    var (line, next) := CutAt(sp, k);
    (line, next.(terminator := if sp.consistentLineTerminators then DetectedTerminator(sp.input, k) else sp.terminator))
  }

  lemma LineEndPositive(s: string)
    requires s != []
    ensures LineEnd(s, Sentinel) >= 1
  {
  }

  /** `pushback(line)`: `line` becomes the next thing read, replacing any earlier
      pushback that was not consumed. */
  function Pushback(sp: Splitter, line: string): (r: Splitter)
    ensures Pending(r) == line + sp.input
    ensures Ready(r)
    ensures r.input == sp.input && r.isOpen == sp.isOpen && r.terminator == sp.terminator
    ensures r.consistentLineTerminators == sp.consistentLineTerminators
  {
    sp.(cached := Some(line))
  }

  /** `close()`. */
  function Close(sp: Splitter): (r: Splitter)
    ensures !r.isOpen && Pending(r) == Pending(sp)
  {
    sp.(isOpen := false)
  }

  datatype BulkRead = Chars(count: int, data: string) | StreamClosed

  /** `read(cbuf, off, len)`: fails with "Stream closed" once closed; copies up
      to `len` characters, draining the pushback before the input and keeping
      any unconsumed suffix of the pushback; reports the number copied, or -1
      when nothing was copied (including every call with `len <= 0`). */
  function Read(sp: Splitter, len: int): (r: (BulkRead, Splitter))
    ensures !sp.isOpen ==> r.0 == StreamClosed && r.1 == sp
    ensures sp.isOpen ==> r.0.Chars? && r.1.isOpen
    ensures sp.isOpen && len <= 0 ==> r.0 == Chars(-1, []) && r.1 == sp
    ensures sp.isOpen && len > 0 ==>
      var n := if len < |Pending(sp)| then len else |Pending(sp)|;
      && r.0.data == Pending(sp)[..n]
      && r.0.count == (if n == 0 then -1 else n)
      && Pending(r.1) == Pending(sp)[n..]
    ensures sp.isOpen && sp.cached.Some? && 0 < len < |sp.cached.value| ==>
      r.1.cached == Some(sp.cached.value[len..]) && r.1.input == sp.input
    ensures r.1.terminator == sp.terminator
  {
    if !sp.isOpen then (StreamClosed, sp)
    else if len <= 0 then (Chars(-1, []), sp)
    else
      var c := if sp.cached.Some? then sp.cached.value else [];
      if sp.cached.Some? && len < |c| then
        assert Pending(sp)[..len] == c[..len];
        assert Pending(sp)[len..] == c[len..] + sp.input;
        (Chars(len, c[..len]), sp.(cached := Some(c[len..])))
      else
        var fromInput := if len - |c| < |sp.input| then len - |c| else |sp.input|;
        var n := |c| + fromInput;
        assert Pending(sp)[..n] == c + sp.input[..fromInput];
        assert Pending(sp)[n..] == sp.input[fromInput..];
        (Chars(if n == 0 then -1 else n, c + sp.input[..fromInput]),
         sp.(cached := None, input := sp.input[fromInput..]))
  }

  // ---------------------------------------------------------------------------
  // Properties.

  /** The scan of `readLine`, started after a character `last`, stops at the first
      line feed (included) or at the first character that follows a carriage
      return (excluded), and nowhere else. */
  lemma {:induction false} LineEndStops(s: string, last: char)
    ensures var k := LineEnd(s, last);
      && (forall i :: 0 <= i < k - 1 ==> s[i] != '\n')
      && (forall i :: 0 <= i < k - 1 && s[i] == '\r' ==> i == k - 2 && s[k - 1] == '\n')
      && (k == 0 ==> s == [] || (last == '\r' && s[0] != '\n'))
      && (0 < k < |s| ==> s[k - 1] == '\n' || (s[k - 1] == '\r' && s[k] != '\n'))
      && (0 < k && last == '\r' ==> s[0] == '\n' && k == 1)
  {
    if s == [] || s[0] == '\n' || last == '\r' {
    } else {
      LineEndStops(s[1..], s[0]);
    }
  }

  /** `readLine` cuts the input exactly at its first line as defined by
      IsFirstLine, and IsFirstLine admits no other cut. */
  lemma LineCutIsFirstLine(s: string, k: int)
    requires s != []
    ensures IsFirstLine(s, LineCut(s))
    ensures IsFirstLine(s, k) ==> k == LineCut(s)
  {
    LineEndStops(s, Sentinel);
    LineEndPositive(s);
  }

  /** The sequence of results `readLine` returns until it returns null. */
  function AllLines(sp: Splitter): seq<string>
    decreases Size(sp)
  {
    var (line, next) := ReadLine(sp);
    if line.None? then [] else [line.value] + AllLines(next)
  }

  /** Concatenating every line `readLine` returns reproduces the pending text
      exactly, terminators included. */
  lemma {:induction false} AllLinesLossless(sp: Splitter)
    ensures Concat(AllLines(sp)) == Pending(sp)
    decreases Size(sp)
  {
    var (line, next) := ReadLine(sp);
    if line.Some? {
      AllLinesLossless(next);
      assert AllLines(sp) == [line.value] + AllLines(next);
      assert ([line.value] + AllLines(next))[1..] == AllLines(next);
    } else {
      assert Pending(sp) == [];
    }
  }

  /** No line terminator anywhere in `a`. */
  predicate NoTerminator(a: string) {
    forall i :: 0 <= i < |a| ==> a[i] != '\n' && a[i] != '\r'
  }

  /** The scan of `readLine` runs straight through text holding no terminator. */
  lemma {:induction false} LineEndSkips(a: string, t: string, last: char)
    requires NoTerminator(a) && last != '\r'
    ensures LineEnd(a + t, last) == |a| + LineEnd(t, if a == [] then last else a[|a| - 1])
    decreases |a|
  {
    if a == [] {
      assert a + t == t;
    } else {
      assert (a + t)[0] == a[0] && (a + t)[1..] == a[1..] + t;
      LineEndSkips(a[1..], t, a[0]);
    }
  }

  /** A line of ordinary text ended by "\n", by "\r\n", or by a "\r" that
      is not followed by "\n" is returned with its terminator, and reading
      resumes just after it. */
  lemma LinesOfTerminated(a: string, term: string, rest: string)
    requires NoTerminator(a)
    requires term == "\n" || term == "\r\n" || (term == "\r" && (rest == [] || rest[0] != '\n'))
    ensures AllLines(New(a + term + rest, false)) == [a + term] + AllLines(New(rest, false))
  {
    var s := a + term + rest;
    assert s == a + (term + rest);
    LineEndSkips(a, term + rest, Sentinel);
    var last := if a == [] then Sentinel else a[|a| - 1];
    TerminatorEnds(term, rest, last);
    assert LineCut(s) == |a| + |term|;
    assert s[..|a| + |term|] == a + term && s[|a| + |term|..] == rest;
    FirstLineOf(s);
  }

  /** A scan that reaches a terminator after ordinary text stops just after it. */
  lemma TerminatorEnds(term: string, rest: string, last: char)
    requires last != '\r'
    requires term == "\n" || term == "\r\n" || (term == "\r" && (rest == [] || rest[0] != '\n'))
    ensures LineEnd(term + rest, last) == |term|
  {
    if term == "\r\n" {
      assert (term + rest)[1..] == "\n" + rest;
    } else if term == "\r" {
      assert (term + rest)[1..] == rest;
    }
  }

  /** Without the terminator optimisation, the lines of a text are its first
      line followed by the lines of the rest. */
  lemma FirstLineOf(s: string)
    requires s != []
    ensures AllLines(New(s, false)) == [s[..LineCut(s)]] + AllLines(New(s[LineCut(s)..], false))
  {
    LineEndPositive(s);
  }

  /** Ordinary text with no terminator at all is returned whole, then null. */
  lemma LinesOfUnterminated(a: string)
    requires NoTerminator(a) && a != []
    ensures AllLines(New(a, false)) == [a]
  {
    LineEndSkips(a, [], Sentinel);
    assert a + [] == a;
    assert AllLines(New([], false)) == [];
  }

  /** Lines ending in "\n", "\r\n", "\r" and nothing, in that order, come back
      one by one with their terminators, then null. */
  lemma FourKindsOfLine(l1: string, l2: string, l3: string, l4: string)
    requires NoTerminator(l1) && NoTerminator(l2) && NoTerminator(l3) && NoTerminator(l4) && l4 != []
    ensures AllLines(New(l1 + "\n" + (l2 + "\r\n" + (l3 + "\r" + l4)), false))
         == [l1 + "\n", l2 + "\r\n", l3 + "\r", l4]
  {
    LastThreeKindsOfLine(l2, l3, l4);
    LinesOfTerminated(l1, "\n", l2 + "\r\n" + (l3 + "\r" + l4));
  }

  lemma LastThreeKindsOfLine(l2: string, l3: string, l4: string)
    requires NoTerminator(l2) && NoTerminator(l3) && NoTerminator(l4) && l4 != []
    ensures AllLines(New(l2 + "\r\n" + (l3 + "\r" + l4), false)) == [l2 + "\r\n", l3 + "\r", l4]
  {
    LastTwoKindsOfLine(l3, l4);
    LinesOfTerminated(l2, "\r\n", l3 + "\r" + l4);
  }

  lemma LastTwoKindsOfLine(l3: string, l4: string)
    requires NoTerminator(l3) && NoTerminator(l4) && l4 != []
    ensures AllLines(New(l3 + "\r" + l4, false)) == [l3 + "\r", l4]
  {
    LinesOfUnterminated(l4);
    LinesOfTerminated(l3, "\r", l4);
  }

  /** The reader's test vector, "String 1\nString 2\r\nString 3\rString 4",
      gives four lines, then null. */
  lemma ReadLineExample(l1: string, l2: string, l3: string, l4: string)
    requires l1 == "String 1" && l2 == "String 2" && l3 == "String 3" && l4 == "String 4"
    ensures AllLines(New(l1 + "\n" + (l2 + "\r\n" + (l3 + "\r" + l4)), false))
         == ["String 1\n", "String 2\r\n", "String 3\r", "String 4"]
  {
    TestVectorLines();
    FourKindsOfLine(l1, l2, l3, l4);
    TestVectorTerminated();
  }

  lemma TestVectorLines()
    ensures NoTerminator("String 1") && NoTerminator("String 2")
    ensures NoTerminator("String 3") && NoTerminator("String 4")
  {
  }

  lemma TestVectorTerminated()
    ensures "String 1" + "\n" == "String 1\n"
    ensures "String 2" + "\r\n" == "String 2\r\n"
    ensures "String 3" + "\r" == "String 3\r"
  {
  }

  /** After `pushback(x)`, the next `readLine` returns `x` verbatim and leaves the
      reader where it was before the pushback. */
  lemma PushbackThenReadLine(sp: Splitter, x: string)
    requires sp.cached.None?
    ensures ReadLine(Pushback(sp, x)) == (Some(x), sp)
  {
  }

  /** ... and so does `readUntil`, whatever delimiter it is given ... */
  lemma PushbackThenReadUntil(sp: Splitter, x: string, c: char)
    requires sp.cached.None?
    ensures ReadUntil(Pushback(sp, x), c) == (Some(x), sp)
  {
  }

  /** ... and `readUntilInclusive`. */
  lemma PushbackThenReadUntilInclusive(sp: Splitter, x: string, c: char)
    requires sp.cached.None?
    ensures ReadUntilInclusive(Pushback(sp, x), c) == (Some(x), sp)
  {
  }

  /** A second pushback replaces the first. */
  lemma PushbackOverwrites(sp: Splitter, x: string, y: string)
    ensures Pushback(Pushback(sp, x), y) == Pushback(sp, y)
  {
  }

  /** Under `consistentLineTerminators`, the terminator a general-mode `readLine`
      records is that of a lone "\n" or a lone "\r"; a line ending in "\r\n"
      records none. */
  lemma TerminatorDetection(sp: Splitter)
    requires sp.consistentLineTerminators && sp.terminator.None? && sp.cached.None?
    requires sp.input != []
    ensures var (line, next) := ReadLine(sp);
      var l := line.value;
      && (next.terminator == Some('\n') <==> l[|l| - 1] == '\n' && !(|l| >= 2 && l[|l| - 2] == '\r'))
      && (next.terminator == Some('\r') <==> l[|l| - 1] == '\r' && next.input != [])
  {
    var k := LineCut(sp.input);
    LineEndPositive(sp.input);
    LineEndStops(sp.input, Sentinel);
  }

  /** Once the terminator is known, `readLine` is `readUntilInclusive` on it. */
  lemma DetectedTerminatorSwitchesScan(sp: Splitter)
    requires sp.consistentLineTerminators && sp.terminator.Some?
    ensures ReadLine(sp) == ReadUntilInclusive(sp, sp.terminator.value)
  {
  }

  /** `readUntil(c)` returns exactly a segment that starts anywhere and has no
      `c` after its first character, when the text after it is empty or starts
      with `c`. */
  lemma ReadUntilOfSegment(a: string, c: char, rest: string)
    requires a != [] && (forall j :: 1 <= j < |a| ==> a[j] != c)
    requires rest == [] || rest[0] == c
    ensures ReadUntil(New(a + rest, false), c) == (Some(a), New(rest, false))
  {
    var s := a + rest;
    var k := UntilCut(s, c);
    assert forall j :: 1 <= j < |a| ==> s[j] == a[j];
    assert rest != [] ==> s[|a|] == c;
    assert s[..|a|] == a && s[|a|..] == rest;
  }

  /** Two consecutive `readUntil(c)` calls over two segments as in
      ReadUntilOfSegment return those segments in order. */
  lemma ReadUntilTwice(a: string, b: string, rest: string, c: char)
    requires a != [] && (forall j :: 1 <= j < |a| ==> a[j] != c)
    requires b != [] && b[0] == c && (forall j :: 1 <= j < |b| ==> b[j] != c)
    requires rest == [] || rest[0] == c
    ensures var (x, sp1) := ReadUntil(New(a + (b + rest), false), c);
      var (y, sp2) := ReadUntil(sp1, c);
      x == Some(a) && y == Some(b) && sp2 == New(rest, false)
  {
    ReadUntilOfSegment(b, c, rest);
    ReadUntilOfSegment(a, c, b + rest);
  }

  /** `readUntil('i')` on the reader's test vector returns "Str", then
      "ing 1\nStr": the 'i' that ended one result starts the next. */
  lemma ReadUntilExample(a: string, b: string, rest: string)
    requires a == "Str" && b == "ing 1\nStr" && rest == "ing 2\r\nString 3\rString 4"
    ensures var (x, sp1) := ReadUntil(New(a + (b + rest), false), 'i');
      var (y, sp2) := ReadUntil(sp1, 'i');
      x == Some("Str") && y == Some("ing 1\nStr") && sp2 == New(rest, false)
  {
    assert forall j :: 1 <= j < |b| ==> b[j] != 'i';
    ReadUntilTwice(a, b, rest, 'i');
  }

  /** `readUntil` returns at least one character, never tests the first one,
      holds no `c` after it, and leaves the next `c` (if any) to start the
      following read. */
  lemma ReadUntilDelimits(sp: Splitter, c: char)
    requires sp.cached.None? && sp.input != []
    ensures var (r, next) := ReadUntil(sp, c);
      && r.Some? && |r.value| >= 1
      && (forall j :: 1 <= j < |r.value| ==> r.value[j] != c)
      && (next.input == [] || next.input[0] == c)
  {
  }

  /** `readUntilInclusive` returns text holding its first `c` as its last
      character, or the whole remaining input when it holds no `c`. */
  lemma ReadUntilInclusiveDelimits(sp: Splitter, c: char)
    requires sp.cached.None? && sp.input != []
    ensures var (r, next) := ReadUntilInclusive(sp, c);
      && r.Some? && |r.value| >= 1
      && (forall j :: 0 <= j < |r.value| - 1 ==> r.value[j] != c)
      && (r.value[|r.value| - 1] == c || (next.input == [] && forall j :: 0 <= j < |r.value| ==> r.value[j] != c))
  {
  }

  /** Every `read` after `close` fails with "Stream closed". */
  lemma ReadAfterClose(sp: Splitter, len: int)
    ensures Read(Close(sp), len).0 == StreamClosed
  {
  }

  /** A `read` of `a` characters followed by one of `b` delivers, in order,
      exactly what a single `read` of `a + b` delivers, and leaves the same text
      pending: how a caller sizes its requests does not change what it gets. */
  lemma ReadSplits(sp: Splitter, a: int, b: int)
    requires sp.isOpen && a > 0 && b > 0
    ensures Read(sp, a).0.Chars? && Read(Read(sp, a).1, b).0.Chars? && Read(sp, a + b).0.Chars?
    ensures Read(sp, a).0.data + Read(Read(sp, a).1, b).0.data == Read(sp, a + b).0.data
    ensures Pending(Read(Read(sp, a).1, b).1) == Pending(Read(sp, a + b).1)
  {
    var n1 := ReadTakes(sp, a);
    var n2 := ReadTakes(Read(sp, a).1, b);
    var n := ReadTakes(sp, a + b);
    PrefixSplits(Pending(sp), n1, n2, n);
  }

  lemma PrefixSplits(p: string, n1: nat, n2: nat, n: nat)
    requires n1 <= |p| && n2 <= |p[n1..]| && n == n1 + n2
    ensures p[..n1] + p[n1..][..n2] == p[..n] && p[n1..][n2..] == p[n..]
  {
    assert p[..n1] + p[n1..][..n2] == p[..n];
  }

  /** What a `read` of `len > 0` characters on an open reader takes: the first
      `n` pending characters, `n` being `len` or what is pending if less. */
  lemma ReadTakes(sp: Splitter, len: int) returns (n: nat)
    requires sp.isOpen && len > 0
    ensures n == (if len < |Pending(sp)| then len else |Pending(sp)|)
    ensures Read(sp, len).0.Chars? && Read(sp, len).1.isOpen
    ensures Read(sp, len).0.data == Pending(sp)[..n] && Pending(Read(sp, len).1) == Pending(sp)[n..]
  {
    n := if len < |Pending(sp)| then len else |Pending(sp)|;
  }

  /** Proof helper, no property of its own: `Read` restated for the branch
      where a longer pushback serves the call alone, so that a caller holding
      the copied text and the remaining pushback can conclude it equals `Read`. */
  lemma ReadFromCache(sp: Splitter, len: int, data: string, sp': Splitter)
    requires sp.isOpen && sp.cached.Some? && 0 < len < |sp.cached.value|
    requires data == sp.cached.value[..len]
    requires sp' == sp.(cached := Some(sp.cached.value[len..]))
    ensures (Chars(len, data), sp') == Read(sp, len)
  {
  }

  /** Proof helper, no property of its own: `Read` restated over `Pending`
      for the branch where any pushback is used up, so that a caller holding
      the copied text and the input left can conclude it equals `Read`. */
  lemma ReadFromInput(sp: Splitter, len: int, data: string, sp': Splitter)
    requires sp.isOpen && len > 0 && (sp.cached.Some? ==> len >= |sp.cached.value|)
    requires var n := if len < |Pending(sp)| then len else |Pending(sp)|;
      data == Pending(sp)[..n] && sp' == sp.(cached := None, input := Pending(sp)[n..])
    ensures (Chars(if |data| == 0 then -1 else |data|, data), sp') == Read(sp, len)
  {
    var c := if sp.cached.Some? then sp.cached.value else [];
    var f := if len - |c| < |sp.input| then len - |c| else |sp.input|;
    assert Pending(sp)[..|c| + f] == c + sp.input[..f];
    assert Pending(sp)[|c| + f..] == sp.input[f..];
  }
}

=== FILE: transformer.dfy ===
/** The output side of the C24Transformer: the transform's result matrix is
    unwrapped into the outgoing payload, each object passing through the
    optional Java-bean sink. The transform itself and the sink's conversion
    are oracles. */
module Transformer {
  import opened Common

  /** What `extractOutputPayload` returns: null, one object, or an array. */
  datatype Payload<T> = Null | Single(value: T) | Array(items: seq<T>)

  /** How `extractOutputPayload` ends: with a payload, or with the IOException
      a conversion of the sink threw. */
  datatype Outcome<T> = Returned(payload: Payload<T>) | SinkFailed

  /** `alwaysReturnArray` (false unless set) and the sink `setTargetClass`
      installs: `None` for a null target class, otherwise the conversion of
      the `JavaClassSink` built for that class, `None` where `convertObject`
      throws IOException. */
  datatype Config<!T> = Config(alwaysReturnArray: bool, javaSink: Option<T -> Option<T>>)

  function DefaultConfig<T>(): (c: Config<T>)
    ensures !c.alwaysReturnArray && c.javaSink.None?
  {
    Config(false, None)
  }

  /** `setTargetClass(targetClass)`: a sink exactly when a class is given. */
  function SetTargetClass<T>(c: Config<T>, converter: Option<T -> Option<T>>): (r: Config<T>)
    ensures r.javaSink.Some? <==> converter.Some?
    ensures r.alwaysReturnArray == c.alwaysReturnArray
  {
    c.(javaSink := converter)
  }

  /** `sink(Object)`: converted when a sink is set, unchanged otherwise;
      `None` where the conversion throws. */
  function Sink<T>(c: Config<T>, x: T): Option<T> {
    if c.javaSink.Some? then c.javaSink.value(x) else Some(x)
  }

  /** After a `sink(Object[])` that threw at index `k`: the elements before
      `k` hold their conversions, those from `k` on are untouched, and the
      conversion at `k` is the one that threw. */
  ghost predicate ConvertedUpTo<T>(c: Config<T>, objs: seq<T>, r: seq<T>, k: nat) {
    && |r| == |objs| && k < |objs| && Sink(c, objs[k]).None?
    && (forall i :: 0 <= i < k ==> Sink(c, objs[i]) == Some(r[i]))
    && (forall i :: k <= i < |objs| ==> r[i] == objs[i])
  }

  /** `sink(Object[])`: overwrites every element of the array with its
      conversion, in index order, and returns the same array; the first
      conversion that throws (`failed`) leaves the array half converted. */
  method SinkArray<T>(c: Config<T>, objs: seq<T>) returns (r: seq<T>, failed: Option<nat>)
    ensures |r| == |objs|
    ensures failed.None? <==> forall i :: 0 <= i < |objs| ==> Sink(c, objs[i]).Some?
    ensures failed.None? ==> forall i :: 0 <= i < |objs| ==> Sink(c, objs[i]) == Some(r[i])
    ensures failed.Some? ==> ConvertedUpTo(c, objs, r, failed.value)
    ensures c.javaSink.None? ==> r == objs && failed.None?
  {
    r, failed := objs, None;
    if c.javaSink.Some? {
      var i := 0;
      while i < |r|
        invariant 0 <= i <= |r| == |objs|
        invariant forall j :: 0 <= j < i ==> Sink(c, objs[j]) == Some(r[j])
        invariant forall j :: i <= j < |r| ==> r[j] == objs[j]
      {
        var converted := c.javaSink.value(r[i]);
        if converted.None? {
          failed := Some(i);
          return;
        }
        r := r[i := converted.value];
        i := i + 1;
      }
    }
  }

  /** `extractOutputPayload(results)`, with `after` the matrix as the caller
      sees it afterwards: `sink(Object[])` works on `results[0]` itself, so
      the array returned is the first row, converted in place, and a
      conversion that throws leaves that row half converted. */
  method ExtractOutputPayload<T>(c: Config<T>, results: seq<seq<T>>) returns (r: Outcome<T>, after: seq<seq<T>>)
    ensures |after| == |results| && (results != [] ==> after[1..] == results[1..] && |after[0]| == |results[0]|)
    ensures (results == [] || results[0] == []) ==>
      r == Returned(if c.alwaysReturnArray then Array([]) else Null) && after == results
    ensures r == Returned(Null) <==> !c.alwaysReturnArray && (results == [] || results[0] == [])
    ensures results != [] && |results[0]| == 1 && !c.alwaysReturnArray ==>
      && after == results
      && (r == SinkFailed <==> Sink(c, results[0][0]).None?)
      && (r.Returned? ==> r.payload == Single(Sink(c, results[0][0]).value))
    ensures results != [] && results[0] != [] && (|results[0]| > 1 || c.alwaysReturnArray) ==>
      && (r.Returned? <==> forall i :: 0 <= i < |results[0]| ==> Sink(c, results[0][i]).Some?)
      && (r.Returned? ==> r.payload == Array(after[0]))
      && (r.Returned? ==> forall i :: 0 <= i < |results[0]| ==> Sink(c, results[0][i]) == Some(after[0][i]))
      && (r == SinkFailed ==> exists k :: ConvertedUpTo(c, results[0], after[0], k))
  {
    after := results;
    if |results| == 0 {
      return Returned(if c.alwaysReturnArray then Array([]) else Null), after;
    }
    var resultVector := results[0];
    if |resultVector| == 0 {
      return Returned(if c.alwaysReturnArray then Array([]) else Null), after;
    }
    if |resultVector| == 1 && !c.alwaysReturnArray {
      var x := Sink(c, resultVector[0]);
      return if x.None? then SinkFailed else Returned(Single(x.value)), after;
    }
    var converted, failed := SinkArray(c, resultVector);
    after := results[0 := converted];
    assert after[1..] == results[1..];
    if failed.Some? {
      return SinkFailed, after;
    }
    return Returned(Array(converted)), after;
  }

  /** Reference definition of the conversion of a whole row: every element
      converted, in order, or `None` as soon as one conversion throws. */
  function ConvertAll<T>(c: Config<T>, row: seq<T>): Option<seq<T>> {
    if row == [] then Some([])
    else match Sink(c, row[0])
      case None => None
      case Some(v) =>
        match ConvertAll(c, row[1..])
        case None => None
        case Some(vs) => Some([v] + vs)
  }

  /** The whole-row conversion succeeds exactly when every element converts,
      and then holds each element's conversion at its index. */
  lemma {:induction false} ConvertAllSpec<T>(c: Config<T>, row: seq<T>)
    ensures ConvertAll(c, row).Some? <==> forall i :: 0 <= i < |row| ==> Sink(c, row[i]).Some?
    ensures ConvertAll(c, row).Some? ==>
      |ConvertAll(c, row).value| == |row| &&
      forall i :: 0 <= i < |row| ==> Sink(c, row[i]) == Some(ConvertAll(c, row).value[i])
  {
    if row != [] {
      ConvertAllSpec(c, row[1..]);
      assert forall i :: 1 <= i < |row| ==> row[i] == row[1..][i - 1];
    }
  }

  /** The payload as a function of the first row alone, for stating what
      the later rows do not change. */
  function PayloadOf<T>(c: Config<T>, row: seq<T>): Outcome<T> {
    if row == [] then Returned(if c.alwaysReturnArray then Array([]) else Null)
    else if |row| == 1 && !c.alwaysReturnArray then
      (if Sink(c, row[0]).None? then SinkFailed else Returned(Single(Sink(c, row[0]).value)))
    else if ConvertAll(c, row).None? then SinkFailed
    else Returned(Array(ConvertAll(c, row).value))
  }

  /** Only the first row counts: rows after it are ignored, and an empty first
      row is treated like an empty matrix. */
  method ExtractIsFirstRow<T>(c: Config<T>, row: seq<T>, more: seq<seq<T>>) returns (r: Outcome<T>)
    ensures r == PayloadOf(c, row)
    ensures row == [] ==> r == PayloadOf(c, [])
  {
    var after;
    r, after := ExtractOutputPayload(c, [row] + more);
    assert ([row] + more)[0] == row;
    ConvertAllSpec(c, row);
    if r.Returned? && r.payload.Array? && row != [] {
      assert r.payload.items == ConvertAll(c, row).value;
    }
  }

  /** With no target class nothing can throw and the payload is the
      transform's own objects. */
  lemma NoSinkIsIdentity<T>(c: Config<T>, row: seq<T>)
    requires c.javaSink.None? && row != []
    ensures PayloadOf(c, row) == Returned(if |row| == 1 && !c.alwaysReturnArray then Single(row[0]) else Array(row))
  {
    ConvertAllSpec(c, row);
    if !(|row| == 1 && !c.alwaysReturnArray) {
      assert ConvertAll(c, row).value == row;
    }
  }
}

=== FILE: validating_processor.dfy ===
/** The C24ValidatingItemProcessor: validates each item with the thread's
    ValidationManager, either stopping at the first failure (fail-fast) or
    collecting every failure event and reporting them together. The manager's
    verdicts are oracles: what `validateByException` throws and what
    `validateByEvents` returns and fires, for the item at hand. */
module ValidatingProcessor {
  import opened Common

  /** The part of the ValidationManager the processor changes: how many
      listeners are registered, and whether it is in event-based mode. */
  datatype Manager = Manager(listeners: nat, eventBased: bool)

  /** What the manager reports for one item: the exception
      `validateByException` throws (if any), the result of `validateByEvents`
      with the failure events it fires, in order, and the exception
      `fireValidationEvent` throws (if any) when the single collected event is
      fired again with the manager out of event-based mode. */
  datatype Verdict<E> = Verdict(byException: Option<E>, validByEvents: bool, failedEvents: seq<E>, refired: Option<E>)

  datatype Outcome<I, E> =
    | Passed(item: I)                              // the item is returned unchanged
    | ValidationFailed(item: I, cause: E)          // C24ValidationException carrying item and cause
    | CompoundFailed(item: I, failures: seq<E>)    // C24CompoundValidationException, no cause

  datatype Processor = Processor(failfast: bool)

  /** `failfast` is true unless set otherwise. */
  function NewProcessor(): (p: Processor)
    ensures p.failfast
  {
    Processor(true)
  }

  /** `process(item)`. In aggregate mode a collecting listener is added for the
      call; a single failure is re-fired with the manager switched out of
      event-based mode, and what that re-fire throws (if anything) decides
      the outcome. */
  function Process<I, E>(p: Processor, mgr: Manager, item: I, v: Verdict<E>): (r: (Outcome<I, E>, Manager))
    ensures r.1.listeners == mgr.listeners
    ensures r.0.item == item
    ensures p.failfast ==> r.1 == mgr && (r.0.Passed? <==> v.byException.None?)
    ensures p.failfast && v.byException.Some? ==> r.0 == ValidationFailed(item, v.byException.value)
    ensures !p.failfast ==>
      (r.0.Passed? <==> v.validByEvents || (|v.failedEvents| == 1 && v.refired.None?))
    ensures !p.failfast ==>
      (r.1.eventBased <==> mgr.eventBased && (v.validByEvents || |v.failedEvents| != 1))
    ensures !p.failfast && !v.validByEvents ==>
      (r.0.ValidationFailed? <==> |v.failedEvents| == 1 && v.refired.Some?)
    ensures !p.failfast && r.0.ValidationFailed? ==> r.0.cause == v.refired.value
    ensures r.0.CompoundFailed? ==> !p.failfast && r.0.failures == v.failedEvents && |v.failedEvents| != 1
  {
    if p.failfast then
      match v.byException
      case Some(e) => (ValidationFailed(item, e), mgr)
      case None => (Passed(item), mgr)
    else
      var withListener := mgr.(listeners := mgr.listeners + 1);
      var (outcome, after) :=
        if v.validByEvents then (Passed(item), withListener)
        else if |v.failedEvents| == 1 then
          (match v.refired
           case Some(x) => ValidationFailed(item, x)
           case None => Passed(item),
           withListener.(eventBased := false))
        else (CompoundFailed(item, v.failedEvents), withListener);
      (outcome, after.(listeners := after.listeners - 1))
  }

  /** One failure in aggregate mode whose re-fire throws is reported exactly
      as fail-fast mode reports that exception: a singular exception, not a
      compound one. */
  lemma SingleFailureAsFailFast<I, E>(mgr: Manager, item: I, e: E, x: E, v: Verdict<E>)
    requires !v.validByEvents && v.failedEvents == [e] && v.refired == Some(x)
    ensures Process(Processor(false), mgr, item, v).0
         == Process(Processor(true), mgr, item, v.(byException := Some(x))).0
  {
  }

  /** One failure in aggregate mode whose re-fire does not throw lets the item
      through, and leaves the manager out of event-based mode. */
  lemma SilentRefirePasses<I, E>(mgr: Manager, item: I, e: E, v: Verdict<E>)
    requires !v.validByEvents && v.failedEvents == [e] && v.refired.None?
    ensures Process(Processor(false), mgr, item, v) == (Passed(item), mgr.(eventBased := false))
  {
  }
  /** Two or more failures, or a failed validation that fired none, give the
      compound exception with every event in order. */
  lemma ManyFailuresAreCompound<I, E>(mgr: Manager, item: I, v: Verdict<E>)
    requires !v.validByEvents && |v.failedEvents| != 1
    ensures Process(Processor(false), mgr, item, v).0 == CompoundFailed(item, v.failedEvents)
  {
  }
}

=== FILE: xml_item_reader.dfy ===
/** `C24XmlItemReader.readLine`: XML text cut into 'lines' at each `<`. The
    reader is modelled by the text it has still to deliver; it is ready while
    that text is non-empty. */
module XmlItemReader {
  import opened Common

  /** No `<` anywhere in `s`. */
  predicate NoOpen(s: string) {
    forall k :: 0 <= k < |s| ==> s[k] != '<'
  }

  /** A line as `readLine` builds it: empty, or a `<` followed by no other `<`. */
  predicate IsXmlLine(line: string) {
    line == [] || (line[0] == '<' && NoOpen(line[1..]))
  }

  /** The loop of `readLine`, with the line built so far: read a character
      while the reader is ready; stop, having consumed it, at a `<` once the
      line is non-empty; a first character other than `<` gets a `<` put in
      front of it. */
  function Scan(line: string, input: string): (r: (string, string))
    requires IsXmlLine(line)
    ensures IsXmlLine(r.0) && |r.0| >= |line|
    ensures line == [] && input != [] ==> r.0 != []
    ensures |r.1| <= |input|
    decreases |input|
  {
    if input == [] then (line, [])
    else
      var c := input[0];
      if c != '<' || line == [] then
        var line' := if line == [] && c != '<' then ['<', c] else line + [c];
        assert line' == ['<'] || line'[1..] == (if line == [] then [c] else line[1..] + [c]);
        Scan(line', input[1..])
      else
        (line, input[1..])
  }

  /** What a scan returns and leaves is what it was given, less the `<` it
      stopped at, if any. */
  lemma {:induction false} ScanSplits(line: string, input: string)
    requires IsXmlLine(line) && line != []
    ensures var r := Scan(line, input);
      (r.1 == [] && line + input == r.0) || line + input == r.0 + "<" + r.1
    decreases |input|
  {
    if input != [] {
      var c := input[0];
      if c != '<' {
        assert line + input == (line + [c]) + input[1..];
        assert (line + [c])[1..] == line[1..] + [c];
        ScanSplits(line + [c], input[1..]);
      } else {
        assert input == "<" + input[1..];
      }
    }
  }

  /** `readLine(reader)`: the next line and the text left after it. */
  function ReadLine(input: string): (r: (string, string))
    ensures IsXmlLine(r.0)
    ensures r.0 == [] <==> input == []
    ensures input == [] ==> r.1 == []
    ensures |r.1| < |input| || input == []
  {
    if input == [] then ([], [])
    else if input[0] == '<' then Scan("<", input[1..])
    else Scan(['<', input[0]], input[1..])
  }

  /** A line and the text left after it make up the text read, with a `<` in
      front when it did not start with one, less the `<` the line stopped at. */
  lemma ReadLineSplits(input: string)
    requires input != []
    ensures var r := ReadLine(input);
      var src := if input[0] != '<' then "<" + input else input;
      (r.1 == [] && src == r.0) || src == r.0 + "<" + r.1
  {
    if input[0] == '<' {
      ScanSplits("<", input[1..]);
      assert input == "<" + input[1..];
    } else {
      ScanSplits(['<', input[0]], input[1..]);
      assert "<" + input == ['<', input[0]] + input[1..];
    }
  }

  /** The lines returned while the reader stays ready. */
  function AllLines(input: string): seq<string>
    decreases |input|
  {
    if input == [] then [] else var (line, rest) := ReadLine(input); [line] + AllLines(rest)
  }

  /** No `<` immediately follows another. */
  predicate NoDoubleOpen(s: string) {
    forall k :: 0 <= k < |s| - 1 ==> s[k] != '<' || s[k + 1] != '<'
  }

  lemma LinesStep(input: string)
    requires input != []
    ensures Concat(AllLines(input)) == ReadLine(input).0 + Concat(AllLines(ReadLine(input).1))
  {
    var (line, rest) := ReadLine(input);
    assert AllLines(input) == [line] + AllLines(rest);
    assert ([line] + AllLines(rest))[1..] == AllLines(rest);
  }

  /** Text that starts with a `<` and never has two in a row comes back whole
      from its lines, except a final `<`, which ends the last line and is
      itself never returned. */
  lemma {:induction false} AllLinesLossless(input: string)
    requires input != [] && input[0] == '<' && NoDoubleOpen(input)
    ensures input[|input| - 1] != '<' ==> Concat(AllLines(input)) == input
    ensures input[|input| - 1] == '<' && |input| > 1 ==> Concat(AllLines(input)) + "<" == input
    decreases |input|
  {
    var (line, rest) := ReadLine(input);
    LinesStep(input);
    ReadLineSplits(input);
    if rest == [] {
      assert Concat(AllLines(input)) == line;
      if input != line {
        assert input == line + "<";
      } else if |input| > 1 {
        assert input[1..] == line[1..];
        assert input[|input| - 1] == line[1..][|input| - 2];
      }
    } else {
      assert input == line + "<" + rest;
      var rest' := "<" + rest;
      assert input[|line|..] == rest';
      assert input[|line|] == '<' && input[|line| + 1] == rest[0];
      FirstLineOfUnopened(rest);
      AllLinesLossless(rest');
      var c := Concat(AllLines(rest'));
      assert Concat(AllLines(input)) == line + c;
      assert input == line + rest';
      assert input[|input| - 1] == rest'[|rest'| - 1];
      if input[|input| - 1] == '<' {
        assert c + "<" == rest';
        assert (line + c) + "<" == line + (c + "<");
      } else {
        assert c == rest';
      }
    }
  }

  /** A `<` consumed as a terminator and followed by another `<` is lost: the
      next line starts with the second one and nothing puts the first back. */
  lemma DoubleOpenLosesOne(a: string, b: string)
    requires NoOpen(a) && NoOpen(b) && b != []
    ensures AllLines("<" + a + "<" + "<" + b) == ["<" + a, "<" + b]
  {
    var s := "<" + a + "<" + "<" + b;
    var t := "<" + b;
    assert s[1..] == a + "<" + t;
    ScanToOpen("<", a, t);
    assert ReadLine(s) == ("<" + a, t);
    assert AllLines(s) == ["<" + a] + AllLines(t);
    assert t[1..] == b;
    ScanToEnd("<", b);
    assert ReadLine(t) == (t, []);
    assert AllLines(t) == [t] + AllLines([]);
  }

  /** A scan past a character other than `<` on a started line. */
  lemma ScanStep(line: string, input: string)
    requires IsXmlLine(line) && line != [] && input != [] && input[0] != '<'
    ensures IsXmlLine(line + [input[0]])
    ensures Scan(line, input) == Scan(line + [input[0]], input[1..])
  {
    assert (line + [input[0]])[1..] == line[1..] + [input[0]];
  }

  /** Text not starting with `<` reads as if the `<` were there: the `<`
      consumed as the previous line's terminator is put back. */
  lemma FirstLineOfUnopened(input: string)
    requires input != []
    ensures input[0] != '<' ==> AllLines(input) == AllLines("<" + input)
    ensures input[0] == '<' ==> AllLines("<" + input) == ["<"] + AllLines(input[1..])
  {
    var s := "<" + input;
    assert s[0] == '<' && s[1..] == input;
    if input[0] != '<' {
      var c := input[0];
      assert ReadLine(s) == Scan("<", input);
      ScanStep("<", input);
      assert "<" + [c] == ['<', c];
      assert ReadLine(input) == Scan(['<', c], input[1..]);
    } else {
      assert ReadLine(s) == ("<", input[1..]);
    }
  }

  /** The example of the reader's design: two elements on one line are cut
      before each `<`. */
  lemma TwoElements(a: string, b: string)
    requires NoOpen(a) && NoOpen(b) && b != []
    ensures AllLines("<" + a + "<" + b) == ["<" + a, "<" + b]
  {
    var s := "<" + a + "<" + b;
    assert s[0] == '<' && s[1..] == a + "<" + b;
    ScanToOpen("<", a, b);
    assert ReadLine(s) == ("<" + a, b);
    UnopenedTail(b);
  }

  /** Text without `<` is one line, with a `<` put in front. */
  lemma UnopenedTail(b: string)
    requires NoOpen(b) && b != []
    ensures AllLines(b) == ["<" + b]
  {
    var t := "<" + b;
    assert b[0] != '<';
    FirstLineOfUnopened(b);
    assert t[0] == '<' && t[1..] == b;
    ScanToEnd("<", b);
    assert ReadLine(t) == (t, []);
    assert AllLines(t) == [t] + AllLines([]);
  }

  /** A scan runs through text without `<` to the end of the input. */
  lemma {:induction false} ScanToEnd(line: string, a: string)
    requires IsXmlLine(line) && line != [] && NoOpen(a)
    ensures Scan(line, a) == (line + a, [])
    decreases |a|
  {
    if a != [] {
      ScanStep(line, a);
      ScanToEnd(line + [a[0]], a[1..]);
      assert a == [a[0]] + a[1..];
      assert line + [a[0]] + a[1..] == line + a;
    } else {
      assert line + a == line;
    }
  }

  /** A scan runs through text without `<` and stops at the next one,
      consuming it. */
  lemma {:induction false} ScanToOpen(line: string, a: string, rest: string)
    requires IsXmlLine(line) && line != [] && NoOpen(a)
    ensures Scan(line, a + "<" + rest) == (line + a, rest)
    decreases |a|
  {
    var input := a + "<" + rest;
    if a == [] {
      assert input[0] == '<' && input[1..] == rest;
      assert line + a == line;
    } else {
      assert input[0] == a[0] && input[1..] == a[1..] + "<" + rest;
      assert (line + [a[0]])[1..] == line[1..] + [a[0]];
      ScanToOpen(line + [a[0]], a[1..], rest);
      assert line + [a[0]] + a[1..] == line + a;
    }
  }
}

=== FILE: zip_file_source.dfy ===
/** The ZipFileSource: a cursor over the entries of a zip archive, opening a
    reader on each entry in archive order. Opening the archive is an oracle
    from file names to entry lists; `None` stands for the IOException of a
    missing or unreadable archive. */
module ZipFileSource {
  import opened Common
  import opened Readers
  import SR = SplittingReader

  /** A zip entry: its text and the size it declares (-1 when unknown). */
  datatype Entry = Entry(text: string, size: int)

  /** `entries` is the archive, `cursor` how many of its entries the
      enumeration has delivered, `reader` the current reader and `multi` the
      `useMultipleThreadsPerReader` hint. */
  datatype ZipSrc = ZipSrc(name: string, entries: seq<Entry>, cursor: nat, reader: Option<ReaderId>,
                           multi: bool, skipLines: int)

  /** A Spring Resource: its description and the archive `getFile` leads to
      (`None` when it throws). */
  datatype Resource = Resource(description: string, entries: Option<seq<Entry>>)

  /** What `getReader()` does: return a reader (or null), or fail with the
      RuntimeException wrapping the IOException of `ready()` on a closed reader. */
  datatype Got = Got(reader: Option<ReaderId>) | ReadyFailed

  const ManyEntries: int := 20
  const SmallEntry: int := 10000

  predicate Inv(z: ZipSrc, h: Heap) {
    && Valid(h)
    && z.cursor <= |z.entries|
    && (z.reader.Some? ==> z.reader.value in h.readers)
  }

  /** A source before `initialise`: no archive, and the hint at its default. */
  function NewZipSource(skipLines: int): (z: ZipSrc)
    ensures z.multi && z.reader.None? && z.skipLines == skipLines
    ensures forall h :: Valid(h) ==> Inv(z, h)
  {
    ZipSrc("", [], 0, None, true, skipLines)
  }

  /** The archive has many entries and its first one looks small. */
  predicate ManySmallEntries(entries: seq<Entry>) {
    entries != [] && |entries| > ManyEntries && (entries[0].size == -1 || entries[0].size < SmallEntry)
  }

  /** Open a reader on the next entry, or forget the reader at the end. */
  function Advance(z: ZipSrc, h: Heap): (r: (ZipSrc, Heap))
    requires Inv(z, h)
    ensures Inv(r.0, r.1) && Grows(h, r.1)
    ensures z.cursor < |z.entries| ==>
      && r.0.cursor == z.cursor + 1 && r.0.reader.Some? && r.0.reader.value !in h.readers
      && r.1.readers == h.readers[r.0.reader.value := Open(z.entries[z.cursor].text, z.skipLines)]
    ensures z.cursor == |z.entries| ==> r.0 == z.(reader := None) && r.1 == h
    ensures r.0.entries == z.entries && r.0.multi == z.multi && r.0.skipLines == z.skipLines
    ensures r.0.name == z.name
  {
    if z.cursor < |z.entries| then
      var (id, h') := Alloc(h, Open(z.entries[z.cursor].text, z.skipLines));
      (z.(cursor := z.cursor + 1, reader := Some(id)), h')
    else
      (z.(reader := None), h)
  }

  /** `initialise(stepExecution)`: open the archive named by the resource or
      by `input.file` (less any `file://`), prime a reader on its first entry,
      and turn the hint off for many small entries. An archive without entries
      primes nothing, so the reader of an earlier initialise stays current. The
      hint is never turned back on. `None` for the RuntimeException wrapping an
      IOException. */
  function Initialise(z: ZipSrc, resource: Option<Resource>, inputFile: string,
                      archives: string -> Option<seq<Entry>>, h: Heap): (r: Option<(ZipSrc, Heap)>)
    requires Inv(z, h)
    ensures var entries := if resource.Some? then resource.value.entries else archives(StripFilePrefix(inputFile));
      r.Some? <==> entries.Some?
    ensures r.Some? ==>
      var (z', h') := r.value;
      && Inv(z', h') && Grows(h, h')
      && z'.name == (if resource.Some? then resource.value.description else StripFilePrefix(inputFile))
      && z'.multi == (z.multi && !ManySmallEntries(z'.entries))
      && z'.skipLines == z.skipLines
      && (z'.entries == [] ==> z'.reader == z.reader && h' == h)
      && (z'.entries != [] ==>
            z'.reader.Some? && z'.cursor == 1 && z'.reader.value !in h.readers
            && h'.readers[z'.reader.value] == Open(z'.entries[0].text, z.skipLines))
  {
    var name := if resource.Some? then resource.value.description else StripFilePrefix(inputFile);
    var entries := if resource.Some? then resource.value.entries else archives(name);
    if entries.None? then None
    else
      var start := ZipSrc(name, entries.value, 0, z.reader, z.multi, z.skipLines);
      var (z', h') := if entries.value != [] then Advance(start, h) else (start, h);
      Some((z'.(multi := z.multi && !ManySmallEntries(entries.value)), h'))
  }

  /** The hint as the tests observe it: a five-entry archive keeps it on ... */
  lemma FiveEntriesShareReaders(entries: seq<Entry>, inputFile: string, archives: string -> Option<seq<Entry>>)
    requires |entries| == 5 && archives(StripFilePrefix(inputFile)) == Some(entries)
    ensures var r := Initialise(NewZipSource(0), None, inputFile, archives, EmptyHeap());
      r.Some? && r.value.0.multi
  {
  }

  /** ... and fifty small entries turn it off. */
  lemma FiftySmallEntriesReaderPerThread(entries: seq<Entry>, inputFile: string,
                                         archives: string -> Option<seq<Entry>>)
    requires |entries| == 50 && entries[0].size < SmallEntry
    requires archives(StripFilePrefix(inputFile)) == Some(entries)
    ensures var r := Initialise(NewZipSource(0), None, inputFile, archives, EmptyHeap());
      r.Some? && !r.value.0.multi
  {
  }

  /** `getReader()`: the current reader while it is ready; once it is used
      up, a reader on the next entry (returned whether or not it is ready), or
      null after the last. `ready()` on a closed current reader fails. */
  function GetReader(z: ZipSrc, h: Heap): (r: (Got, ZipSrc, Heap))
    requires Inv(z, h)
    ensures Inv(r.1, r.2) && Grows(h, r.2)
    ensures r.0.ReadyFailed? <==> z.reader.Some? && !h.readers[z.reader.value].isOpen
    ensures r.0.Got? ==> r.0.reader == r.1.reader
    ensures z.reader.Some? && ReadyOf(h.readers[z.reader.value]) == Some(true) ==> r == (Got(z.reader), z, h)
    ensures z.reader.Some? && ReadyOf(h.readers[z.reader.value]) == Some(false) ==> (r.1, r.2) == Advance(z, h)
    ensures z.reader.None? || r.0.ReadyFailed? ==> r.1 == z && r.2 == h
  {
    match z.reader
    case None => (Got(None), z, h)
    case Some(id) =>
      match ReadyOf(h.readers[id])
      case None => (ReadyFailed, z, h)
      case Some(ready) =>
        if ready then (Got(Some(id)), z, h)
        else
          var (z', h') := Advance(z, h);
          (Got(z'.reader), z', h')
  }

  /** `getNextReader()`: the current reader, with the source moved on to the
      next entry; null, without moving, when there is no current reader. */
  function GetNextReader(z: ZipSrc, h: Heap): (r: (Option<ReaderId>, ZipSrc, Heap))
    requires Inv(z, h)
    ensures Inv(r.1, r.2) && Grows(h, r.2)
    ensures r.0 == z.reader
    ensures z.reader.Some? ==> (r.1, r.2) == Advance(z, h)
    ensures z.reader.None? ==> r.1 == z && r.2 == h
  {
    if z.reader.Some? then
      var (z', h') := Advance(z, h);
      (z.reader, z', h')
    else (None, z, h)
  }

  /** `discard(reader)`: move past the reader if it is the current one, and
      close it in every case. */
  function Discard(z: ZipSrc, h: Heap, id: ReaderId): (r: (ZipSrc, Heap))
    requires Inv(z, h) && id in h.readers
    ensures Inv(r.0, r.1) && Grows(h, r.1)
    ensures r.0.reader != Some(id) && !r.1.readers[id].isOpen
    ensures z.reader == Some(id) ==> r.0 == GetNextReader(z, h).1
    ensures z.reader != Some(id) ==> r.0 == z && r.1 == CloseReader(h, id)
  {
    var (z', h') := if z.reader == Some(id) then var g := GetNextReader(z, h); (g.1, g.2) else (z, h);
    (z', CloseReader(h', id))
  }

  /** `useMultipleThreadsPerReader()`. */
  function UseMultipleThreadsPerReader(z: ZipSrc): bool {
    z.multi
  }

  // ---------------------------------------------------------------------------
  // A discarded reader is never handed out again.

  /** `id` is a reader the source has let go of. */
  predicate Retired(z: ZipSrc, h: Heap, id: ReaderId) {
    id in h.readers && z.reader != Some(id)
  }

  lemma DiscardRetires(z: ZipSrc, h: Heap, id: ReaderId)
    requires Inv(z, h) && id in h.readers
    ensures var (z', h') := Discard(z, h, id); Retired(z', h', id)
  {
  }

  /** Neither accessor returns a retired reader, and each keeps it retired;
      so does the discard of any reader. */
  lemma RetiredStaysRetired(z: ZipSrc, h: Heap, id: ReaderId, other: ReaderId)
    requires Inv(z, h) && Retired(z, h, id) && other in h.readers
    ensures var (g, z', h') := GetReader(z, h); g != Got(Some(id)) && Retired(z', h', id)
    ensures var (n, z', h') := GetNextReader(z, h); n != Some(id) && Retired(z', h', id)
    ensures var (z', h') := Discard(z, h, other); Retired(z', h', id)
  {
  }

  // ---------------------------------------------------------------------------
  // Entries are handed out in archive order, each once.

  /** The current reader is the untouched reader on the entry before the cursor. */
  predicate Fresh(z: ZipSrc, h: Heap) {
    Inv(z, h) &&
    (z.reader.Some? ==> 1 <= z.cursor && h.readers[z.reader.value] == Open(z.entries[z.cursor - 1].text, z.skipLines))
  }

  /** `n` calls of `getNextReader` in a row, with what they returned. */
  function NextReaders(z: ZipSrc, h: Heap, n: nat): (r: (seq<Option<ReaderId>>, ZipSrc, Heap))
    requires Inv(z, h)
    ensures |r.0| == n && Inv(r.1, r.2) && Grows(h, r.2)
    decreases n
  {
    if n == 0 then ([], z, h)
    else
      var (id, z', h') := GetNextReader(z, h);
      var (ids, z'', h'') := NextReaders(z', h', n - 1);
      ([id] + ids, z'', h'')
  }

  /** How many readers a primed source still has to hand out. */
  function Remaining(z: ZipSrc): nat
    requires z.cursor <= |z.entries|
  {
    |z.entries| - z.cursor + 1
  }

  /** One `getNextReader` on a fresh, primed source. */
  lemma FreshStep(z: ZipSrc, h: Heap)
    requires Fresh(z, h) && z.reader.Some?
    ensures var (id, z1, h1) := GetNextReader(z, h);
      && Fresh(z1, h1) && id == z.reader
      && z1.entries == z.entries && z1.skipLines == z.skipLines
      && (z1.reader.Some? <==> z.cursor < |z.entries|)
      && (z1.reader.Some? ==> z1.cursor == z.cursor + 1 && h.next <= z1.reader.value)
      && h1.readers[z.reader.value] == h.readers[z.reader.value]
  {
  }

  lemma UnfoldNextReaders(z: ZipSrc, h: Heap, n: nat)
    requires Inv(z, h) && n > 0
    ensures var (id, z1, h1) := GetNextReader(z, h);
      var (ids, z', h') := NextReaders(z, h, n);
      var (rest, z2, h2) := NextReaders(z1, h1, n - 1);
      ids == [id] + rest && z' == z2 && h' == h2
  {
  }

  /** The `i`-th reader handed out is the untouched reader on the entry `i`
      places after the current one. */
  lemma {:induction false} HandedOutTexts(z: ZipSrc, h: Heap, i: nat)
    requires Fresh(z, h) && z.reader.Some? && i < Remaining(z)
    ensures var (ids, _, h') := NextReaders(z, h, Remaining(z) + 1);
      ids[i].Some? && ids[i].value in h'.readers
      && h'.readers[ids[i].value] == Open(z.entries[z.cursor - 1 + i].text, z.skipLines)
    decreases i, 1
  {
    if i == 0 {
      HandedOutFirst(z, h);
    } else {
      HandedOutLater(z, h, i);
    }
  }

  /** The step from the reader after the current one. */
  lemma {:induction false} HandedOutLater(z: ZipSrc, h: Heap, i: nat)
    requires Fresh(z, h) && z.reader.Some? && 0 < i < Remaining(z)
    ensures var (ids, _, h') := NextReaders(z, h, Remaining(z) + 1);
      ids[i].Some? && ids[i].value in h'.readers
      && h'.readers[ids[i].value] == Open(z.entries[z.cursor - 1 + i].text, z.skipLines)
    decreases i, 0
  {
    var n := Remaining(z);
    var (id, z1, h1) := GetNextReader(z, h);
    FreshStep(z, h);
    UnfoldNextReaders(z, h, n + 1);
    var (ids, _, h') := NextReaders(z, h, n + 1);
    var (rest, _, h2) := NextReaders(z1, h1, n);
    assert ids[i] == rest[i - 1] && h' == h2;
    assert Remaining(z1) + 1 == n;
    HandedOutTexts(z1, h1, i - 1);
    assert z1.cursor - 1 + (i - 1) == z.cursor - 1 + i;
  }

  lemma HandedOutFirst(z: ZipSrc, h: Heap)
    requires Fresh(z, h) && z.reader.Some?
    ensures var (ids, _, h') := NextReaders(z, h, Remaining(z) + 1);
      ids[0] == z.reader && z.reader.value in h'.readers
      && h'.readers[z.reader.value] == Open(z.entries[z.cursor - 1].text, z.skipLines)
  {
    var (id, z1, h1) := GetNextReader(z, h);
    FreshStep(z, h);
    UnfoldNextReaders(z, h, Remaining(z) + 1);
    KeptReaders(z1, h1, Remaining(z), id.value);
  }

  /** Readers are handed out with increasing identities, so none twice. */
  lemma {:induction false} HandedOutDistinct(z: ZipSrc, h: Heap, i: nat, j: nat)
    requires Fresh(z, h) && z.reader.Some? && i < j < Remaining(z)
    ensures var (ids, _, _) := NextReaders(z, h, Remaining(z) + 1);
      ids[i].Some? && ids[j].Some? && ids[i].value < ids[j].value
    decreases i
  {
    var (id, z1, h1) := GetNextReader(z, h);
    FreshStep(z, h);
    UnfoldNextReaders(z, h, Remaining(z) + 1);
    HandedOutTexts(z, h, i);
    HandedOutTexts(z, h, j);
    assert Remaining(z1) == Remaining(z) - 1;
    if i == 0 {
      NextReadersFresh(z1, h1, Remaining(z), j - 1);
    } else {
      HandedOutDistinct(z1, h1, i - 1, j - 1);
    }
  }

  /** After the last entry's reader, `getNextReader` returns null. */
  lemma {:induction false} HandedOutThenNull(z: ZipSrc, h: Heap)
    requires Fresh(z, h) && z.reader.Some?
    ensures var (ids, z', _) := NextReaders(z, h, Remaining(z) + 1);
      ids[Remaining(z)].None? && z'.reader.None?
    decreases Remaining(z)
  {
    var (id, z1, h1) := GetNextReader(z, h);
    FreshStep(z, h);
    UnfoldNextReaders(z, h, Remaining(z) + 1);
    if z1.reader.None? {
      NoneStaysNone(z1, h1, Remaining(z));
    } else {
      assert Remaining(z1) == Remaining(z) - 1;
      HandedOutThenNull(z1, h1);
    }
  }

  /** Readers opened earlier keep their state while `getNextReader` goes on. */
  lemma {:induction false} KeptReaders(z: ZipSrc, h: Heap, n: nat, id: ReaderId)
    requires Inv(z, h) && id in h.readers
    ensures var (_, _, h') := NextReaders(z, h, n); id in h'.readers && h'.readers[id] == h.readers[id]
    decreases n
  {
    if n > 0 {
      var (_, z', h') := GetNextReader(z, h);
      KeptReaders(z', h', n - 1, id);
    }
  }

  /** Every reader `getNextReader` returns is either the current one or opened
      later, so none was in the store before. */
  lemma {:induction false} NextReadersFresh(z: ZipSrc, h: Heap, n: nat, i: nat)
    requires Inv(z, h) && i < n
    ensures var (ids, _, _) := NextReaders(z, h, n);
      ids[i].Some? ==> ids[i] == z.reader || h.next <= ids[i].value
    decreases n
  {
    var (id, z', h') := GetNextReader(z, h);
    if i > 0 {
      NextReadersFresh(z', h', n - 1, i - 1);
    }
  }

  /** With no current reader, `getNextReader` keeps returning null. */
  lemma {:induction false} NoneStaysNone(z: ZipSrc, h: Heap, n: nat)
    requires Inv(z, h) && z.reader.None?
    ensures var (ids, z', h') := NextReaders(z, h, n);
      z' == z && h' == h && forall i :: 0 <= i < n ==> ids[i].None?
    decreases n
  {
    if n > 0 {
      NoneStaysNone(z, h, n - 1);
    }
  }
}

=== FILE: zip_writer_source.dfy ===
/** The name of the single entry a ZipFileWriterSource writes: the output file
    name with any `file://` prefix, leading directories and final extension
    removed. The path separator (the `file.separator` system property) is a
    parameter. */
module ZipFileWriterSource {
  import opened Common

  datatype EntryName = Name(name: string) | IndexOutOfBounds

  /** The separator occurs after the last `.`, which does exist. */
  predicate DotBeforeSeparator(f: string, sep: char) {
    exists j :: 0 <= j < |f| && f[j] == sep && (forall k :: j < k < |f| ==> f[k] != '.') &&
      exists i :: 0 <= i < j && f[i] == '.'
  }

  /** `fileName.substring(lastIndexOf(sep) + 1, lastIndexOf('.'))`, the end
      defaulting to the length when there is no `.`; `substring` throws when
      the end falls before the start. */
  function TailName(f: string, sep: char): (r: EntryName)
    requires sep != '.'
    ensures r.IndexOutOfBounds? <==> DotBeforeSeparator(f, sep)
    ensures r.Name? ==> forall k :: 0 <= k < |r.name| ==> r.name[k] != sep
    ensures r.Name? ==>
      var i := LastIndexOf(f, sep) + 1;
      var e := i + |r.name|;
      && e <= |f| && r.name == f[i..e]
      && (e == |f| || f[e] == '.')
      && forall k :: e < k < |f| ==> f[k] != '.'
  {
    var tailStarts := LastIndexOf(f, sep) + 1;
    var dot := LastIndexOf(f, '.');
    var tailEnds := if dot < 0 then |f| else dot;
    if tailEnds < tailStarts then
      assert DotBeforeSeparator(f, sep) by {
        var j := tailStarts - 1;
        assert f[j] == sep && f[dot] == '.';
      }
      IndexOutOfBounds
    else
      NoDotBeforeSeparator(f, sep);
      Name(f[tailStarts..tailEnds])
  }

  /** When the last `.` does not come before the start of the tail, no `.`
      precedes a separator that is followed by no `.`. */
  lemma NoDotBeforeSeparator(f: string, sep: char)
    requires sep != '.'
    requires var dot := LastIndexOf(f, '.');
      dot < 0 || dot >= LastIndexOf(f, sep) + 1
    ensures !DotBeforeSeparator(f, sep)
  {
    var dot := LastIndexOf(f, '.');
    forall j | 0 <= j < |f| && f[j] == sep && (forall k :: j < k < |f| ==> f[k] != '.')
      ensures forall i :: 0 <= i < j ==> f[i] != '.'
    {
      assert j <= LastIndexOf(f, sep);
      assert dot < 0;
    }
  }

  /** `initialise`: the entry name for the job parameter `output.file`. */
  function EntryNameOf(outputFile: string, sep: char): (r: EntryName)
    requires sep != '.'
    ensures r == TailName(StripFilePrefix(outputFile), sep)
  {
    TailName(StripFilePrefix(outputFile), sep)
  }

  /** A path `dir/base.ext` yields `base`: the directories and the last
      extension go, earlier dots stay. */
  lemma TailOfPath(dir: string, base: string, ext: string, sep: char)
    requires sep != '.'
    requires forall k :: 0 <= k < |base| ==> base[k] != sep
    requires forall k :: 0 <= k < |ext| ==> ext[k] != sep && ext[k] != '.'
    ensures TailName(dir + [sep] + base + "." + ext, sep) == Name(base)
  {
    var f := dir + [sep] + base + "." + ext;
    assert f[|dir|] == sep;
    assert f[|dir| + 1 + |base|] == '.';
    assert f[|dir| + 1..|dir| + 1 + |base|] == base;
  }

  /** A bare name without directories or extension is kept whole. */
  lemma TailOfBareName(base: string, sep: char)
    requires sep != '.'
    requires forall k :: 0 <= k < |base| ==> base[k] != sep && base[k] != '.'
    ensures TailName(base, sep) == Name(base)
  {
    assert LastIndexOf(base, sep) == -1;
    assert LastIndexOf(base, '.') == -1;
  }

  /** A `.` in a directory name with none in the file name makes `substring` fail. */
  lemma DotInDirectoryFails(dir: string, base: string, sep: char)
    requires sep != '.'
    requires forall k :: 0 <= k < |base| ==> base[k] != sep && base[k] != '.'
    ensures TailName(dir + "." + [sep] + base, sep) == IndexOutOfBounds
  {
    var f := dir + "." + [sep] + base;
    assert f[|dir|] == '.' && f[|dir| + 1] == sep;
  }

  /** The temporary file of the writer test: `ItemWriterTest-<n>.csv.zip` in
      some absolute directory gives an entry without separator and without `.zip`. */
  lemma TestFileEntryName(dir: string, n: string, sep: char)
    requires sep == '/'
    requires forall k :: 0 <= k < |n| ==> n[k] != sep
    requires dir == [] || dir[0] == sep
    ensures EntryNameOf(dir + [sep] + "ItemWriterTest-" + n + ".csv" + "." + "zip", sep)
      == Name("ItemWriterTest-" + n + ".csv")
  {
    var base := "ItemWriterTest-" + n + ".csv";
    var f := dir + [sep] + base + "." + "zip";
    assert f == dir + [sep] + "ItemWriterTest-" + n + ".csv" + "." + "zip";
    assert f[0] == sep;
    assert FilePrefix[0] != sep;
    TailOfPath(dir, base, "zip", sep);
  }
}
